=== FILE: README.md ===
# Ruler extension: shape annotations, toolbar placement and settings

This project is a Dafny model of the logic inside a browser extension that lays
a ruler over a web page. It covers two things:

- the shape-annotation engine, which draws rectangles on the page and lets the
  user select, resize, move, nudge and delete them;
- the settings around it: eleven stored settings with defaults, a toolbar that
  is dragged by its header and kept inside the window, hotkeys, and reset.

The repository has two divergent implementations, and each is modelled in its
own terms:

- the React version: `ShapeContainer.tsx`, `Ruler.tsx` and `Toolbar.tsx`;
- the legacy vanilla version: `shapes.js` and the content script `content.js`.

Pointer coordinates are integers. The extension store is a
`map<string, Value>` of dynamically typed values. A pixel string is an integer
written as `"Npx"`, and it is read back with a model of JavaScript's `parseInt`.
Every handler is a pure function from state (and event data) to state.

The modules follow the program's structure:

| module | models |
|---|---|
| `Wrappers`, `Seqs` | `Option`; `findIndex`, `find` and `filter` on sequences |
| `Geometry` | boxes, the eight resize handles, `Math.max(lo, Math.min(v, hi))` |
| `JsText` | `parseInt` for radix 10 and 16 (section 19.2.5 of ECMA-262), `${n}px`, ASCII `toUpperCase` |
| `Color` | both `hexToRgba` functions |
| `Settings` | the settings record, its storage keys and defaults |
| `ShapeContainer` | the React shape registry and its gestures |
| `LegacyShapes` | the `shapes.js` module and its module-level flags |
| `Ruler`, `Toolbar` | the React settings state, safe positions, hotkeys, reset; the toolbar drag and controls |
| `Content` | the legacy content script |

Several behaviours of the source are stated as lemmas because they look
unintended:

- **The legacy shape module never draws.** `content.js` initialises it with the
  container's id string (`content.js:255-259`), where `shapes.js` expects an
  element. The call reaches `rulerElement.appendChild` (`shapes.js:43`) and
  throws there. So the container exists, but it never gets its `mousedown`
  listener. `LegacyShapes.DetachedContainerNeverDraws` and
  `Content.RunNeverDraws` show that no shape is ever started or kept after
  start-up, whatever events follow.
- **A non-primary release keeps an empty shape in the React version.** Every
  `mouseup` ends the gesture, but only a primary-button release applies the
  `MIN_SIZE` filter. A draw ended by another button therefore leaves a 0×0
  shape in the registry. See `ShapeContainer.SecondaryReleaseKeepsEmptyShape`;
  the release that commits on every button, `ShapeContainer.MouseUpCommitting`,
  drops it (`ShapeContainer.CommittingReleaseDropsEmptyShape`).
- **The React resize does not pin the opposite edge.** When a west or north
  handle is dragged past the floor, the east or south edge moves too.
  `shapes.js` pins that edge. See `ShapeContainer.ResizeDoesNotPin` and
  `LegacyShapes.ResizePinsOppositeEdge`.
- **The content script's toolbar drag ignores cleanup.** A drag still in
  progress when cleanup happens saves the toolbar position on release. See
  `Content.DragOutlivesCleanup`, and `Content.DragAcrossCleanup` reaches that
  state from a live script; the guarded drag, `Content.GuardedPointerStep`,
  is shown inert after cleanup by `Content.GuardedCleanedUpIsInert`.

## Model

| member | source | states |
|---|---|---|
| Settings.AllKeys | src/components/Ruler/Ruler.tsx:6-18 | The key list the load and reset loops visit contains every property of the settings record. |
| Settings.StorageKeyInjective | src/components/Ruler/Ruler.tsx:34-46 | Two properties share a storage key only if they are the same property. |
| Settings.KeyOfStorageKey | src/components/Ruler/Ruler.tsx:34-46 | The reverse lookup of a property's storage key finds that property. |
| JsText.PxRoundTrip | src/components/Ruler/Ruler.tsx:97-109 | `parseInt` (radix 10) of `${x}px` gives back `x` for every integer, negative or not, and for NaN: the pixel format and parse are inverse. |
| JsText.ParseIntCases | src/components/Ruler/Ruler.tsx:97-98 | `parseInt` gives NaN on blank text and on a sign with no digit after it; on text starting with a decimal digit it gives the value of the longest leading digit run. |
| JsText.Px | src/components/Ruler/Ruler.tsx:107-110 | `${n}px` ends in "px" after at least one character; it starts with a minus exactly when the integer is negative, a non-negative integer is printed in decimal digits only, and NaN prints as "NaNpx". |
| JsText.DecimalValue | src/components/Ruler/Ruler.tsx:107-110 | The decimal digits printed for a natural number read back as that number. |
| JsText.ParseHexDigits | src/components/ShapeContainer/ShapeContainer.tsx:38 | A non-empty string of hexadecimal digits, parsed with radix 16, gives its positional value. |
| JsText.ToUpper | src/components/Ruler/Ruler.tsx:160 | Upper-casing keeps the length, leaves no lower-case ASCII letter, shifts each lower-case letter by 32 and keeps every other character. |
| JsText.ToUpperIdempotent | src/components/Ruler/Ruler.tsx:160 | Upper-casing an upper-cased key changes nothing. |
| Geometry.Clamp | src/components/Ruler/Ruler.tsx:104-105 | The clamp is at least `lo`, at most `hi` when `lo <= hi`, the identity inside `[lo, hi]`, `lo` at or below `lo`, `hi` at or above `hi` when `lo <= hi`, and `lo` whenever `hi < lo` (the outer `max` wins). |
| Geometry.ClampIdempotent | src/components/Ruler/Ruler.tsx:104-105 | Clamping twice with the same bounds is clamping once. |
| Geometry.BoundingBox | src/components/ShapeContainer/ShapeContainer.tsx:81-84 | The box spanned by two points has non-negative sizes, and its edges are exactly the two points' coordinates on each axis. |
| Geometry.NoOppositeEdges | src/components/ShapeContainer/ShapeContainer.tsx:26 | No handle name contains both 'e' and 'w', or both 'n' and 's', so the order of the direction tests never matters for the React rule. |
| Color.RemoveFirstHash | src/components/ShapeContainer/ShapeContainer.tsx:31 | `replace('#', '')` removes exactly one character when there is a '#' and strips a leading '#'; without a '#' the string is unchanged. |
| Color.RemoveFirstHashIsFirst | src/components/ShapeContainer/ShapeContainer.tsx:31 | The character `replace('#', '')` removes is the first '#': the result is the text before it followed by the text after it. |
| Color.DoubleEach | src/components/ShapeContainer/ShapeContainer.tsx:32-37 | The expansion is twice as long and holds each character twice, in order. |
| Color.MaskedByte | src/components/ShapeContainer/ShapeContainer.tsx:39-41 | A shifted and masked channel is always in 0..255, NaN included. |
| Color.HexToRgba | src/components/ShapeContainer/ShapeContainer.tsx:30-43 | Whatever the input, the React conversion gives three integer channels in 0..255 and passes the alpha through. |
| Color.HexToRgbaSixDigits | src/components/ShapeContainer/ShapeContainer.tsx:30-43 | On `#rrggbb` made of hex digits, the React channels are the three byte pairs, most significant first. |
| Color.ShorthandAsExpansion | src/components/ShapeContainer/ShapeContainer.tsx:32-37 | Both conversions give `#rgb` the same colour as `#rrggbb` with each digit doubled. |
| Color.LegacyHexToRgba | shapes.js:357-366 | A digit string whose length is not 6 after expansion gives the red fallback with the alpha unchanged; otherwise the alpha is clamped into [0, 1], and kept when already inside it. |
| Color.LegacyHexToRgbaSixDigits | shapes.js:357-366 | On `#rrggbb` made of hex digits, the legacy channels are the three byte pairs. |
| Color.VariantsAgree | shapes.js:357-366 | On `#rrggbb` made of hex digits and an alpha in [0, 1], the legacy and React conversions give the same colour. |
| ShapeContainer.ContainerMouseDown | src/components/ShapeContainer/ShapeContainer.tsx:160-176 | A primary press on the bare container appends exactly one inactive 0×0 shape at the pointer with id `nextId`, leaves earlier shapes alone, advances `nextId` by one and starts drawing; any other press changes nothing. |
| ShapeContainer.DrawMoveBoundingBox | src/components/ShapeContainer/ShapeContainer.tsx:74-88 | While drawing, a move gives the shape with id `nextId - 1` the bounding box of the start point and the pointer; every other shape is unchanged. |
| ShapeContainer.MouseMove | src/components/ShapeContainer/ShapeContainer.tsx:73-137 | A move changes only the shape list: the id counter, the drawing flag, the start point and the resize and drag refs are kept, so a gesture continues until its release. |
| ShapeContainer.MouseMoveRewritesOneId | src/components/ShapeContainer/ShapeContainer.tsx:73-137 | A move keeps the number of shapes and every id in place, and changes only shapes of the one id that the priority (drawing, else resize, else drag) selects. |
| ShapeContainer.MouseUp | src/components/ShapeContainer/ShapeContainer.tsx:139-149 | Any release ends every gesture. A primary release while drawing keeps exactly the shapes at least `MIN_SIZE` in both directions; any other release keeps all shapes. |
| ShapeContainer.MouseUpKeepsOrder | src/components/ShapeContainer/ShapeContainer.tsx:139-149 | The commit filter keeps the survivors in their original order: filtering the list is filtering any prefix and the matching suffix. |
| ShapeContainer.SecondaryReleaseKeepsEmptyShape | src/components/ShapeContainer/ShapeContainer.tsx:139-149 | A draw started and ended with a non-primary release keeps its 0×0 shape; a primary release drops it. |
| ShapeContainer.MouseUpCommitting | src/components/ShapeContainer/ShapeContainer.tsx:139-149 | The intended release: any button ends every gesture and, while drawing, keeps exactly the shapes at least `MIN_SIZE` both ways; outside a draw the shapes stay. |
| ShapeContainer.CommittingReleaseDropsEmptyShape | src/components/ShapeContainer/ShapeContainer.tsx:139-149 | With the intended release, a draw ended by any button leaves no 0×0 shape, and on the primary button the intended release is the source's release. |
| ShapeContainer.ResizeRect | src/components/ShapeContainer/ShapeContainer.tsx:96-118 | A resized box is at least `MIN_SIZE` both ways. 'e' and 's' change only the size; 'w' and 'n' also move the corner by the pointer delta, even when the size is floored. An axis without a handle keeps its position and its size (floored). |
| ShapeContainer.ResizeFollowsPointer | src/components/ShapeContainer/ShapeContainer.tsx:91-122 | A handle press followed by a move gives the shape the box above, computed from the box at the press and the pointer's displacement. The shape becomes active and keeps its id. |
| ShapeContainer.ResizeDoesNotPin | src/components/ShapeContainer/ShapeContainer.tsx:106-116 | A concrete west-handle resize past the floor moves the right edge: the opposite edge is not pinned. |
| ShapeContainer.ShapeMouseDown | src/components/ShapeContainer/ShapeContainer.tsx:207-215 | A press on a shape, of any button and active or not, records the pointer's offset from that shape's corner; a press on an unknown id changes nothing. |
| ShapeContainer.ResizeMouseDown | src/components/ShapeContainer/ShapeContainer.tsx:191-205 | A handle press records the shape's current box, the handle and the pointer; a press on an unknown id changes nothing. |
| ShapeContainer.DragTranslates | src/components/ShapeContainer/ShapeContainer.tsx:124-135 | A press on a shape followed by a move translates exactly that shape by the pointer's displacement, keeping its size and selection; all other shapes stay. |
| ShapeContainer.ToggleActive | src/components/ShapeContainer/ShapeContainer.tsx:178-185 | After a toggle a shape is active exactly when it has the id and was inactive; only the `active` flag changes, and the list keeps its length. |
| ShapeContainer.ToggleActiveSelectsOne | src/components/ShapeContainer/ShapeContainer.tsx:178-185 | With unique ids, at most one shape is active after a toggle. |
| ShapeContainer.RemoveShape | src/components/ShapeContainer/ShapeContainer.tsx:187-189 | Every remaining shape was there before and has another id; every shape with another id remains. |
| ShapeContainer.RemoveShapeKeepsOrder | src/components/ShapeContainer/ShapeContainer.tsx:187-189 | Removal keeps the other shapes in their order: removing from a list split anywhere is removing from the prefix followed by removing from the suffix. |
| ShapeContainer.RemoveShapeCutsOne | src/components/ShapeContainer/ShapeContainer.tsx:187-189 | With unique ids, removing the id of the shape at position k gives the list with exactly position k cut out; an id no shape has leaves the list unchanged. |
| ShapeContainer.Clear | src/components/ShapeContainer/ShapeContainer.tsx:66-70 | A clear trigger empties the registry and keeps the id counter, so ids are never reused; the drawing flag and the start, resize and drag refs are left as they were. |
| ShapeContainer.Nudge | src/components/ShapeContainer/ShapeContainer.tsx:225-244 | Up moves the top edge up by one and grows the height; Down grows the height; Left moves the left edge and grows the width; Right grows the width; other keys give nothing. No key shrinks. |
| ShapeContainer.KeyDownEffect | src/components/ShapeContainer/ShapeContainer.tsx:217-260 | With no active shape, or a key that is not an arrow, the registry is unchanged. Otherwise each shape with the first active shape's id takes that shape's nudged box (`Nudge`), with width and height raised to `MIN_SIZE`; every other shape is unchanged and the list keeps its length. |
| ShapeContainer.KeyDown | src/components/ShapeContainer/ShapeContainer.tsx:217-260 | A key press changes only the shape list: the id counter and every gesture in progress are kept. |
| ShapeContainer.StepPreservesWf | src/components/ShapeContainer/ShapeContainer.tsx:160-176 | Every input keeps ids unique and below `nextId`, and `nextId` never decreases. |
| Ruler.Defaults | src/components/Ruler/Ruler.tsx:20-32 | The default record holds every property with its default value. |
| Ruler.SafeCoord | src/components/Ruler/Ruler.tsx:104-105 | A coordinate is NaN exactly when its input is. Otherwise it is at least the padding, at most the bound when the bound is at least the padding, and unchanged when already in range. |
| Ruler.GetSafePosition | src/components/Ruler/Ruler.tsx:96-111 | Each coordinate of the safe position reads back, through `parseInt`, as the input coordinate read with `parseInt` and clamped between the padding and the window bound. |
| Ruler.GetSafePositionBounds | src/components/Ruler/Ruler.tsx:96-111 | A safe position reads back as NaN exactly where the input did. Otherwise top is at least 10, and at most innerHeight - 67 whenever that bound is at least 10; left likewise with innerWidth - 370. |
| Ruler.GetSafePositionKeepsInRange | src/components/Ruler/Ruler.tsx:104-110 | A position already written as in-range `"Npx"` strings comes back unchanged. |
| Ruler.GetSafePositionIdempotent | src/components/Ruler/Ruler.tsx:96-111 | Making a safe position safe again changes nothing. |
| Ruler.Load | src/components/Ruler/Ruler.tsx:113-129 | Loading defines every property. Each property is its stored value when present and not null, else its default; the toolbar position is also made safe. Store, counter and visibility stay. |
| Ruler.LoadedPosition | src/components/Ruler/Ruler.tsx:120-121 | The loaded toolbar position is the stored (or default) position made safe. |
| Ruler.LoadEmpty | src/components/Ruler/Ruler.tsx:113-129 | Loading from an empty store gives every default, with the toolbar position made safe. |
| Ruler.SaveThenLoad | src/components/Ruler/Ruler.tsx:88-94 | A non-null value saved and loaded back is that value, or for the toolbar position the value made safe; every other property loads as before, because the storage keys are distinct. |
| Ruler.ResizeWritesOnlyChanges | src/components/Ruler/Ruler.tsx:136-142 | A viewport resize leaves the state untouched exactly when the position is already safe; the position it leaves behind is always a fixed point of `getSafePosition`. |
| Ruler.Resize | src/components/Ruler/Ruler.tsx:131-147 | A resize keeps every property defined and every property other than `toolbarPosition`, in state and store, and keeps the counter and the visibility. |
| Ruler.ResizeIdempotent | src/components/Ruler/Ruler.tsx:131-147 | A second resize to the same viewport changes nothing more. |
| Ruler.OnKeyToolbarFirst | src/components/Ruler/Ruler.tsx:158-169 | A key whose upper case equals the toolbar key flips and saves `toolbarVisible` and leaves the extension's visibility alone, even when it also equals the extension key. |
| Ruler.OnKeyOtherwise | src/components/Ruler/Ruler.tsx:158-169 | Otherwise a key equal to the extension key flips only `extensionHidden`, and any other key changes nothing; case does not matter. |
| Ruler.OnKey | src/components/Ruler/Ruler.tsx:158-169 | A key press keeps every property defined and the counter; only `toolbarVisible` may change in state and store, and when the extension's visibility flips, settings and store stay as they were. |
| Ruler.ToolbarChangeEffect | src/components/Ruler/Ruler.tsx:184-191 | After a change, each property with a defined new value holds the last such value, in state and store. Every other property, and every store entry that is not a setting, is untouched. |
| Ruler.ToolbarChangeWf | src/components/Ruler/Ruler.tsx:184-191 | A change keeps every property defined, each equal to its last defined new value or else its old value. |
| Ruler.ToolbarChange | src/components/Ruler/Ruler.tsx:184-191 | A change keeps the counter and visibility, never drops a property, and leaves every defined new value's property set in state and its storage key in the store. |
| Ruler.SaveDefaultsEffect | src/components/Ruler/Ruler.tsx:194-196 | Saving the defaults of a list of properties sets each of them, in state and store, to its default and leaves the others as they were. |
| Ruler.Reset | src/components/Ruler/Ruler.tsx:193-198 | After reset every property is defined and equals its default, every setting's store entry holds the default, the shape-clear counter has grown by exactly one, and the extension's visibility is kept. |
| Ruler.ResetThenLoad | src/components/Ruler/Ruler.tsx:193-198 | Loading right after a reset gives every default, with the toolbar position made safe. |
| Toolbar.MouseDown | src/components/Toolbar/Toolbar.tsx:133-141 | A header press starts a drag, and the recorded offset plus the box's corner is the pointer. |
| Toolbar.MouseMove | src/components/Toolbar/Toolbar.tsx:143-151 | A move outside a drag changes nothing; a move during a drag changes only the inline position. |
| Toolbar.MouseMoveInBounds | src/components/Toolbar/Toolbar.tsx:143-151 | A dragged toolbar's left reads back as at least 0, and at most innerWidth minus its width whenever that bound is not negative; top likewise with the height. |
| Toolbar.DragTranslates | src/components/Toolbar/Toolbar.tsx:133-151 | Away from the window's edges a drag moves the toolbar's corner by exactly the pointer's displacement since the press. |
| Toolbar.MouseUp | src/components/Toolbar/Toolbar.tsx:153-159 | A release during a drag ends it and reports the inline position as the new `toolbarPosition`; otherwise it reports nothing. |
| Toolbar.MouseUpOnce | src/components/Toolbar/Toolbar.tsx:153-159 | A second release reports nothing and changes nothing: the position is reported once per drag. |
| Toolbar.DragSaved | src/components/Toolbar/Toolbar.tsx:153-159 | A finished drag, passed to the ruler's change handler, stores and sets the dragged position. |
| Toolbar.HideLinesRoundTrip | src/components/Toolbar/Toolbar.tsx:220-226 | Reporting the box as displayed keeps `linesVisible`'s truth value, and reporting it toggled flips it: a double negation round trip. |
| Toolbar.KeyTextChange | src/components/Toolbar/Toolbar.tsx:55-65 | A hotkey box reports exactly one change, of its own property, whose value is the typed text upper-cased. |
| Toolbar.KeyTextThenPress | src/components/Toolbar/Toolbar.tsx:55-65 | After typing into the toolbar-key box, pressing that key in either case toggles the toolbar and leaves the extension's visibility alone. |
| Toolbar.ToggleClickTwice | src/components/Toolbar/Toolbar.tsx:257-260 | The header button flips `toolbarVisible`, and clicking it twice restores it. |
| LegacyShapes.Cleanup | shapes.js:368-387 | Cleanup forgets every shape, the selection and every gesture, removes the container and its listeners, and keeps the id counter. |
| LegacyShapes.Init | shapes.js:29-54 | `init` resets registry, counter, selection and gesture flags and creates a container; the container listens exactly when the host is an element. |
| LegacyShapes.InitWf | shapes.js:29-54 | `init`, `cleanupShapes` and the module as loaded all satisfy the module invariant. |
| LegacyShapes.DetachedContainerNeverDraws | shapes.js:41-53 | When `init` threw before adding the listener, no press on the container starts a shape. |
| LegacyShapes.DrawStart | shapes.js:56-86 | A draw starts only with the primary button and no resize or drag under way. It then draws an inactive 0×0 shape at the pointer whose id is the old counter, increments the counter, and leaves the kept shapes and selection alone; otherwise nothing changes. |
| LegacyShapes.DrawStartWf | shapes.js:56-86 | Starting a draw on a live container keeps the invariant: the new id is fresh. |
| LegacyShapes.DrawMove | shapes.js:88-104 | While drawing, a move gives the drawn shape the bounding box of the start point and the pointer, keeping its id; nothing else changes. |
| LegacyShapes.KeptReadsBack | shapes.js:115-118 | The size test, which reads the inline width and height back with `parseInt`, passes exactly when the drawn size is at least 5 both ways. |
| LegacyShapes.DrawUp | shapes.js:106-128 | A primary release while drawing ends the draw and keeps the counter. The drawn shape is appended if it is at least 5 both ways and discarded otherwise; any other release changes nothing. |
| LegacyShapes.DrawUpWf | shapes.js:106-128 | Ending a draw keeps the invariant: only shapes at least 5 both ways, with fresh ids, are kept. |
| LegacyShapes.ActivateEffect | shapes.js:153-163 | Activating a kept shape makes it active and selects it unless it was already active; other shapes and the order are untouched. |
| LegacyShapes.DoubleClick | shapes.js:140-151 | A double click with another button changes nothing. A primary one on a kept shape flips whether it is active, and selects it and listens for document clicks when it was inactive; other shapes stay and the list keeps its length. |
| LegacyShapes.DeactivateEffect | shapes.js:165-175 | Deactivating an active shape clears its class and its selection and leaves the others alone; on an inactive shape it changes nothing. |
| LegacyShapes.DocumentClick | shapes.js:177-180 | Without a listener or selection, or for a click inside the selected shape, nothing changes. Otherwise the selected shape becomes inactive, the selection is cleared and the listener removed; other shapes stay. |
| LegacyShapes.ToggleIdempotent | shapes.js:153-175 | The guards make activation and deactivation idempotent. |
| LegacyShapes.DeactivateUndoesActivate | shapes.js:153-175 | Deactivating right after activating an inactive shape restores every shape. |
| LegacyShapes.ResizeStart | shapes.js:198-222 | A primary press on a handle starts a resize of that shape from its current box and the pointer, and selects it; the shapes are unchanged. |
| LegacyShapes.LegacyResizeRect | shapes.js:224-261 | A resized box is at least 10 both ways. 'e' is tested before 'w' and 's' before 'n'; the east and south handles keep the corner, and an axis without a handle keeps its position and size (floored). |
| LegacyShapes.ResizePinsOppositeEdge | shapes.js:244-250 | A west or north handle moves the left or top edge with the pointer; once the floor is reached, the right or bottom edge stays where it was at the press. |
| LegacyShapes.ResizeMove | shapes.js:224-261 | Outside a resize a move changes nothing. During one, every shape with the selected id takes the box `LegacyResizeRect` computes from the initial box and the pointer's displacement; all other shapes and every flag stay. |
| LegacyShapes.ResizeFollowsPointer | shapes.js:198-261 | A handle press followed by a move gives the pressed shape the box `LegacyResizeRect` computes from its box at the press and the pointer's displacement; every other shape is unchanged. |
| LegacyShapes.ResizeMoveWf | shapes.js:224-261 | A resize move keeps the module invariant. |
| LegacyShapes.ResizeUp | shapes.js:263-276 | A primary release during a resize ends it and forgets the initial box; shapes and selection stay. Any other release changes nothing. |
| LegacyShapes.DragStart | shapes.js:278-298 | A drag starts only on an active shape's body, not a handle or delete button, with the primary button and no resize or draw under way. It records the pointer's offset from the shape's corner; otherwise nothing changes. |
| LegacyShapes.DragMove | shapes.js:300-307 | A drag move changes only shape positions: sizes, ids, classes and every flag stay. |
| LegacyShapes.DragTranslates | shapes.js:278-307 | A drag translates exactly the pressed shape by the pointer's displacement since the press; the others stay. |
| LegacyShapes.DragUp | shapes.js:309-320 | A primary release during a drag ends it; shapes and selection stay. Any other release changes nothing. |
| LegacyShapes.DeleteClick | shapes.js:329-340 | A delete click with another button changes nothing; a primary one leaves the document click listener and the drag flag as they were. |
| LegacyShapes.RemoveFirstFilters | shapes.js:335-336 | With unique ids, splicing out the first shape with the id is filtering out every shape with it. |
| LegacyShapes.DeleteRemovesOne | shapes.js:329-340 | Delete removes exactly that shape, keeps the others in order, and clears the selection only if it pointed at that shape. |
| LegacyShapes.DeleteWf | shapes.js:329-340 | Deleting keeps the module invariant. |
| LegacyShapes.ToggleVisibility | shapes.js:389-394 | Showing, or having no container, changes nothing. Hiding deactivates the first active shape, if any, leaving the others as they were; without an active shape nothing changes. |
| LegacyShapes.StepPreservesWf | shapes.js:56-128 | Every event keeps the kept shapes at least 5 both ways with unique ids below the counter, and a drawn shape present exactly while drawing; the counter never goes back. |
| Content.MergedIsSpread | content.js:200 | A setting read from the merge is the entry of the spread `{...defaults, ...items}` under its storage key: the stored value when present, else the default. |
| Content.SelectValue | content.js:226 | The cursor select shows the value when it is one of its options, and shows no option (the empty value) otherwise. |
| Content.ApplySettings | content.js:197-260 | After cleanup, applying does nothing. Otherwise each key box shows the merged key's text, the cursor select and the page cursor take the merged cursor, the lines and the hide-lines box hide exactly when `linesVisible` is falsy, and the toolbar collapses exactly when `toolbarVisible` is falsy. The toolbar takes the stored position only when both its fields are non-empty, else the default. The shape module is re-initialised and does not listen. Store, drag, ruler display, visibility and crosshair are kept. |
| Content.LoadSettings | content.js:262-271 | Loading keeps the store; the page cursor and the toolbar's collapse state come from the stored entry when the read succeeds and the entry exists, else from the default. After cleanup it does nothing. |
| Content.Save | content.js:273-279 | Saving writes exactly one entry of the store and changes nothing else. |
| Content.ColorInput | content.js:308-323 | A picked line or shape colour is saved under its key, and nothing else in the script's state changes; after cleanup it does nothing. |
| Content.ColorInputPersists | content.js:308-323 | A picked colour reads back from the store under its key, and every other setting reads back as before. |
| Content.CursorChange | content.js:325-331 | A picked cursor is shown by the select and applied to the page, and saved under the cursor key; nothing else changes. After cleanup it does nothing. |
| Content.HideLinesChange | content.js:333-339 | The hide-lines box and the lines follow `checked`, and the opposite is saved as `linesVisible`; nothing else changes. After cleanup it does nothing. |
| Content.WithoutSettings | content.js:341-351 | Removing the settings leaves no storage key of a setting and keeps every other entry. |
| Content.ToggleExtension | content.js:378-386 | Toggling the ruler flips its visibility, displays the ruler exactly when it is visible, and sets the page cursor to the select's choice when visible and to "default" when hidden. It applies the shape module's visibility toggle with the new visibility and changes nothing else, saving nothing; after cleanup it does nothing. |
| Content.ToggleToolbar | content.js:366-376 | Toggling the toolbar flips its collapse state and saves the new visibility under its key; nothing else changes. After cleanup it does nothing. |
| Content.KeyInput | content.js:353-364 | The hotkey box shows the typed text. An empty text saves nothing; any other text is saved upper-cased under the box's key. Cursor and shapes stay. |
| Content.ResetClick | content.js:341-351 | When removal succeeds, no setting is left in the store, every other entry stays and no entry appears; when it fails, nothing changes. |
| Content.Crosshair | content.js:188-193 | The crosshair's horizontal line reads back at the pointer's y and the vertical line at its x; nothing else changes. After cleanup it does nothing. |
| Content.KeyDown | content.js:388-400 | After cleanup a key changes nothing. The toolbar key wins: a key matching it flips the toolbar and leaves the ruler's visibility alone. A key matching only the extension key flips the ruler and leaves the toolbar and the store alone. Any other key changes nothing. The shape module is untouched, or toggled as the extension toggle does. |
| Content.HeaderDown | content.js:436-446 | A header press starts a drag and records the pointer's offset from the toolbar's box, changing nothing else. |
| Content.DragMoveInBounds | content.js:410-424 | A dragged toolbar's left reads back within `[0, innerWidth - header width]`, and its top within `[0, innerHeight - header height]`, whenever the bound is not negative. |
| Content.DragMove | content.js:410-424 | Outside a drag nothing changes. During one only the toolbar position changes, and its left and top read back as the pointer minus the offset clamped into the window. |
| Content.DragUp | content.js:426-434 | A release during a drag ends it and saves the inline position, changing nothing but the drag flag and that store entry; otherwise nothing changes. |
| Content.Cleanup | content.js:11-41 | Cleanup happens once: the ruler is removed, the shape module cleaned up and the page cursor reset, and nothing else changes, so a header drag under way survives; a second call changes nothing. |
| Content.OnMessage | content.js:43-49 | Only this extension's `cleanup_extension` message cleans up; every other message changes nothing. |
| Content.Boot | content.js:157-165 | With the ruler found the script loads the settings over the given store; without it the script cleans itself up. |
| Content.CleanupIdempotent | content.js:11-41 | Cleaning up twice, directly or by two cleanup messages, is cleaning up once. |
| Content.CleanedUpIsInert | content.js:11-13 | After cleanup every guarded handler, every key press, reset and message, changes nothing. |
| Content.DragOutlivesCleanup | content.js:426-434 | A drag under way at cleanup still saves the toolbar position on release. |
| Content.DragAcrossCleanup | content.js:404-434 | A header press on a live script, then this extension's cleanup message, then a release: the script is cleaned up and still dragging, and the release saves the toolbar position. |
| Content.GuardedPointerStep | content.js:404-434 | The intended header drag: after cleanup its press, move and release change nothing; before cleanup it is the script's drag. |
| Content.GuardedCleanedUpIsInert | content.js:404-434 | With the guarded drag, a cleaned-up script ignores every event of its own, pointer events included, and a drag under way at cleanup saves nothing on release. |
| Content.LoadDefaults | content.js:262-271 | A failed read shows every default: keys X and Z, the default cursor, lines and toolbar shown, toolbar at 10px, 10px. |
| Content.ResetShowsDefaults | content.js:341-351 | A successful reset removes every setting from the store and shows what loading an empty store shows. |
| Content.ToggleToolbarPersists | content.js:366-376 | Toggling the toolbar flips its collapse state, and loading again shows the same state. |
| Content.ToggleTwice | content.js:366-386 | Toggling the toolbar twice restores its state and saves the original visibility. Toggling the ruler twice restores its visibility, with the cursor back to the select's choice. |
| Content.HideLinesPersists | content.js:333-339 | The hide-lines box persists: loading again shows the box and the lines as left. |
| Content.KeyInputPersists | content.js:353-364 | A typed hotkey is saved upper-cased, so after loading the same key presses match; an empty text saves nothing. |
| Content.CursorPersists | content.js:325-331 | A picked cursor persists: loading again selects it and applies it to the page. |
| Content.DragPersists | content.js:248-251 | A dragged position with non-empty coordinates persists: loading again puts the toolbar there. |
| Content.KeyDownDispatch | content.js:388-400 | The toolbar key wins. A key matching it toggles only the toolbar; a key matching only the extension key toggles only the ruler; any other key changes nothing. |
| Content.ShapeEventKeepsInert | content.js:255-259 | No event of the shape module's own listeners wakes a module that does not listen and holds no shape. |
| Content.HandlersKeepShapesInert | content.js:255-259 | Applying settings, cleaning up and hiding the ruler leave the shape module inert. |
| Content.StepKeepsShapesInert | content.js:255-259 | No single event of the script wakes the shape module. |
| Content.RunNeverDraws | content.js:255-259 | After any sequence of events the shape module still has no listener, no kept shape and no shape being drawn. |
| Content.BootShapesInert | content.js:255-259 | Start-up leaves the shape module inert. |

## Left out

- Rendering is left out: DOM construction, CSS classes and styles, `innerHTML`
  templates, the size label and React rendering. Only the state each handler
  computes is modelled.
- Listener wiring is left out: event-listener registration and removal,
  `useEffect` dependencies and the 150 ms resize debounce timer. Each handler
  is a function, and `Step` functions dispatch events to them.
- The extension store is a map, and reads and writes happen synchronously.
  Storage reads and removals that fail are parameters (`readOk`, `removeOk`).
  A failed write is not modelled, because the source only logs it.
- Floating point is left out. The opacity sliders, `parseFloat`,
  `updateShapeOpacity` and `updateShapeColor` are not modelled.
- The legacy line-thickness slider (`content.js:286-302`) is not modelled. It
  reads a range input with `parseInt` and saves the number, and a range
  input's value is browser-provided text that the model does not represent. Alpha values
  are opaque reals; only the legacy [0, 1] clamp is stated.
- The crosshair and cursor styling are left out. The crosshair is modelled
  only as the two inline positions it writes, and the React body-cursor effect
  is not modelled.
- `src/content.tsx`, `background.js`, `src/background.ts` and `vite.config.ts`
  are not part of this model. They cover mounting, script injection and the
  build.
- The content script takes the shape module from `window.ShapesModule`
  (`content.js:4`). The model assumes that module is present. `background.js`
  (lines 10-13) injects only `content.js`, so in that path the module may be
  undefined and the first call into it would throw; that failure is not
  modelled.
- ShapeContainer.MouseMove: its own contract states only what a move keeps.
  Which shape changes, and how, is stated by
  `ShapeContainer.MouseMoveRewritesOneId`,
  `ShapeContainer.DrawMoveBoundingBox`, `ShapeContainer.ResizeFollowsPointer`
  and `ShapeContainer.DragTranslates`.
- ShapeContainer.KeyDown: its own contract states only what a key press keeps.
  The new box is stated by `ShapeContainer.KeyDownEffect`.
- The legacy module's `getComputedStyle` reads of a shape (`shapes.js:214-217`,
  `292-294`) are modelled as the shape's own inline box, which is what the
  module writes. Stylesheet rules that could give a different computed box are
  not modelled.
- Layout reads are inputs. `getBoundingClientRect` and the window's inner size
  are integer parameters.
- Pointer coordinates are integers. Fractional pixels are not modelled.
- JsText.PxRoundTrip: numbers are integers or NaN. Numbers of 10^21 and above,
  which JavaScript prints in exponent form, are not distinguished.
- Color.HexToRgba: the whole digit string is read as an exact integer. The
  source's `parseInt` rounds beyond 2^53 and gives Infinity beyond about 2^1024,
  and the model does not follow that rounding.
- Color.RemoveFirstHash: its own contract gives the length and the leading-'#'
  case only. Which '#' is removed is stated by `Color.RemoveFirstHashIsFirst`,
  so that callers that unfold the conversion are not slowed by it.
- JsText.ToUpper: only ASCII letters are upper-cased. Other scripts' case
  mappings are not modelled.
- LegacyShapes.Init: the guarantee that no shape is being drawn is stated only
  when a container existed before. The model then goes through `Cleanup`, as
  the source does. Without an earlier container the module invariant gives the
  same, by `LegacyShapes.InitWf`.
- LegacyShapes.DrawStart: a shape still being drawn when a new draw starts is
  dropped from the model. Its element stays orphaned on the page.
- LegacyShapes.Step: a shape the legacy container did not create cannot be
  pressed; presses, clicks and double clicks on unknown ids are ignored. The
  same holds for `ShapeContainer.Step`.
- Content.SelectValue: a value that is not one of the options is modelled as
  the empty selection, as browsers show it.
- Content.InputText: a number written into a text box is not modelled, because
  number-to-text conversion of non-integers is floating point.

=== FILE: color.dfy ===
/** Conversion of a `#rrggbb` (or `#rgb`) colour to the translucent fill used for
    shapes. The React component and the legacy module each have their own version:
    the React one decodes the whole string as one hexadecimal number and masks out
    bytes, the legacy one parses each byte pair and falls back to red for strings of
    the wrong length. Both are modelled, with a lemma saying where they agree. */
module Color {
  import opened Wrappers
  import opened JsText

  /** The components of an `rgba(r, g, b, a)` string. A channel is NaN when the
      source would print NaN into the string. */
  datatype Rgba = Rgba(r: Number, g: Number, b: Number, alpha: real)

  /** Position of the first '#'. */
  function HashIndex(s: string): (i: nat)
    requires '#' in s
    ensures i < |s| && s[i] == '#' && '#' !in s[..i]
  {
    if s[0] == '#' then 0
    else
      assert '#' in s[1..] by { var j :| 0 <= j < |s| && s[j] == '#'; assert s[1..][j - 1] == '#'; }
      var k := HashIndex(s[1..]);
      assert s[..k + 1] == [s[0]] + s[1..][..k];
      k + 1
  }

  /** `s.replace('#', '')`: a string pattern replaces only its first occurrence. */
  function RemoveFirstHash(s: string): (r: string)
    ensures '#' !in s ==> r == s
    ensures '#' in s ==> |r| == |s| - 1
    ensures |s| > 0 && s[0] == '#' ==> r == s[1..]
  {
    if |s| == 0 then s
    else if s[0] == '#' then s[1..]
    else [s[0]] + RemoveFirstHash(s[1..])
  }

  /** The character `replace('#', '')` removes is the first '#': the result is
      the text before it followed by the text after it. */
  lemma {:induction false} RemoveFirstHashIsFirst(s: string)
    requires '#' in s
    ensures RemoveFirstHash(s) == s[..HashIndex(s)] + s[HashIndex(s) + 1..]
  {
    if s[0] != '#' {
      var i := HashIndex(s[1..]);
      RemoveFirstHashIsFirst(s[1..]);
      assert s[..i + 1] == [s[0]] + s[1..][..i];
      assert s[i + 2..] == s[1..][i + 1..];
    }
  }

  /** `h.split('').map(c => c + c).join('')`: every character written twice. */
  function DoubleEach(s: string): (r: string)
    ensures |r| == 2 * |s|
    ensures forall i :: 0 <= i < |s| ==> r[2 * i] == s[i] && r[2 * i + 1] == s[i]
  {
    if |s| == 0 then "" else [s[0], s[0]] + DoubleEach(s[1..])
  }

  /** The hex digits both versions work on: '#' removed, a 3-digit shorthand expanded. */
  function HexDigits(hex: string): (h: string)
    ensures |RemoveFirstHash(hex)| == 3 ==> |h| == 6
    ensures |RemoveFirstHash(hex)| != 3 ==> h == RemoveFirstHash(hex)
  {
    var h := RemoveFirstHash(hex);
    if |h| == 3 then DoubleEach(h) else h
  }

  const Int32Span: int := 0x1_0000_0000

  /** `(num >> k) & 0xff` with `unit` = 2^k: the byte of the 32-bit pattern of
      `ToInt32(num)` starting at bit k. NaN converts to 0. */
  function MaskedByte(num: Number, unit: nat): (c: int)
    requires unit > 0
    ensures 0 <= c < 256
  {
    match num
    case NaN => 0
    case Int(n) => (n % Int32Span) / unit % 256
  }

  /** The React component's `hexToRgba`: the channels are the three low bytes of
      the whole digit string read as one hexadecimal number; alpha is passed through. */
  function HexToRgba(hex: string, alpha: real): (c: Rgba)
    ensures c.r.Int? && c.g.Int? && c.b.Int?
    ensures 0 <= c.r.n < 256 && 0 <= c.g.n < 256 && 0 <= c.b.n < 256
    ensures c.alpha == alpha
  {
    var num := ParseInt(HexDigits(hex), 16);
    Rgba(Int(MaskedByte(num, 65536)), Int(MaskedByte(num, 256)), Int(MaskedByte(num, 1)), alpha)
  }

  /** The fallback colour of the legacy module: opaque-channel red. */
  function Fallback(alpha: real): Rgba
  {
    Rgba(Int(255), Int(0), Int(0), alpha)
  }

  /** The legacy module's `hexToRgba`: a digit string of any length other than 6
      (after shorthand expansion) yields red with the alpha unchanged; otherwise
      each byte pair is parsed on its own and the alpha is clamped into [0, 1]. */
  function LegacyHexToRgba(hex: string, alpha: real): (c: Rgba)
    ensures |HexDigits(hex)| != 6 ==> c == Fallback(alpha)
    ensures |HexDigits(hex)| == 6 ==> 0.0 <= c.alpha <= 1.0
    ensures |HexDigits(hex)| == 6 && 0.0 <= alpha <= 1.0 ==> c.alpha == alpha
  {
    var h := HexDigits(hex);
    if |h| != 6 then Fallback(alpha)
    else
      var a := if alpha < 0.0 then 0.0 else if alpha > 1.0 then 1.0 else alpha;
      Rgba(PairAt(h, 0), PairAt(h, 2), PairAt(h, 4), a)
  }

  /** `parseInt(h.substring(i, i + 2), 16)`: the two characters from index i. */
  function PairAt(h: string, i: nat): Number
    requires i + 2 <= |h|
  {
    ParsePair(h[i], h[i + 1])
  }

  /** `parseInt` of the two-character string `ab` in radix 16. */
  function ParsePair(a: char, b: char): Number
  {
    ParseInt([a, b], 16)
  }

  /** The value of a two-digit hexadecimal pair. */
  function PairValue(a: char, b: char): (v: nat)
    requires IsDigit(a, 16) && IsDigit(b, 16)
    ensures v < 256
  {
    DigitValue(a).value * 16 + DigitValue(b).value
  }

  lemma TwoDigits(p: string)
    requires |p| == 2 && AllDigits(p, 16)
    ensures DigitsValue(p, 16) == PairValue(p[0], p[1])
  {
    var q := p[..1];
    assert q[..0] == [] && q[0] == p[0];
    assert DigitsValue(q, 16) == DigitValue(p[0]).value;
  }

  /** A digit string extended by one more digit. */
  lemma DigitsValueSnoc(s: string, c: char)
    requires AllDigits(s, 16) && IsDigit(c, 16)
    ensures AllDigits(s + [c], 16)
    ensures DigitsValue(s + [c], 16) == DigitsValue(s, 16) * 16 + DigitValue(c).value
  {
    assert (s + [c])[..|s|] == s;
  }

  /** Six hex digits are three byte pairs, most significant first. */
  lemma SixDigits(h: string)
    requires |h| == 6 && AllDigits(h, 16)
    ensures DigitsValue(h, 16) == PairValue(h[0], h[1]) * 65536 + PairValue(h[2], h[3]) * 256 + PairValue(h[4], h[5])
  {
    TwoDigits(h[..2]);
    DigitsValueSnoc(h[..2], h[2]);
    assert h[..2] + [h[2]] == h[..3];
    DigitsValueSnoc(h[..3], h[3]);
    assert h[..3] + [h[3]] == h[..4];
    DigitsValueSnoc(h[..4], h[4]);
    assert h[..4] + [h[4]] == h[..5];
    DigitsValueSnoc(h[..5], h[5]);
    assert h[..5] + [h[5]] == h;
  }

  /** Masking the bytes of a 24-bit value gives back its three bytes. */
  lemma MaskBytes(a: nat, b: nat, c: nat)
    requires a < 256 && b < 256 && c < 256
    ensures MaskedByte(Int(a * 65536 + b * 256 + c), 65536) == a
    ensures MaskedByte(Int(a * 65536 + b * 256 + c), 256) == b
    ensures MaskedByte(Int(a * 65536 + b * 256 + c), 1) == c
  {
    var n := a * 65536 + b * 256 + c;
    assert 0 <= n < Int32Span;
    assert n % Int32Span == n;
    assert n / 65536 == a;
    assert n / 256 == a * 256 + b;
  }

  lemma HashDigits(h: string)
    requires |h| == 6
    ensures HexDigits("#" + h) == h
  {
    assert ("#" + h)[1..] == h;
  }

  /** React `hexToRgba` on a digit string whose value is known. */
  lemma HexToRgbaOfValue(hex: string, alpha: real, a: nat, b: nat, c: nat)
    requires a < 256 && b < 256 && c < 256
    requires ParseInt(HexDigits(hex), 16) == Int(a * 65536 + b * 256 + c)
    ensures HexToRgba(hex, alpha) == Rgba(Int(a), Int(b), Int(c), alpha)
  {
    MaskBytes(a, b, c);
  }

  /** The digits of `#rrggbb` parse as the three byte pairs, most significant first. */
  lemma SixDigitValue(h: string)
    requires |h| == 6 && AllDigits(h, 16)
    ensures ParseInt(HexDigits("#" + h), 16) ==
      Int(PairValue(h[0], h[1]) * 65536 + PairValue(h[2], h[3]) * 256 + PairValue(h[4], h[5]))
  {
    HashDigits(h);
    ParseHexDigits(h);
    SixDigits(h);
  }

  /** React `hexToRgba("#rrggbb", a)`: the channels are the three byte pairs. */
  lemma HexToRgbaSixDigits(h: string, alpha: real)
    requires |h| == 6 && AllDigits(h, 16)
    ensures HexToRgba("#" + h, alpha) ==
      Rgba(Int(PairValue(h[0], h[1])), Int(PairValue(h[2], h[3])), Int(PairValue(h[4], h[5])), alpha)
  {
    SixDigitValue(h);
    HexToRgbaOfValue("#" + h, alpha, PairValue(h[0], h[1]), PairValue(h[2], h[3]), PairValue(h[4], h[5]));
  }

  /** A `#rgb` shorthand leaves the same digit string as its `#rrggbb` expansion. */
  lemma ShorthandExpands(h: string)
    requires |h| == 3
    ensures HexDigits("#" + h) == DoubleEach(h) == HexDigits("#" + DoubleEach(h))
  {
    assert ("#" + h)[1..] == h;
    assert ("#" + DoubleEach(h))[1..] == DoubleEach(h);
  }

  /** Both versions give a `#rgb` shorthand the colour of the `#rrggbb` string
      that writes each of its digits twice. */
  lemma ShorthandAsExpansion(h: string, alpha: real)
    requires |h| == 3
    ensures HexToRgba("#" + h, alpha) == HexToRgba("#" + DoubleEach(h), alpha)
    ensures LegacyHexToRgba("#" + h, alpha) == LegacyHexToRgba("#" + DoubleEach(h), alpha)
  {
    ShorthandExpands(h);
  }

  /** Two hexadecimal digits parse to their pair value. */
  lemma ParsePairDigits(a: char, b: char)
    requires IsDigit(a, 16) && IsDigit(b, 16)
    ensures ParsePair(a, b) == Int(PairValue(a, b))
  {
    var p := [a, b];
    assert AllDigits(p, 16);
    ParseHexDigits(p);
    TwoDigits(p);
  }

  lemma ParsePairs(h: string)
    requires |h| == 6 && AllDigits(h, 16)
    ensures PairAt(h, 0) == Int(PairValue(h[0], h[1]))
    ensures PairAt(h, 2) == Int(PairValue(h[2], h[3]))
    ensures PairAt(h, 4) == Int(PairValue(h[4], h[5]))
  {
    ParsePairDigits(h[0], h[1]);
    ParsePairDigits(h[2], h[3]);
    ParsePairDigits(h[4], h[5]);
  }

  /** Legacy `hexToRgba("#rrggbb", a)`: each channel is its byte pair, in 0..255. */
  lemma LegacyHexToRgbaSixDigits(h: string, alpha: real)
    requires |h| == 6 && AllDigits(h, 16)
    ensures var c := LegacyHexToRgba("#" + h, alpha);
      c.r == Int(PairValue(h[0], h[1])) && c.g == Int(PairValue(h[2], h[3])) && c.b == Int(PairValue(h[4], h[5]))
  {
    var c := LegacyHexToRgba("#" + h, alpha);
    assert c.r == PairAt(h, 0) && c.g == PairAt(h, 2) && c.b == PairAt(h, 4) by {
      HashDigits(h);
    }
    ParsePairs(h);
  }

  /** On a well-formed `#rrggbb` colour and an alpha already in [0, 1], the two
      versions produce the same fill. */
  lemma VariantsAgree(h: string, alpha: real)
    requires |h| == 6 && AllDigits(h, 16)
    requires 0.0 <= alpha <= 1.0
    ensures LegacyHexToRgba("#" + h, alpha) == HexToRgba("#" + h, alpha)
  {
    HexToRgbaSixDigits(h, alpha);
    LegacyHexToRgbaSixDigits(h, alpha);
    HashDigits(h);
  }
}

=== FILE: content.dfy ===
/** The legacy content script: it builds the ruler and its toolbar, applies the
    stored settings to them, saves every toolbar change back to the extension
    store, toggles toolbar and ruler from the keyboard, lets the toolbar be
    dragged by its header, and tears everything down once. */
module Content {
  import opened Wrappers
  import opened Geometry
  import opened JsText
  import opened Settings
  import Shapes = LegacyShapes
  import Toolbar

  /** The options of the cursor-type select. */
  const CursorOptions: seq<string> := ["default", "none", "crosshair", "all-scroll"]

  /** The header drag controller's closure state. */
  datatype Drag = Drag(dragging: bool, offsetX: int, offsetY: int)

  /** The script's state as the page shows it. The key inputs hold text; `None`
      stands for the text of a number, which is not modelled. `bodyCursor` is the
      value last assigned to the page's cursor style; `lineTop` and `lineLeft`
      are the crosshair lines' inline positions. */
  datatype State = State(
    cleanedUp: bool,
    rulerPresent: bool,
    store: Store,
    toolbarKeyText: Option<string>,
    extensionKeyText: Option<string>,
    cursorSelect: string,
    hideLinesChecked: bool,
    linesHidden: bool,
    toolbarCollapsed: bool,
    toolbarStyle: Position,
    bodyCursor: Value,
    extensionVisible: bool,
    rulerDisplayed: bool,
    lineTop: string,
    lineLeft: string,
    shapes: Shapes.State,
    drag: Drag)

  /** The page right after the ruler markup is inserted, before any setting is applied. */
  function Inserted(store: Store): State
  {
    State(false, true, store, Some(""), Some(""), "default", false, false, false, Position("", ""),
          Str(""), true, true, "50%", "50%", Shapes.Loaded, Drag(false, 0, 0))
  }

  /** `defaultSettings` as a store: every default under its storage key. */
  function DefaultStore(): (m: Store)
    ensures forall k: Key :: StorageKey(k) in m && m[StorageKey(k)] == Default(k)
    ensures forall n :: n in m ==> KeyOf(n).Some?
  {
    AllKeys();
    forall k: Key ensures KeyOf(StorageKey(k)) == Some(k) { KeyOfStorageKey(k); }
    map n | n in StorageKeys() :: Default(KeyOf(n).value)
  }

  /** The storage keys of every property. */
  function StorageKeys(): (ns: set<string>)
    ensures forall n :: n in ns <==> KeyOf(n).Some?
  {
    AllKeys();
    set k | k in Keys :: StorageKey(k)
  }

  /** `{...defaultSettings, ...items}` read at one property. */
  function Merged(items: Store, k: Key): Value
  {
    if StorageKey(k) in items then items[StorageKey(k)] else Default(k)
  }

  /** Reading one property of the merge is reading the spread of the defaults
      overridden by the stored items: a stored entry, whatever its value (even
      null), wins over the default. */
  lemma MergedIsSpread(items: Store, k: Key)
    ensures Merged(items, k) == (DefaultStore() + items)[StorageKey(k)]
  {
  }

  /** The text an input shows after `input.value = v`. */
  function InputText(v: Value): Option<string>
  {
    match v
    case Str(s) => Some(s)
    case Null => Some("")
    case Bool(b) => Some(if b then "true" else "false")
    case Pos(_) => Some("[object Object]")
    case Num(_) => None
  }

  /** The value a select shows after `select.value = v`: the matching option, or none. */
  function SelectValue(v: Value): (r: string)
    ensures r in CursorOptions || r == ""
    ensures v.Str? && v.s in CursorOptions ==> r == v.s
    ensures !(v.Str? && v.s in CursorOptions) ==> r == ""
  {
    if v.Str? && v.s in CursorOptions then v.s else ""
  }

  /** Whether a stored position has a truthy `top` and `left`. */
  predicate UsablePosition(v: Value)
  {
    v.Pos? && v.p.top != "" && v.p.left != ""
  }

  /** `applySettings(items)`: after cleanup it does nothing; otherwise every control
      shows the merged setting, the hide-lines box and the lines follow the
      falsiness of `linesVisible`, the toolbar collapses when `toolbarVisible` is
      falsy, takes the stored position only when both its fields are truthy (the
      default otherwise, with no clamping), and the shape module is initialised,
      with the container's id string where an element is expected. */
  function ApplySettings(st: State, items: Store): (r: State)
    ensures st.cleanedUp ==> r == st
    ensures !st.cleanedUp ==> r.store == st.store && !r.cleanedUp && r.drag == st.drag
    ensures !st.cleanedUp && UsablePosition(Merged(items, ToolbarPosition)) ==>
      r.toolbarStyle == Merged(items, ToolbarPosition).p
    ensures !st.cleanedUp && !UsablePosition(Merged(items, ToolbarPosition)) ==> r.toolbarStyle == DefaultPosition
    ensures !st.cleanedUp ==> r.hideLinesChecked == r.linesHidden
    ensures !st.cleanedUp ==> r.shapes.hasContainer && !r.shapes.containerListening && r.shapes.shapes == []
    ensures !st.cleanedUp ==>
      r.toolbarKeyText == InputText(Merged(items, ToggleToolbarKey)) &&
      r.extensionKeyText == InputText(Merged(items, ToggleExtensionKey)) &&
      r.cursorSelect == SelectValue(Merged(items, CursorType)) && r.bodyCursor == Merged(items, CursorType)
    ensures !st.cleanedUp ==>
      r.linesHidden == !Truthy(Merged(items, LinesVisible)) &&
      r.toolbarCollapsed == !Truthy(Merged(items, ToolbarVisible))
    ensures !st.cleanedUp ==>
      r.rulerPresent == st.rulerPresent && r.extensionVisible == st.extensionVisible &&
      r.rulerDisplayed == st.rulerDisplayed && r.lineTop == st.lineTop && r.lineLeft == st.lineLeft
  {
    if st.cleanedUp then st
    else
      var linesVisible := Merged(items, LinesVisible);
      var position := Merged(items, ToolbarPosition);
      st.(toolbarKeyText := InputText(Merged(items, ToggleToolbarKey)),
          extensionKeyText := InputText(Merged(items, ToggleExtensionKey)),
          cursorSelect := SelectValue(Merged(items, CursorType)),
          hideLinesChecked := !Truthy(linesVisible),
          linesHidden := !Truthy(linesVisible),
          toolbarCollapsed := !Truthy(Merged(items, ToolbarVisible)),
          toolbarStyle := if UsablePosition(position) then position.p else DefaultPosition,
          bodyCursor := Merged(items, CursorType),
          shapes := Shapes.Init(st.shapes, false))
  }

  /** What `chrome.storage.local.get(keys)` hands back: the stored values under the storage keys. */
  function Fetch(store: Store): (items: Store)
    ensures forall k: Key :: StorageKey(k) in items <==> StorageKey(k) in store
    ensures forall k: Key :: StorageKey(k) in items ==> items[StorageKey(k)] == store[StorageKey(k)]
    ensures forall n :: n in items ==> KeyOf(n).Some?
  {
    map n | n in store && KeyOf(n).Some? :: store[n]
  }

  /** `loadSettings`: the stored settings are applied, or the defaults alone when
      reading fails. */
  function LoadSettings(st: State, readOk: bool): (r: State)
    ensures st.cleanedUp ==> r == st
    ensures r.store == st.store
    ensures !st.cleanedUp ==>
      r.bodyCursor == (if readOk && StorageKey(CursorType) in st.store then st.store[StorageKey(CursorType)] else Default(CursorType))
    ensures !st.cleanedUp ==>
      r.toolbarCollapsed == !Truthy(if readOk && StorageKey(ToolbarVisible) in st.store
                                    then st.store[StorageKey(ToolbarVisible)] else Default(ToolbarVisible))
  {
    ApplySettings(st, if readOk then Fetch(st.store) else map[])
  }

  /** `saveSetting(StorageKey(k), v)`. */
  function Save(st: State, k: Key, v: Value): (r: State)
    ensures r.store.Keys == st.store.Keys + {StorageKey(k)}
    ensures r.store[StorageKey(k)] == v
    ensures forall n :: n in st.store && n != StorageKey(k) ==> r.store[n] == st.store[n]
    ensures r == st.(store := r.store)
  {
    st.(store := st.store[StorageKey(k) := v])
  }

  /** The line-colour and shape-colour pickers save the picked colour. */
  function ColorInput(st: State, k: Key, color: string): (r: State)
    requires k == LineColor || k == ShapeColor
    ensures st.cleanedUp ==> r == st
    ensures !st.cleanedUp ==> r.store == st.store[StorageKey(k) := Str(color)]
    ensures r == st.(store := r.store)
  {
    if st.cleanedUp then st else Save(st, k, Str(color))
  }

  /** The cursor select's change: the page cursor follows the choice, which is saved. */
  function CursorChange(st: State, choice: string): (r: State)
    ensures st.cleanedUp ==> r == st
    ensures !st.cleanedUp ==>
      r.cursorSelect == choice && r.bodyCursor == Str(choice) &&
      r.store == st.store[StorageKey(CursorType) := Str(choice)]
    ensures r == st.(cursorSelect := r.cursorSelect, bodyCursor := r.bodyCursor, store := r.store)
  {
    if st.cleanedUp then st
    else Save(st.(cursorSelect := choice, bodyCursor := Str(choice)), CursorType, Str(choice))
  }

  /** The hide-lines box's change: the lines hide with the box, and the opposite is saved as `linesVisible`. */
  function HideLinesChange(st: State, checked: bool): (r: State)
    ensures st.cleanedUp ==> r == st
    ensures !st.cleanedUp ==>
      r.hideLinesChecked == checked && r.linesHidden == checked &&
      r.store == st.store[StorageKey(LinesVisible) := Bool(!checked)]
    ensures r == st.(hideLinesChecked := r.hideLinesChecked, linesHidden := r.linesHidden, store := r.store)
  {
    if st.cleanedUp then st
    else Save(st.(hideLinesChecked := checked, linesHidden := checked), LinesVisible, Bool(!checked))
  }

  /** The stored values, without any setting. */
  function WithoutSettings(store: Store): (r: Store)
    ensures forall k: Key :: StorageKey(k) !in r
    ensures forall n :: n in store && KeyOf(n).None? ==> n in r && r[n] == store[n]
    ensures forall n :: n in r ==> n in store
  {
    map n | n in store && KeyOf(n).None? :: store[n]
  }

  /** The reset button: every setting is removed from the store and, when that
      succeeds, the settings are loaded again. */
  function ResetClick(st: State, removeOk: bool, readOk: bool): (r: State)
    ensures st.cleanedUp || !removeOk ==> r == st
    ensures !st.cleanedUp && removeOk ==>
      (forall k: Key :: StorageKey(k) !in r.store) &&
      (forall n :: n in st.store && KeyOf(n).None? ==> n in r.store && r.store[n] == st.store[n]) &&
      (forall n :: n in r.store ==> n in st.store)
  {
    if st.cleanedUp || !removeOk then st
    else LoadSettings(st.(store := WithoutSettings(st.store)), readOk)
  }

  /** A key input's `input` event: the typed text stays in the box; its upper-cased
      form is saved unless it is empty. */
  function KeyInput(st: State, toolbarKey: bool, text: string): (r: State)
    ensures st.cleanedUp ==> r == st
    ensures !st.cleanedUp ==>
      (if toolbarKey then r.toolbarKeyText else r.extensionKeyText) == Some(text) &&
      r.cursorSelect == st.cursorSelect && r.shapes == st.shapes
    ensures !st.cleanedUp && text == "" ==> r.store == st.store
    ensures !st.cleanedUp && text != "" ==>
      r.store == st.store[StorageKey(if toolbarKey then ToggleToolbarKey else ToggleExtensionKey) := Str(ToUpper(text))]
  {
    if st.cleanedUp then st
    else
      var s := if toolbarKey then st.(toolbarKeyText := Some(text)) else st.(extensionKeyText := Some(text));
      var upper := ToUpper(text);
      if upper == "" then s
      else Save(s, if toolbarKey then ToggleToolbarKey else ToggleExtensionKey, Str(upper))
  }

  /** `toggleToolbarVisibility`: the toolbar collapses or expands, and the new
      visibility is saved. */
  function ToggleToolbar(st: State): (r: State)
    ensures st.cleanedUp ==> r == st
    ensures !st.cleanedUp ==>
      r.toolbarCollapsed == !st.toolbarCollapsed &&
      r.store == st.store[StorageKey(ToolbarVisible) := Bool(!r.toolbarCollapsed)] &&
      r == st.(toolbarCollapsed := r.toolbarCollapsed, store := r.store)
  {
    if st.cleanedUp then st
    else
      var isVisible := !st.toolbarCollapsed;
      Save(st.(toolbarCollapsed := isVisible), ToolbarVisible, Bool(!isVisible))
  }

  /** `toggleExtensionVisibility`: the ruler shows or hides, hiding deselects the
      active shape, and the page cursor is the select's choice while shown and
      `default` while hidden. Nothing is saved. */
  function ToggleExtension(st: State): (r: State)
    ensures st.cleanedUp ==> r == st
    ensures !st.cleanedUp ==> r.store == st.store && r.extensionVisible == !st.extensionVisible
    ensures !st.cleanedUp ==>
      r.rulerDisplayed == r.extensionVisible && r.cursorSelect == st.cursorSelect &&
      r.bodyCursor == (if r.extensionVisible then Str(st.cursorSelect) else Str("default"))
    ensures !st.cleanedUp ==>
      r == st.(extensionVisible := r.extensionVisible, rulerDisplayed := r.rulerDisplayed, bodyCursor := r.bodyCursor,
               shapes := Shapes.ToggleVisibility(st.shapes, r.extensionVisible))
  {
    if st.cleanedUp then st
    else
      var visible := !st.extensionVisible;
      st.(extensionVisible := visible,
          shapes := Shapes.ToggleVisibility(st.shapes, visible),
          rulerDisplayed := visible,
          bodyCursor := if visible then Str(st.cursorSelect) else Str("default"))
  }

  /** Whether a pressed key names the key an input shows, ignoring ASCII case. */
  predicate KeyMatches(key: string, text: Option<string>)
  {
    text.Some? && ToUpper(key) == ToUpper(text.value)
  }

  /** The document `keydown` handler: the toolbar key toggles the toolbar, else the
      extension key toggles the ruler. */
  function KeyDown(st: State, key: string): (r: State)
    ensures r.shapes == st.shapes || r.shapes == Shapes.ToggleVisibility(st.shapes, !st.extensionVisible)
    ensures st.cleanedUp ==> r == st
    ensures !st.cleanedUp && KeyMatches(key, st.toolbarKeyText) ==>
      r.toolbarCollapsed == !st.toolbarCollapsed && r.extensionVisible == st.extensionVisible
    ensures !st.cleanedUp && !KeyMatches(key, st.toolbarKeyText) && KeyMatches(key, st.extensionKeyText) ==>
      r.extensionVisible == !st.extensionVisible && r.toolbarCollapsed == st.toolbarCollapsed && r.store == st.store
    ensures !KeyMatches(key, st.toolbarKeyText) && !KeyMatches(key, st.extensionKeyText) ==> r == st
  {
    if st.cleanedUp then st
    else if KeyMatches(key, st.toolbarKeyText) then ToggleToolbar(st)
    else if KeyMatches(key, st.extensionKeyText) then ToggleExtension(st)
    else st
  }

  /** The crosshair's `mousemove` handler: the lines move to the pointer. */
  function Crosshair(st: State, x: int, y: int): (r: State)
    ensures st.cleanedUp ==> r == st
    ensures !st.cleanedUp ==>
      ParseInt(r.lineTop, 10) == Int(y) && ParseInt(r.lineLeft, 10) == Int(x) &&
      r == st.(lineTop := r.lineTop, lineLeft := r.lineLeft)
  {
    PxRoundTrip(Int(x));
    PxRoundTrip(Int(y));
    if st.cleanedUp then st else st.(lineTop := Px(Int(y)), lineLeft := Px(Int(x)))
  }

  /** The header's `mousedown`: a drag starts, remembering the pointer's offset
      from the toolbar's box. No button or cleanup check. */
  function HeaderDown(st: State, x: int, y: int, box: Rect): (r: State)
    ensures r.drag.dragging && r.drag.offsetX == x - box.x && r.drag.offsetY == y - box.y
    ensures r == st.(drag := r.drag)
  {
    st.(drag := Drag(true, x - box.x, y - box.y))
  }

  /** The drag's `mousemove`: the pointer minus the offset, clamped to
      `[0, window size - header size]`, becomes the toolbar's inline position. */
  function DragMove(st: State, x: int, y: int, header: Rect, innerWidth: int, innerHeight: int): (r: State)
    ensures !st.drag.dragging ==> r == st
    ensures r == st.(toolbarStyle := r.toolbarStyle)
    ensures st.drag.dragging ==>
      ParseInt(r.toolbarStyle.left, 10) == Int(Clamp(x - st.drag.offsetX, 0, innerWidth - header.width)) &&
      ParseInt(r.toolbarStyle.top, 10) == Int(Clamp(y - st.drag.offsetY, 0, innerHeight - header.height))
  {
    PxRoundTrip(Int(Clamp(x - st.drag.offsetX, 0, innerWidth - header.width)));
    PxRoundTrip(Int(Clamp(y - st.drag.offsetY, 0, innerHeight - header.height)));
    if !st.drag.dragging then st
    else
      var newX := Clamp(x - st.drag.offsetX, 0, innerWidth - header.width);
      var newY := Clamp(y - st.drag.offsetY, 0, innerHeight - header.height);
      st.(toolbarStyle := Position(Px(Int(newY)), Px(Int(newX))))
  }

  /** A dragged toolbar's inline position reads back inside the window: `left`
      within `[0, innerWidth - header width]`, `top` within `[0, innerHeight -
      header height]` (the upper bound whenever it is not negative). */
  lemma DragMoveInBounds(st: State, x: int, y: int, header: Rect, innerWidth: int, innerHeight: int)
    requires st.drag.dragging
    ensures var r := DragMove(st, x, y, header, innerWidth, innerHeight);
      Toolbar.ReadsWithin(r.toolbarStyle.left, innerWidth - header.width) &&
      Toolbar.ReadsWithin(r.toolbarStyle.top, innerHeight - header.height)
  {
    var newX := Clamp(x - st.drag.offsetX, 0, innerWidth - header.width);
    var newY := Clamp(y - st.drag.offsetY, 0, innerHeight - header.height);
    PxRoundTrip(Int(newX));
    PxRoundTrip(Int(newY));
  }

  /** The drag's `mouseup`: the drag ends and the inline position is saved. */
  function DragUp(st: State): (r: State)
    ensures !st.drag.dragging ==> r == st
    ensures st.drag.dragging ==> !r.drag.dragging && r.store == st.store[StorageKey(ToolbarPosition) := Pos(st.toolbarStyle)]
    ensures st.drag.dragging ==> r == st.(drag := r.drag, store := r.store)
  {
    if !st.drag.dragging then st
    else Save(st.(drag := st.drag.(dragging := false)), ToolbarPosition, Pos(st.toolbarStyle))
  }

  /** `cleanupExtensionInstance`: once only, the ruler is removed, the shape
      module cleaned up, and the page cursor reset to `default`. */
  function Cleanup(st: State): (r: State)
    ensures r.cleanedUp
    ensures st.cleanedUp ==> r == st
    ensures !st.cleanedUp ==> !r.shapes.hasContainer && !r.rulerPresent && r.bodyCursor == Str("default") && r.store == st.store
    ensures !st.cleanedUp ==> r == st.(rulerPresent := false, shapes := r.shapes, bodyCursor := Str("default"), cleanedUp := true)
    ensures !st.cleanedUp ==> r.shapes == Shapes.Cleanup(st.shapes)
  {
    if st.cleanedUp then st
    else st.(rulerPresent := false, shapes := Shapes.Cleanup(st.shapes), bodyCursor := Str("default"), cleanedUp := true)
  }

  /** The runtime message listener: only this extension's `cleanup_extension` command cleans up. */
  function OnMessage(st: State, fromSelf: bool, command: string): (r: State)
    ensures fromSelf && command == "cleanup_extension" ==> r.cleanedUp
    ensures !(fromSelf && command == "cleanup_extension") ==> r == st
  {
    if fromSelf && command == "cleanup_extension" then Cleanup(st) else st
  }

  /** Start-up: with the ruler in the page the settings are loaded, otherwise the
      instance cleans itself up at once. */
  function Boot(store: Store, rulerFound: bool, readOk: bool): (r: State)
    ensures !rulerFound ==> r.cleanedUp
    ensures rulerFound ==> !r.cleanedUp && r.store == store
  {
    if rulerFound then LoadSettings(Inserted(store), readOk) else Cleanup(Inserted(store))
  }

  /** The toolbar's own controls. */
  datatype Control =
    | ColorPicked(setting: Key, color: string)
    | CursorPicked(choice: string)
    | HideLinesToggled(checked: bool)
    | KeyTyped(toolbarKey: bool, text: string)
    | CollapseClicked

  /** Pointer events: a move reaches the crosshair and the header drag. */
  datatype Pointer =
    | PointerMoved(x: int, y: int, header: Rect, innerWidth: int, innerHeight: int)
    | HeaderPressed(x: int, y: int, box: Rect)
    | PointerReleased

  /** The events the script reacts to; `Shape` is an event of the shape module's own listeners. */
  datatype Event =
    | Input(c: Control)
    | Mouse(p: Pointer)
    | KeyPressed(key: string)
    | ResetPressed(removeOk: bool, readOk: bool)
    | Message(fromSelf: bool, command: string)
    | Shape(ev: Shapes.Event)

  /** A control's handler; none of them changes the modelled shape state. */
  function ControlStep(st: State, c: Control): (r: State)
    ensures r.shapes == st.shapes
    ensures st.cleanedUp ==> r == st
  {
    match c
    case ColorPicked(k, color) => if k == LineColor || k == ShapeColor then ColorInput(st, k, color) else st
    case CursorPicked(choice) => CursorChange(st, choice)
    case HideLinesToggled(checked) => HideLinesChange(st, checked)
    case KeyTyped(toolbarKey, text) => KeyInput(st, toolbarKey, text)
    case CollapseClicked => ToggleToolbar(st)
  }

  /** A pointer event's handlers; they reach neither the shape module nor, except
      on release, the store. The header can be pressed only while the ruler is in the page. */
  function PointerStep(st: State, p: Pointer): (r: State)
    ensures r.shapes == st.shapes && r.cleanedUp == st.cleanedUp
    ensures !p.PointerReleased? ==> r.store == st.store
  {
    match p
    case PointerMoved(x, y, header, w, h) => DragMove(Crosshair(st, x, y), x, y, header, w, h)
    case HeaderPressed(x, y, box) => if st.rulerPresent then HeaderDown(st, x, y, box) else st
    case PointerReleased => DragUp(st)
  }

  function Step(st: State, ev: Event): State
  {
    match ev
    case Input(c) => ControlStep(st, c)
    case Mouse(p) => PointerStep(st, p)
    case KeyPressed(key) => KeyDown(st, key)
    case ResetPressed(removeOk, readOk) => ResetClick(st, removeOk, readOk)
    case Message(fromSelf, command) => OnMessage(st, fromSelf, command)
    case Shape(e) => st.(shapes := Shapes.Step(st.shapes, e))
  }

  /** The events in order. */
  function Run(st: State, evs: seq<Event>): State
    decreases |evs|
  {
    if |evs| == 0 then st else Run(Step(st, evs[0]), evs[1..])
  }
  /** The shape module as the script leaves it: no container listens, and no
      shape is kept or being drawn. */
  predicate ShapesInert(sh: Shapes.State)
  {
    !sh.containerListening && sh.shapes == [] && sh.current.None? && !sh.isDrawing
  }

  /** No event of the shape module's own listeners wakes an inert module. */
  lemma ShapeEventKeepsInert(sh: Shapes.State, e: Shapes.Event)
    requires ShapesInert(sh)
    ensures ShapesInert(Shapes.Step(sh, e))
  {
    match e
    case Down(button, target, x, y) =>
      assert Shapes.Press(sh, button, target, x, y) == sh;
    case Move(x, y) =>
      assert Shapes.DrawMove(sh, x, y) == sh;
    case Up(button) =>
      assert Shapes.DrawUp(sh, button) == sh;
    case Click(button, target) =>
      assert Shapes.DocumentClick(sh, target) == sh;
    case DoubleClickOn(button, id) =>
    case Hide(visible) =>
  }

  /** Loading settings, cleaning up and hiding the ruler leave the shape module inert. */
  lemma HandlersKeepShapesInert(st: State, items: Store, visible: bool)
    requires ShapesInert(st.shapes)
    ensures ShapesInert(ApplySettings(st, items).shapes)
    ensures ShapesInert(Cleanup(st).shapes)
    ensures ShapesInert(Shapes.ToggleVisibility(st.shapes, visible))
  {
  }

  lemma KeyPressKeepsInert(st: State, key: string)
    requires ShapesInert(st.shapes)
    ensures ShapesInert(Step(st, KeyPressed(key)).shapes)
  {
    HandlersKeepShapesInert(st, map[], !st.extensionVisible);
  }

  lemma ResetKeepsInert(st: State, removeOk: bool, readOk: bool)
    requires ShapesInert(st.shapes)
    ensures ShapesInert(Step(st, ResetPressed(removeOk, readOk)).shapes)
  {
    var s := st.(store := WithoutSettings(st.store));
    HandlersKeepShapesInert(s, if readOk then Fetch(s.store) else map[], true);
  }

  /** A single event leaves the shape module inert. */
  lemma StepKeepsShapesInert(st: State, ev: Event)
    requires ShapesInert(st.shapes)
    ensures ShapesInert(Step(st, ev).shapes)
  {
    if ev.Shape? {
      ShapeEventKeepsInert(st.shapes, ev.ev);
    } else if ev.KeyPressed? {
      KeyPressKeepsInert(st, ev.key);
    } else if ev.ResetPressed? {
      ResetKeepsInert(st, ev.removeOk, ev.readOk);
    } else if ev.Message? {
      HandlersKeepShapesInert(st, map[], true);
    }
  }

  /** Whatever happens after start-up, the legacy shape module never keeps or even
      starts a shape: the container it is given is an id string, so `init` throws
      before the container's `mousedown` listener is added. */
  lemma {:induction false} RunNeverDraws(st: State, evs: seq<Event>)
    requires ShapesInert(st.shapes)
    ensures ShapesInert(Run(st, evs).shapes)
    decreases |evs|
  {
    if |evs| > 0 {
      StepKeepsShapesInert(st, evs[0]);
      RunNeverDraws(Step(st, evs[0]), evs[1..]);
    }
  }

  /** Start-up leaves the shape module inert. */
  lemma BootShapesInert(store: Store, rulerFound: bool, readOk: bool)
    ensures ShapesInert(Boot(store, rulerFound, readOk).shapes)
  {
  }

  /** Loading with nothing stored, or when reading fails, shows every default:
      keys X and Z, the default cursor, lines and toolbar shown at 10px, 10px. */
  lemma LoadDefaults(st: State)
    requires !st.cleanedUp
    ensures var r := LoadSettings(st, false);
      r.toolbarKeyText == Some("X") && r.extensionKeyText == Some("Z") &&
      r.cursorSelect == "default" && r.bodyCursor == Str("default") &&
      !r.hideLinesChecked && !r.linesHidden && !r.toolbarCollapsed &&
      r.toolbarStyle == DefaultPosition
  {
    LoadDefaultKeys(st);
    LoadDefaultLines(st);
    LoadDefaultToolbar(st);
  }

  lemma LoadDefaultKeys(st: State)
    requires !st.cleanedUp
    ensures var r := LoadSettings(st, false);
      r.toolbarKeyText == Some("X") && r.extensionKeyText == Some("Z") &&
      r.cursorSelect == "default" && r.bodyCursor == Str("default")
  {
    assert Merged(map[], CursorType) == Str("default") && "default" in CursorOptions;
  }

  lemma LoadDefaultLines(st: State)
    requires !st.cleanedUp
    ensures var r := LoadSettings(st, false); !r.hideLinesChecked && !r.linesHidden
  {
    assert Merged(map[], LinesVisible) == Bool(true);
  }

  lemma LoadDefaultToolbar(st: State)
    requires !st.cleanedUp
    ensures var r := LoadSettings(st, false); !r.toolbarCollapsed && r.toolbarStyle == DefaultPosition
  {
    assert Merged(map[], ToolbarPosition) == Pos(DefaultPosition);
  }

  /** Resetting, when removal and reading succeed, removes every setting from the
      store and shows the same as loading with nothing stored. */
  lemma ResetShowsDefaults(st: State)
    requires !st.cleanedUp
    ensures var r := ResetClick(st, true, true);
      (forall k: Key :: StorageKey(k) !in r.store) &&
      r == LoadSettings(st.(store := r.store), false)
  {
    var s := st.(store := WithoutSettings(st.store));
    assert Fetch(s.store) == map[];
  }

  /** Collapsing from the header button persists: loading again shows the same
      collapse state. */
  lemma ToggleToolbarPersists(st: State)
    requires !st.cleanedUp
    ensures var t := ToggleToolbar(st);
      t.toolbarCollapsed == !st.toolbarCollapsed &&
      LoadSettings(t, true).toolbarCollapsed == t.toolbarCollapsed
  {
    var t := ToggleToolbar(st);
    assert Merged(Fetch(t.store), ToolbarVisible) == Bool(st.toolbarCollapsed);
  }

  /** The hide-lines box persists: loading again shows the box and the lines as left. */
  lemma HideLinesPersists(st: State, checked: bool)
    requires !st.cleanedUp
    ensures var t := HideLinesChange(st, checked);
      var r := LoadSettings(t, true);
      t.linesHidden == checked && r.linesHidden == checked && r.hideLinesChecked == checked
  {
    var t := HideLinesChange(st, checked);
    assert Merged(Fetch(t.store), LinesVisible) == Bool(!checked);
  }

  /** A typed hotkey persists upper-cased: after loading again, the box shows the
      upper-cased text and the same key presses match it. An empty text saves nothing. */
  lemma KeyInputPersists(st: State, text: string, key: string)
    requires !st.cleanedUp
    ensures ToUpper(text) == "" ==> KeyInput(st, true, text).store == st.store
    ensures ToUpper(text) != "" ==>
      var r := LoadSettings(KeyInput(st, true, text), true);
      r.toolbarKeyText == Some(ToUpper(text)) &&
      (KeyMatches(key, r.toolbarKeyText) <==> KeyMatches(key, Some(text)))
  {
    if ToUpper(text) != "" {
      var t := KeyInput(st, true, text);
      assert Merged(Fetch(t.store), ToggleToolbarKey) == Str(ToUpper(text));
      ToUpperIdempotent(text);
    }
  }

  /** A picked cursor persists: loading again selects it and applies it to the page. */
  lemma CursorPersists(st: State, choice: string)
    requires !st.cleanedUp && choice in CursorOptions
    ensures var r := LoadSettings(CursorChange(st, choice), true);
      r.cursorSelect == choice && r.bodyCursor == Str(choice)
  {
    var t := CursorChange(st, choice);
    assert Merged(Fetch(t.store), CursorType) == Str(choice);
  }

  /** A picked colour persists: the settings read back from the store give the
      colour under its key, and every other setting reads back as before. */
  lemma ColorInputPersists(st: State, k: Key, color: string)
    requires !st.cleanedUp && (k == LineColor || k == ShapeColor)
    ensures Merged(Fetch(ColorInput(st, k, color).store), k) == Str(color)
    ensures forall k': Key :: k' != k ==>
      Merged(Fetch(ColorInput(st, k, color).store), k') == Merged(Fetch(st.store), k')
  {
    forall k': Key | k' != k
      ensures Merged(Fetch(ColorInput(st, k, color).store), k') == Merged(Fetch(st.store), k')
    {
      StorageKeyInjective(k, k');
    }
  }

  /** A dragged toolbar position persists: loading again puts the toolbar where
      the drag left it, provided both coordinates are non-empty. */
  lemma DragPersists(st: State)
    requires !st.cleanedUp && st.drag.dragging
    requires st.toolbarStyle.top != "" && st.toolbarStyle.left != ""
    ensures LoadSettings(DragUp(st), true).toolbarStyle == st.toolbarStyle
  {
    var t := DragUp(st);
    assert Merged(Fetch(t.store), ToolbarPosition) == Pos(st.toolbarStyle);
  }

  /** Cleaning up twice is cleaning up once. */
  lemma CleanupIdempotent(st: State)
    ensures Cleanup(Cleanup(st)) == Cleanup(st)
    ensures OnMessage(OnMessage(st, true, "cleanup_extension"), true, "cleanup_extension") == Cleanup(st)
  {
  }

  /** After cleanup every guarded handler does nothing: settings, hotkeys, the
      toggles and the crosshair are inert, and so are later messages. */
  lemma CleanedUpIsInert(st: State, ev: Event)
    requires st.cleanedUp
    requires !ev.Mouse? && !ev.Shape?
    ensures Step(st, ev) == st
  {
  }

  /** The header drag is not guarded: a drag under way when cleanup happens still
      saves the toolbar position on release. */
  lemma DragOutlivesCleanup(st: State)
    requires st.cleanedUp && st.drag.dragging
    ensures Step(st, Mouse(PointerReleased)).store[StorageKey(ToolbarPosition)] == Pos(st.toolbarStyle)
  {
  }

  /** The drag that outlives cleanup is reachable: a header press on a live
      script, then this extension's cleanup message, then a release still saves
      the toolbar position the press left in place. */
  lemma DragAcrossCleanup(st: State, x: int, y: int, box: Rect)
    requires !st.cleanedUp && st.rulerPresent
    ensures var s1 := Step(st, Mouse(HeaderPressed(x, y, box)));
      var s2 := Step(s1, Message(true, "cleanup_extension"));
      s2.cleanedUp && s2.drag.dragging &&
      Step(s2, Mouse(PointerReleased)).store[StorageKey(ToolbarPosition)] == Pos(st.toolbarStyle)
  {
    var s1 := Step(st, Mouse(HeaderPressed(x, y, box)));
    var s2 := Step(s1, Message(true, "cleanup_extension"));
    assert s2 == Cleanup(s1);
    DragOutlivesCleanup(s2);
  }

  /** The header drag as evidently intended: like the script's other handlers, its
      press, move and release do nothing once the instance is cleaned up. */
  function GuardedPointerStep(st: State, p: Pointer): (r: State)
    ensures st.cleanedUp ==> r == st
    ensures !st.cleanedUp ==> r == PointerStep(st, p)
  {
    if st.cleanedUp then st else PointerStep(st, p)
  }

  /** The script with the guarded drag. */
  function GuardedStep(st: State, ev: Event): State
  {
    if ev.Mouse? then GuardedPointerStep(st, ev.p) else Step(st, ev)
  }

  /** With the guarded drag, a cleaned-up instance ignores every event of its own,
      pointer events included; a drag under way at cleanup saves nothing. */
  lemma GuardedCleanedUpIsInert(st: State, ev: Event)
    requires st.cleanedUp
    requires !ev.Shape?
    ensures GuardedStep(st, ev) == st
    ensures st.drag.dragging ==> GuardedStep(st, Mouse(PointerReleased)).store == st.store
  {
    if !ev.Mouse? {
      CleanedUpIsInert(st, ev);
    }
  }

  /** Toggling the toolbar twice restores its collapse state; toggling the ruler
      twice restores its visibility, with the page cursor back to the select's choice. */
  lemma ToggleTwice(st: State)
    requires !st.cleanedUp
    ensures ToggleToolbar(ToggleToolbar(st)).toolbarCollapsed == st.toolbarCollapsed
    ensures ToggleToolbar(ToggleToolbar(st)).store[StorageKey(ToolbarVisible)] == Bool(!st.toolbarCollapsed)
    ensures var r := ToggleExtension(ToggleExtension(st));
      r.extensionVisible == st.extensionVisible && r.rulerDisplayed == st.extensionVisible &&
      r.bodyCursor == (if st.extensionVisible then Str(st.cursorSelect) else Str("default")) && r.store == st.store
  {
  }

  /** The toolbar hotkey wins: a key matching both inputs toggles only the
      toolbar; a key matching only the extension input toggles only the ruler. */
  lemma KeyDownDispatch(st: State, key: string)
    requires !st.cleanedUp
    ensures KeyMatches(key, st.toolbarKeyText) ==>
      KeyDown(st, key) == ToggleToolbar(st) && KeyDown(st, key).extensionVisible == st.extensionVisible
    ensures !KeyMatches(key, st.toolbarKeyText) && KeyMatches(key, st.extensionKeyText) ==>
      KeyDown(st, key) == ToggleExtension(st) && KeyDown(st, key).toolbarCollapsed == st.toolbarCollapsed
    ensures !KeyMatches(key, st.toolbarKeyText) && !KeyMatches(key, st.extensionKeyText) ==> KeyDown(st, key) == st
  {
  }
}

=== FILE: geometry.dfy ===
/** Integer pixel geometry shared by the shape engines and the toolbar: boxes,
    the eight resize handles, and the `Math.max(lo, Math.min(v, hi))` clamp. */
module Geometry {

  /** An axis-aligned box in viewport pixels: top-left corner and size. */
  datatype Rect = Rect(x: int, y: int, width: int, height: int)

  /** The eight compass handles of an active shape. */
  datatype Dir = NW | N | NE | E | SE | S | SW | W

  /** The handle's name as the source spells it ('nw', 'n', ...). */
  function Name(d: Dir): string
  {
    match d
    case NW => "nw"
    case N => "n"
    case NE => "ne"
    case E => "e"
    case SE => "se"
    case S => "s"
    case SW => "sw"
    case W => "w"
  }

  /** `dir.includes(c)`: whether the handle moves the edge named by `c`. */
  predicate Has(d: Dir, c: char)
  {
    c in Name(d)
  }

  /** No handle names two opposite edges, so the order in which the source tests
      'e' against 'w' (or 's' against 'n') never changes its outcome. */
  lemma NoOppositeEdges(d: Dir)
    ensures !(Has(d, 'e') && Has(d, 'w'))
    ensures !(Has(d, 'n') && Has(d, 's'))
  {
  }

  function Abs(x: int): (r: nat)
    ensures r == x || r == -x
  {
    if x < 0 then -x else x
  }

  function Min(a: int, b: int): (r: int)
    ensures r <= a && r <= b && (r == a || r == b)
  {
    if a <= b then a else b
  }

  function Max(a: int, b: int): (r: int)
    ensures r >= a && r >= b && (r == a || r == b)
  {
    if a >= b then a else b
  }

  /** `Math.max(lo, Math.min(v, hi))`. The lower bound always wins, so the result
      lies in [lo, hi] whenever that interval is non-empty, and a value already
      inside it is returned unchanged. */
  function Clamp(v: int, lo: int, hi: int): (r: int)
    ensures lo <= r
    ensures lo <= hi ==> r <= hi
    ensures lo <= v <= hi ==> r == v
    ensures r == v || r == lo || r == hi
    ensures v <= lo ==> r == lo
    ensures lo <= hi <= v ==> r == hi
    ensures hi < lo ==> r == lo
  {
    Max(lo, Min(v, hi))
  }

  /** Clamping twice with the same bounds is clamping once. */
  lemma ClampIdempotent(v: int, lo: int, hi: int)
    ensures Clamp(Clamp(v, lo, hi), lo, hi) == Clamp(v, lo, hi)
  {
  }

  /** The box spanned by two pointer positions: `width = |dx|`, `height = |dy|`,
      corner at the smaller coordinates. Its horizontal extent runs exactly from
      one point's x to the other's, and likewise vertically. */
  function BoundingBox(x0: int, y0: int, x1: int, y1: int): (r: Rect)
    ensures r.width >= 0 && r.height >= 0
    ensures {r.x, r.x + r.width} == {x0, x1}
    ensures {r.y, r.y + r.height} == {y0, y1}
  {
    Rect(Min(x0, x1), Min(y0, y1), Abs(x1 - x0), Abs(y1 - y0))
  }
}

=== FILE: jstext.dfy ===
/** The few pieces of JavaScript text and number semantics the handlers rely on:
    `parseInt` with radix 10 or 16, template-literal formatting of an integer
    followed by "px", and `toUpperCase` on key names. */
module JsText {
  import opened Wrappers

  /** A JavaScript number as these handlers produce it: an integer, or NaN. */
  datatype Number = Int(n: int) | NaN

  /** The whitespace `parseInt` skips before the digits: the white space and line
      terminators of ECMA-262 (tab, vertical tab, form feed, the byte-order mark,
      the space separators of Unicode category Zs, and LF, CR, LS, PS). */
  predicate IsWhiteSpace(c: char)
  {
    c == '\t' || c == '\U{B}' || c == '\U{C}' || c == '\U{FEFF}' ||
    c == ' ' || c == '\U{A0}' || c == '\U{1680}' || '\U{2000}' <= c <= '\U{200A}' ||
    c == '\U{202F}' || c == '\U{205F}' || c == '\U{3000}' ||
    c == '\n' || c == '\r' || c == '\U{2028}' || c == '\U{2029}'
  }

  /** Value of `c` as a digit of a radix up to 36: '0'..'9', then letters of either case. */
  function DigitValue(c: char): (d: Option<nat>)
    ensures d.Some? ==> d.value < 36
    ensures d.Some? && d.value < 10 ==> '0' <= c <= '9'
  {
    if '0' <= c <= '9' then Some(c as int - '0' as int)
    else if 'a' <= c <= 'z' then Some(c as int - 'a' as int + 10)
    else if 'A' <= c <= 'Z' then Some(c as int - 'A' as int + 10)
    else None
  }

  predicate IsDigit(c: char, radix: nat)
  {
    DigitValue(c).Some? && DigitValue(c).value < radix
  }

  predicate AllDigits(s: string, radix: nat)
  {
    forall i :: 0 <= i < |s| ==> IsDigit(s[i], radix)
  }

  /** `s` without its leading whitespace. */
  function TrimStart(s: string): (r: string)
    ensures |r| <= |s| && r == s[|s| - |r|..]
    ensures forall i :: 0 <= i < |s| - |r| ==> IsWhiteSpace(s[i])
    ensures |r| > 0 ==> !IsWhiteSpace(r[0])
  {
    if |s| > 0 && IsWhiteSpace(s[0]) then TrimStart(s[1..]) else s
  }

  /** Length of the longest prefix of `s` made only of radix digits. */
  function DigitRun(s: string, radix: nat): (k: nat)
    ensures k <= |s|
    ensures AllDigits(s[..k], radix)
    ensures k < |s| ==> !IsDigit(s[k], radix)
  {
    if |s| == 0 || !IsDigit(s[0], radix) then 0
    else
      var k := 1 + DigitRun(s[1..], radix);
      assert s[..k] == [s[0]] + s[1..][..k - 1];
      k
  }

  /** Positional value of a string of radix digits, most significant digit first. */
  function DigitsValue(s: string, radix: nat): nat
    requires AllDigits(s, radix)
  {
    if |s| == 0 then 0
    else DigitsValue(s[..|s| - 1], radix) * radix + DigitValue(s[|s| - 1]).value
  }

  /** The longest run of leading radix digits of `v`, read as a number; NaN when there is none. */
  function LeadingDigits(v: string, radix: nat): (r: Number)
    ensures r.Int? ==> r.n >= 0
    ensures r.NaN? <==> |v| == 0 || !IsDigit(v[0], radix)
  {
    var z := v[..DigitRun(v, radix)];
    if |z| == 0 then NaN else Int(DigitsValue(z, radix))
  }

  /** Splits an optional leading sign off `t`: whether it was '-', and the rest. */
  function SplitSign(t: string): (r: (bool, string))
    ensures r.1 == t || (|t| > 0 && r.1 == t[1..] && (t[0] == '-' || t[0] == '+'))
    ensures r.0 <==> |t| > 0 && t[0] == '-'
  {
    if |t| > 0 && (t[0] == '-' || t[0] == '+') then (t[0] == '-', t[1..]) else (false, t)
  }

  /** With radix 16, a leading "0x" or "0X" is dropped. */
  function StripHexPrefix(u: string, radix: nat): (v: string)
    ensures v == u || (radix == 16 && |u| >= 2 && v == u[2..])
  {
    if radix == 16 && |u| >= 2 && u[0] == '0' && (u[1] == 'x' || u[1] == 'X') then u[2..] else u
  }

  /** Applies the sign read before the digits. */
  function Signed(negative: bool, x: Number): (r: Number)
    ensures r.NaN? <==> x.NaN?
  {
    match x
    case NaN => NaN
    case Int(m) => if negative then Int(-m) else Int(m)
  }

  /** `parseInt` once the leading whitespace is gone. */
  function ParseSigned(t: string, radix: nat): Number
  {
    var p := SplitSign(t);
    Signed(p.0, LeadingDigits(StripHexPrefix(p.1, radix), radix))
  }

  /** `parseInt(s, radix)` for radix 10 and 16, following section 19.2.5 of
      ECMA-262: skip leading whitespace, take an optional sign, with radix 16
      drop an optional "0x"/"0X", then read the longest run of digits; no digit
      at all gives NaN. Trailing text such as "px" is ignored. */
  function ParseInt(s: string, radix: nat): Number
    requires radix == 10 || radix == 16
  {
    ParseSigned(TrimStart(s), radix)
  }

  /** What `parseInt` gives on the shapes of text that matter here: blank text and
      a sign followed by no digit give NaN; decimal text starting with a digit
      gives the value of its leading run of digits. */
  lemma ParseIntCases(s: string, radix: nat)
    requires radix == 10 || radix == 16
    ensures (forall i :: 0 <= i < |s| ==> IsWhiteSpace(s[i])) ==> ParseInt(s, radix).NaN?
    ensures |s| > 0 && (s[0] == '-' || s[0] == '+') && (|s| == 1 || !IsDigit(s[1], radix)) ==> ParseInt(s, radix).NaN?
    ensures radix == 10 && |s| > 0 && IsDigit(s[0], 10) ==> ParseInt(s, radix) == Int(DigitsValue(s[..DigitRun(s, 10)], 10))
  {
    assert |s| > 0 && (s[0] == '-' || s[0] == '+') ==> !IsWhiteSpace(s[0]);
    if |s| > 0 && IsDigit(s[0], radix) {
      DigitFirst(s, radix);
    }
  }

  function DigitChar(d: nat): (c: char)
    requires d < 10
    ensures DigitValue(c) == Some(d)
  {
    ('0' as int + d) as char
  }

  /** Decimal digits of `n`, without leading zeros. */
  function NatToDecimal(n: nat): (s: string)
    ensures |s| > 0
    ensures AllDigits(s, 10)
  {
    if n < 10 then [DigitChar(n)] else NatToDecimal(n / 10) + [DigitChar(n % 10)]
  }

  /** Reading the decimal digits of `n` back gives `n`. */
  lemma {:induction false} DecimalValue(n: nat)
    ensures DigitsValue(NatToDecimal(n), 10) == n
  {
    if n >= 10 {
      var s := NatToDecimal(n);
      assert s[..|s| - 1] == NatToDecimal(n / 10);
      DecimalValue(n / 10);
    }
  }

  /** How a template literal prints a number: `${n}`. */
  function NumberToString(x: Number): string
  {
    match x
    case Int(n) => if n < 0 then "-" + NatToDecimal(-n) else NatToDecimal(n)
    case NaN => "NaN"
  }

  /** The CSS pixel string `${x}px`. */
  function Px(x: Number): (r: string)
    ensures |r| >= 3 && r[|r| - 2..] == "px"
    ensures x.Int? ==> (r[0] == '-' <==> x.n < 0)
    ensures x.Int? && x.n >= 0 ==> AllDigits(r[..|r| - 2], 10)
    ensures x.NaN? ==> r == "NaNpx"
  {
    assert x.Int? && x.n >= 0 ==> (NatToDecimal(x.n) + "px")[..|NatToDecimal(x.n)|] == NatToDecimal(x.n);
    NumberToString(x) + "px"
  }

  /** The digit run of a digit string followed by a non-digit is that string. */
  lemma {:induction false} DigitRunOfDigits(d: string, rest: string, radix: nat)
    requires AllDigits(d, radix)
    requires |rest| > 0 && !IsDigit(rest[0], radix)
    ensures DigitRun(d + rest, radix) == |d|
  {
    if |d| > 0 {
      assert (d + rest)[1..] == d[1..] + rest;
      DigitRunOfDigits(d[1..], rest, radix);
    } else {
      assert d + rest == rest;
    }
  }

  /** The leading digits of a digit string followed by a non-digit are that string. */
  lemma LeadingDigitsOf(d: string, rest: string, radix: nat)
    requires |d| > 0 && AllDigits(d, radix)
    requires |rest| > 0 && !IsDigit(rest[0], radix)
    ensures LeadingDigits(d + rest, radix) == Int(DigitsValue(d, radix))
  {
    DigitRunOfDigits(d, rest, radix);
    assert (d + rest)[..|d|] == d;
  }

  /** Text starting with a minus sign parses to the negated reading of the rest. */
  lemma ParseMinus(v: string)
    ensures ParseInt("-" + v, 10) == Signed(true, LeadingDigits(v, 10))
  {
    var s := "-" + v;
    assert s[0] == '-' && s[1..] == v;
    assert TrimStart(s) == s;
    assert StripHexPrefix(v, 10) == v;
  }

  /** Text starting with a radix-10 digit parses to its leading digits. */
  lemma ParseDigitFirst(v: string)
    requires |v| > 0 && IsDigit(v[0], 10)
    ensures ParseInt(v, 10) == LeadingDigits(v, 10)
  {
    assert TrimStart(v) == v;
  }

  /** A digit string followed by "px" parses to the digits' value. */
  lemma ParseUnsignedPx(d: string)
    requires |d| > 0 && AllDigits(d, 10)
    ensures ParseInt(d + "px", 10) == Int(DigitsValue(d, 10))
  {
    assert (d + "px")[0] == d[0];
    ParseDigitFirst(d + "px");
    LeadingDigitsOf(d, "px", 10);
  }

  /** A minus sign, a digit string and "px" parse to the negated value. */
  lemma ParseNegativePx(d: string)
    requires |d| > 0 && AllDigits(d, 10)
    ensures ParseInt("-" + (d + "px"), 10) == Signed(true, Int(DigitsValue(d, 10)))
  {
    ParseMinus(d + "px");
    LeadingDigitsOf(d, "px", 10);
  }

  lemma Associative(a: string, b: string, c: string)
    ensures a + b + c == a + (b + c)
  {
  }

  lemma PxRoundTripNaN()
    ensures ParseInt(Px(NaN), 10) == NaN
  {
    var s := Px(NaN);
    assert s[0] == 'N' && TrimStart(s) == s;
    assert DigitRun(s, 10) == 0;
  }

  lemma PxRoundTripNegative(n: int)
    requires n < 0
    ensures ParseInt(Px(Int(n)), 10) == Int(n)
  {
    var d := NatToDecimal(-n);
    assert Px(Int(n)) == "-" + (d + "px") by {
      Associative("-", d, "px");
    }
    assert DigitsValue(d, 10) == -n by {
      DecimalValue(-n);
    }
    ParseNegativePx(d);
  }

  lemma PxRoundTripNonNegative(n: nat)
    ensures ParseInt(Px(Int(n)), 10) == Int(n)
  {
    DecimalValue(n);
    ParseUnsignedPx(NatToDecimal(n));
  }

  /** `parseInt(`${x}px`, 10)` gives `x` back, for integers and NaN alike. */
  lemma PxRoundTrip(x: Number)
    ensures ParseInt(Px(x), 10) == x
  {
    match x
    case NaN => PxRoundTripNaN();
    case Int(n) => if n < 0 { PxRoundTripNegative(n); } else { PxRoundTripNonNegative(n); }
  }

  /** A string that is all digits is its own digit run. */
  lemma {:induction false} DigitRunAll(d: string, radix: nat)
    requires AllDigits(d, radix)
    ensures DigitRun(d, radix) == |d|
  {
    if |d| > 0 {
      DigitRunAll(d[1..], radix);
    }
  }

  /** A hex digit string does not start with "0x", since 'x' is not a hex digit. */
  lemma NoHexPrefix(h: string)
    requires AllDigits(h, 16)
    ensures StripHexPrefix(h, 16) == h
  {
    if |h| >= 2 {
      assert IsDigit(h[1], 16);
    }
  }

  /** The leading digits of an all-digit string are the whole string. */
  lemma LeadingDigitsAll(h: string, radix: nat)
    requires |h| > 0 && AllDigits(h, radix)
    ensures LeadingDigits(h, radix) == Int(DigitsValue(h, radix))
  {
    DigitRunAll(h, radix);
    assert h[..|h|] == h;
  }

  /** Text starting with a digit has no leading whitespace and no sign. */
  lemma DigitFirst(h: string, radix: nat)
    requires |h| > 0 && IsDigit(h[0], radix)
    ensures TrimStart(h) == h && SplitSign(h) == (false, h)
  {
    assert DigitValue(h[0]).Some?;
    assert !IsWhiteSpace(h[0]) && h[0] != '-' && h[0] != '+';
  }

  /** A non-empty string of hex digits parses, with radix 16, to its value. */
  lemma ParseHexDigits(h: string)
    requires |h| > 0 && AllDigits(h, 16)
    ensures ParseInt(h, 16) == Int(DigitsValue(h, 16))
  {
    DigitFirst(h, 16);
    NoHexPrefix(h);
    LeadingDigitsAll(h, 16);
  }

  /** ASCII upper-casing of one character. */
  function UpperChar(c: char): char
  {
    if 'a' <= c <= 'z' then (c as int - 32) as char else c
  }

  /** `s.toUpperCase()` on ASCII letters: lower-case letters become upper-case,
      everything else stays, and the length is kept. */
  function ToUpper(s: string): (r: string)
    ensures |r| == |s|
    ensures forall i :: 0 <= i < |r| ==> !('a' <= r[i] <= 'z')
    ensures forall i :: 0 <= i < |s| && !('a' <= s[i] <= 'z') ==> r[i] == s[i]
    ensures forall i :: 0 <= i < |s| && 'a' <= s[i] <= 'z' ==> r[i] as int == s[i] as int - 32
  {
    if |s| == 0 then "" else [UpperChar(s[0])] + ToUpper(s[1..])
  }

  /** Upper-casing an upper-cased string changes nothing. */
  lemma ToUpperIdempotent(s: string)
    ensures ToUpper(ToUpper(s)) == ToUpper(s)
  {
  }
}

=== FILE: legacy_shapes.dfy ===
/** The legacy shape module of the content script: the same drawing, selection,
    resize, drag and delete gestures as the React container, kept in module-level
    flags, with its own rules (a resize floor of 10 that pins the opposite edge,
    direction tests chained with else-if, selection through an `active` class). */
module LegacyShapes {
  import opened Wrappers
  import opened Seqs
  import opened Geometry
  import opened JsText

  /** The smallest drawn shape that is kept. */
  const CommitMin: int := 5
  /** The smallest size a resize leaves. */
  const ResizeMin: int := 10

  /** A shape element: `shape-<id>`, its inline box in pixels, and whether it carries the `active` class. */
  datatype Elem = Elem(id: nat, left: int, top: int, width: int, height: int, active: bool)

  /** The module's variables. `activeShape` names an element by id. `hasContainer`
      says whether a container element exists, `containerListening` whether it
      has the `mousedown` listener, `docClickListening` whether the capturing
      document click listener is on. */
  datatype State = State(
    shapes: seq<Elem>,
    counter: nat,
    isDrawing: bool,
    isResizing: bool,
    isDragging: bool,
    current: Option<Elem>,
    startX: int,
    startY: int,
    resizeDir: Option<Dir>,
    dragOffsetX: int,
    dragOffsetY: int,
    activeShape: Option<nat>,
    initialRect: Option<Rect>,
    docClickListening: bool,
    hasContainer: bool,
    containerListening: bool)

  /** The module as loaded, before `init`. */
  const Loaded: State := State([], 0, false, false, false, None, 0, 0, None, 0, 0, None, None, false, false, false)

  function IdOf(e: Elem): nat { e.id }

  /** Whether a committed shape has this id. */
  predicate Committed(st: State, id: nat)
  {
    exists i :: 0 <= i < |st.shapes| && st.shapes[i].id == id
  }

  /** The invariant of the kept shapes: ids are unique and below the counter,
      and every kept shape is at least `CommitMin` in both directions. */
  predicate ShapesWf(shapes: seq<Elem>, counter: nat)
  {
    UniqueKeys(shapes, IdOf) &&
    (forall i :: 0 <= i < |shapes| ==> shapes[i].id < counter) &&
    (forall i :: 0 <= i < |shapes| ==> shapes[i].width >= CommitMin && shapes[i].height >= CommitMin)
  }

  /** The invariant every handler keeps: the kept shapes are well formed; a shape
      is being drawn exactly while drawing is on, which needs a container; its id
      is below the counter and differs from every kept shape's; only an existing
      container can listen. */
  predicate Wf(st: State)
  {
    ShapesWf(st.shapes, st.counter) &&
    (st.isDrawing <==> st.current.Some?) &&
    (st.current.Some? ==> st.current.value.id < st.counter) &&
    (st.current.Some? ==> forall i :: 0 <= i < |st.shapes| ==> st.shapes[i].id != st.current.value.id) &&
    (!st.hasContainer ==> !st.isDrawing && !st.containerListening)
  }

  /** `cleanupShapes`: listeners off, container gone, every shape forgotten. The id
      counter is not reset. */
  function Cleanup(st: State): (r: State)
    ensures r.shapes == [] && r.counter == st.counter && r.activeShape.None?
    ensures !r.isDrawing && !r.isResizing && !r.isDragging && r.current.None?
    ensures !r.hasContainer && !r.containerListening && !r.docClickListening
  {
    st.(shapes := [], hasContainer := false, containerListening := false, activeShape := None,
        isDrawing := false, isResizing := false, isDragging := false, current := None, docClickListening := false)
  }

  /** `initShapeModule(host, ...)`: an existing container is cleaned up first, then
      the registry, counter, selection and flags are reset and a new container is
      created. `hostIsElement` says whether `host.appendChild` exists: when it does
      not, the call throws right there, leaving a detached container without its
      `mousedown` listener. */
  function Init(st: State, hostIsElement: bool): (r: State)
    ensures r.shapes == [] && r.counter == 0 && r.activeShape.None?
    ensures !r.isDrawing && !r.isResizing && !r.isDragging && r.hasContainer
    ensures st.hasContainer ==> r.current.None? && !r.docClickListening
    ensures r.containerListening <==> hostIsElement
  {
    var s := if st.hasContainer then Cleanup(st) else st;
    s.(shapes := [], counter := 0, activeShape := None, isDrawing := false, isResizing := false,
       isDragging := false, hasContainer := true, containerListening := hostIsElement)
  }

  /** `handleMouseDown` on the container: with the primary button and no resize or
      drag in progress, starts drawing a new empty shape `shape-<counter>` at the
      pointer and advances the counter. A shape still being drawn is dropped from
      the model's view (its element stays orphaned on the page). */
  function DrawStart(st: State, button: int, x: int, y: int): (r: State)
    ensures button != 0 || st.isResizing || st.isDragging ==> r == st
    ensures button == 0 && !st.isResizing && !st.isDragging ==>
      r.isDrawing && r.counter == st.counter + 1 && r.current.Some? &&
      r.current.value.id == st.counter && !r.current.value.active &&
      r.current.value.left == x && r.current.value.top == y &&
      r.current.value.width == 0 && r.current.value.height == 0 &&
      r.shapes == st.shapes && r.activeShape == st.activeShape
  {
    if button != 0 || st.isResizing || st.isDragging then st
    else st.(isDrawing := true, startX := x, startY := y, counter := st.counter + 1,
             current := Some(Elem(st.counter, x, y, 0, 0, false)))
  }

  /** `handleMouseMove` while drawing: the shape spans the start point and the pointer. */
  function DrawMove(st: State, x: int, y: int): (r: State)
    ensures !st.isDrawing || st.current.None? ==> r == st
    ensures st.isDrawing && st.current.Some? ==>
      r.current.Some? && var e := r.current.value;
      e.id == st.current.value.id && e.active == st.current.value.active &&
      e.width == Abs(x - st.startX) && e.height == Abs(y - st.startY) &&
      e.left == Min(x, st.startX) && e.top == Min(y, st.startY) &&
      r == st.(current := Some(e))
  {
    if !st.isDrawing || st.current.None? then st
    else
      var b := BoundingBox(st.startX, st.startY, x, y);
      st.(current := Some(st.current.value.(left := b.x, top := b.y, width := b.width, height := b.height)))
  }

  /** `parseInt` of an inline style written as `${v}px`. */
  function StyleInt(v: int): Number
  {
    ParseInt(Px(Int(v)), 10)
  }

  lemma StyleIntRoundTrip(v: int)
    ensures StyleInt(v) == Int(v)
  {
    PxRoundTrip(Int(v));
  }

  /** `n < k` for a parsed number: NaN compares false. */
  predicate Below(n: Number, k: int)
  {
    n.Int? && n.n < k
  }

  /** The size test on release as the source writes it: `parseInt` of the inline
      width and height, each compared with `< CommitMin`. */
  predicate StyleTestPasses(e: Elem)
  {
    !Below(StyleInt(e.width), CommitMin) && !Below(StyleInt(e.height), CommitMin)
  }

  /** The size test on release, on the drawn size itself. */
  predicate Kept(e: Elem)
  {
    e.width >= CommitMin && e.height >= CommitMin
  }

  /** Reading the inline sizes back with `parseInt` gives the drawn sizes, so the
      test on the style strings is the test on the size. */
  lemma KeptReadsBack(e: Elem)
    ensures StyleTestPasses(e) <==> Kept(e)
  {
    StyleIntRoundTrip(e.width);
    StyleIntRoundTrip(e.height);
  }

  /** `handleMouseUp` with the primary button while drawing: drawing ends, and the
      drawn shape is appended to the list when it passes the size test (stated
      through `KeptReadsBack`), and is discarded otherwise. */
  function DrawUp(st: State, button: int): (r: State)
    ensures !st.isDrawing || button != 0 ==> r == st
    ensures st.isDrawing && button == 0 ==> !r.isDrawing && r.current.None? && r.counter == st.counter
    ensures st.isDrawing && button == 0 && st.current.Some? ==>
      var e := st.current.value;
      (e.width >= CommitMin && e.height >= CommitMin ==> r.shapes == st.shapes + [e]) &&
      (e.width < CommitMin || e.height < CommitMin ==> r.shapes == st.shapes)
  {
    if !st.isDrawing || button != 0 then st
    else match st.current
      case None => st.(isDrawing := false)
      case Some(e) =>
        var s := st.(isDrawing := false, current := None);
        if Kept(e) then s.(shapes := st.shapes + [e]) else s
  }

  function HasId(id: nat): Elem -> bool
  {
    (e: Elem) => e.id == id
  }

  /** Whether the shape with that id is kept and carries the `active` class. */
  predicate IsActive(st: State, id: nat)
  {
    exists i :: 0 <= i < |st.shapes| && st.shapes[i].id == id && st.shapes[i].active
  }

  /** Sets or clears the `active` class of the shape with that id. */
  function SetActive(shapes: seq<Elem>, id: nat, on: bool): (r: seq<Elem>)
    ensures |r| == |shapes|
    ensures forall i :: 0 <= i < |shapes| ==> r[i] == (if shapes[i].id == id then shapes[i].(active := on) else shapes[i])
  {
    seq(|shapes|, i requires 0 <= i < |shapes| => if shapes[i].id == id then shapes[i].(active := on) else shapes[i])
  }

  /** `activateShape`: an inactive shape gets the `active` class, becomes the active
      shape and turns on the document click listener; an active one is left alone. */
  function Activate(st: State, id: nat): State
  {
    if !Committed(st, id) || IsActive(st, id) then st
    else st.(shapes := SetActive(st.shapes, id, true), activeShape := Some(id), docClickListening := true)
  }

  /** `deactivateShape`: an active shape loses the class; if it was the active shape,
      the selection is cleared and the document click listener removed. */
  function Deactivate(st: State, id: nat): State
  {
    if !IsActive(st, id) then st
    else
      var s := st.(shapes := SetActive(st.shapes, id, false));
      if st.activeShape == Some(id) then s.(activeShape := None, docClickListening := false) else s
  }

  /** Activating a kept shape makes it active, selects it if it was not active
      yet, and leaves every other shape and the list's order alone. */
  lemma ActivateEffect(st: State, id: nat)
    requires Committed(st, id)
    ensures var a := Activate(st, id);
      IsActive(a, id) && |a.shapes| == |st.shapes| &&
      a.activeShape == (if IsActive(st, id) then st.activeShape else Some(id)) &&
      (forall i :: 0 <= i < |st.shapes| ==> a.shapes[i].id == st.shapes[i].id) &&
      (forall i :: 0 <= i < |st.shapes| && st.shapes[i].id != id ==> a.shapes[i] == st.shapes[i])
  {
    var k :| 0 <= k < |st.shapes| && st.shapes[k].id == id;
    var a := Activate(st, id);
    if !IsActive(st, id) {
      assert a.shapes[k].active && a.shapes[k].id == id;
    }
  }

  /** Deactivating a shape clears its class and its selection, and leaves every
      other shape alone; on an inactive shape it changes nothing. */
  lemma DeactivateEffect(st: State, id: nat)
    ensures !IsActive(st, id) ==> Deactivate(st, id) == st
    ensures var d := Deactivate(st, id);
      IsActive(st, id) ==> !IsActive(d, id) && d.activeShape != Some(id)
    ensures var d := Deactivate(st, id);
      |d.shapes| == |st.shapes| &&
      (forall i :: 0 <= i < |st.shapes| ==> d.shapes[i].id == st.shapes[i].id) &&
      (forall i :: 0 <= i < |st.shapes| && st.shapes[i].id != id ==> d.shapes[i] == st.shapes[i])
  {
  }

  /** Activating twice is activating once; deactivating twice is deactivating once. */
  lemma ToggleIdempotent(st: State, id: nat)
    ensures Activate(Activate(st, id), id) == Activate(st, id)
    ensures Deactivate(Deactivate(st, id), id) == Deactivate(st, id)
  {
    var a := Activate(st, id);
    if Committed(st, id) && !IsActive(st, id) {
      var k :| 0 <= k < |st.shapes| && st.shapes[k].id == id;
      assert a.shapes[k].active && a.shapes[k].id == id;
    }
    DeactivateEffect(st, id);
  }

  /** Deselecting right after selecting an inactive shape restores every shape's class. */
  lemma DeactivateUndoesActivate(st: State, id: nat)
    requires !IsActive(st, id)
    ensures Deactivate(Activate(st, id), id).shapes == st.shapes
  {
    if Committed(st, id) {
      var a := Activate(st, id);
      var k :| 0 <= k < |st.shapes| && st.shapes[k].id == id;
      assert a.shapes[k].active && a.shapes[k].id == id;
      var d := Deactivate(a, id);
      forall i | 0 <= i < |st.shapes|
        ensures d.shapes[i] == st.shapes[i]
      {
      }
    }
  }

  /** `handleShapeDoubleClick` on a kept shape: with the primary button, toggles its selection. */
  function DoubleClick(st: State, id: nat, button: int): (r: State)
    ensures button != 0 ==> r == st
    ensures button == 0 && Committed(st, id) ==>
      (IsActive(r, id) <==> !IsActive(st, id)) &&
      (!IsActive(st, id) ==> r.activeShape == Some(id) && r.docClickListening)
    ensures |r.shapes| == |st.shapes|
    ensures forall i :: 0 <= i < |st.shapes| && st.shapes[i].id != id ==> r.shapes[i] == st.shapes[i]
  {
    if button != 0 then st
    else if IsActive(st, id) then Deactivate(st, id)
    else Activate(st, id)
  }

  /** What a click or press lands on. */
  datatype Target = Container | Body(id: nat) | Handle(id: nat, dir: Dir) | DeleteButton(id: nat) | Elsewhere

  /** Whether a target lies inside the element with that id. */
  predicate Inside(t: Target, id: nat)
  {
    match t
    case Body(i) => i == id
    case Handle(i, _) => i == id
    case DeleteButton(i) => i == id
    case _ => false
  }

  /** The capturing document click listener: a click outside the active shape deselects it. */
  function DocumentClick(st: State, t: Target): (r: State)
    ensures !st.docClickListening || st.activeShape.None? || Inside(t, st.activeShape.value) ==> r == st
    ensures st.docClickListening && st.activeShape.Some? && !Inside(t, st.activeShape.value) ==>
      var a := st.activeShape.value;
      !IsActive(r, a) && (IsActive(st, a) ==> r.activeShape.None? && !r.docClickListening)
    ensures |r.shapes| == |st.shapes|
    ensures forall i :: 0 <= i < |st.shapes| && Some(st.shapes[i].id) != st.activeShape ==> r.shapes[i] == st.shapes[i]
  {
    if !st.docClickListening then st
    else match st.activeShape
      case None => st
      case Some(a) => if Inside(t, a) then st else Deactivate(st, a)
  }

  /** `handleResizeStart` on a handle of an active shape: with the primary button,
      starts resizing that shape from its current box. */
  function ResizeStart(st: State, id: nat, dir: Dir, button: int, x: int, y: int): (r: State)
    ensures button != 0 ==> r == st
    ensures button == 0 && Find(st.shapes, HasId(id)).Some? ==>
      var e := Find(st.shapes, HasId(id)).value;
      r.isResizing && r.activeShape == Some(id) && r.resizeDir == Some(dir) &&
      r.initialRect == Some(Rect(e.left, e.top, e.width, e.height)) && r.startX == x && r.startY == y &&
      r.shapes == st.shapes
  {
    if button != 0 then st
    else match Find(st.shapes, HasId(id))
      case None => st
      case Some(e) =>
        st.(isResizing := true, resizeDir := Some(dir), activeShape := Some(id), startX := x, startY := y,
            initialRect := Some(Rect(e.left, e.top, e.width, e.height)))
  }

  /** The box a resize gives. Horizontally 'e' is tested first and 'w' only
      otherwise, vertically 's' first and 'n' only otherwise. A size below
      `ResizeMin` is raised to it; for a 'w' or 'n' handle the left or top edge is
      then moved so the opposite edge stays where it was. */
  function LegacyResizeRect(dir: Dir, init: Rect, dx: int, dy: int): (r: Rect)
    ensures r.width >= ResizeMin && r.height >= ResizeMin
    ensures Has(dir, 'e') ==> r.x == init.x && r.width == Max(ResizeMin, init.width + dx)
    ensures !Has(dir, 'e') && Has(dir, 'w') ==> r.width == Max(ResizeMin, init.width - dx)
    ensures !Has(dir, 'e') && !Has(dir, 'w') ==> r.x == init.x && r.width == Max(ResizeMin, init.width)
    ensures Has(dir, 's') ==> r.y == init.y && r.height == Max(ResizeMin, init.height + dy)
    ensures !Has(dir, 's') && Has(dir, 'n') ==> r.height == Max(ResizeMin, init.height - dy)
    ensures !Has(dir, 's') && !Has(dir, 'n') ==> r.y == init.y && r.height == Max(ResizeMin, init.height)
  {
    var w0, x0 :=
      if Has(dir, 'e') then init.width + dx
      else if Has(dir, 'w') then init.width - dx
      else init.width,
      if !Has(dir, 'e') && Has(dir, 'w') then init.x + dx else init.x;
    var h0, y0 :=
      if Has(dir, 's') then init.height + dy
      else if Has(dir, 'n') then init.height - dy
      else init.height,
      if !Has(dir, 's') && Has(dir, 'n') then init.y + dy else init.y;
    var x1 := if w0 < ResizeMin && Has(dir, 'w') then init.x + init.width - ResizeMin else x0;
    var y1 := if h0 < ResizeMin && Has(dir, 'n') then init.y + init.height - ResizeMin else y0;
    Rect(x1, y1, Max(ResizeMin, w0), Max(ResizeMin, h0))
  }

  /** A west or north handle moves the left or top edge with the pointer, and once
      the floor is reached the right or bottom edge stays where it was at mouse-down. */
  lemma ResizePinsOppositeEdge(dir: Dir, init: Rect, dx: int, dy: int)
    ensures var r := LegacyResizeRect(dir, init, dx, dy);
      (Has(dir, 'w') && init.width - dx >= ResizeMin ==> r.x == init.x + dx && r.x + r.width == init.x + init.width) &&
      (Has(dir, 'w') && init.width - dx < ResizeMin ==> r.x + r.width == init.x + init.width) &&
      (Has(dir, 'n') && init.height - dy >= ResizeMin ==> r.y == init.y + dy && r.y + r.height == init.y + init.height) &&
      (Has(dir, 'n') && init.height - dy < ResizeMin ==> r.y + r.height == init.y + init.height)
  {
    NoOppositeEdges(dir);
  }

  /** An element moved into a box, keeping its id and class. */
  function Reboxed(e: Elem, b: Rect): (r: Elem)
    ensures r.id == e.id && r.active == e.active && r.width == b.width && r.height == b.height
  {
    e.(left := b.x, top := b.y, width := b.width, height := b.height)
  }

  /** `handleResizeMouseMove`: while resizing, the active shape takes the resized box. */
  function ResizeMove(st: State, x: int, y: int): (r: State)
    ensures |r.shapes| == |st.shapes|
    ensures r == st.(shapes := r.shapes)
    ensures !st.isResizing || st.activeShape.None? || st.resizeDir.None? || st.initialRect.None? ==> r == st
    ensures st.isResizing && st.activeShape.Some? && st.resizeDir.Some? && st.initialRect.Some? ==>
      var b := LegacyResizeRect(st.resizeDir.value, st.initialRect.value, x - st.startX, y - st.startY);
      forall i :: 0 <= i < |st.shapes| ==>
        r.shapes[i] == (if st.shapes[i].id == st.activeShape.value then Reboxed(st.shapes[i], b) else st.shapes[i])
  {
    if !st.isResizing || st.activeShape.None? || st.resizeDir.None? || st.initialRect.None? then st
    else
      var b := LegacyResizeRect(st.resizeDir.value, st.initialRect.value, x - st.startX, y - st.startY);
      st.(shapes := RewriteByKey(st.shapes, IdOf, st.activeShape.value, (e: Elem) => Reboxed(e, b)))
  }

  /** A primary press on a handle followed by a move gives the pressed shape the
      legacy resize of its box at the press by the pointer's displacement; every
      other shape stays as it was. */
  lemma ResizeFollowsPointer(st: State, id: nat, dir: Dir, x0: int, y0: int, x1: int, y1: int)
    requires UniqueKeys(st.shapes, IdOf) && Committed(st, id)
    ensures var r := ResizeMove(ResizeStart(st, id, dir, 0, x0, y0), x1, y1);
      |r.shapes| == |st.shapes| &&
      forall i :: 0 <= i < |st.shapes| ==>
        var e := st.shapes[i];
        var b := LegacyResizeRect(dir, Rect(e.left, e.top, e.width, e.height), x1 - x0, y1 - y0);
        r.shapes[i] == (if e.id == id then e.(left := b.x, top := b.y, width := b.width, height := b.height) else e)
  {
    var f := Find(st.shapes, HasId(id)).value;
    forall i | 0 <= i < |st.shapes| && st.shapes[i].id == id
      ensures st.shapes[i] == f
    {
      var k :| 0 <= k < |st.shapes| && st.shapes[k] == f;
      DistinctKeys(st.shapes, IdOf, i, k);
    }
  }

  /** `handleResizeMouseUp` with the primary button: the resize ends. */
  function ResizeUp(st: State, button: int): (r: State)
    ensures !st.isResizing || button != 0 ==> r == st
    ensures st.isResizing && button == 0 ==>
      !r.isResizing && r.initialRect.None? && r.shapes == st.shapes && r.activeShape == st.activeShape
  {
    if !st.isResizing || button != 0 then st
    else st.(isResizing := false, initialRect := None, resizeDir := None)
  }

  /** `handleDragStart` on a kept shape: only on an active shape's body (not a
      handle or its delete button), with the primary button, and when no resize or
      draw is in progress. The offset is the pointer minus the shape's corner. */
  function DragStart(st: State, id: nat, onControl: bool, button: int, x: int, y: int): (r: State)
    ensures !IsActive(st, id) || onControl || button != 0 || st.isResizing || st.isDrawing ==> r == st
    ensures IsActive(st, id) && !onControl && button == 0 && !st.isResizing && !st.isDrawing ==>
      var e := Find(st.shapes, HasId(id)).value;
      Find(st.shapes, HasId(id)).Some? &&
      r == st.(isDragging := true, activeShape := Some(id), dragOffsetX := x - e.left, dragOffsetY := y - e.top)
  {
    if !IsActive(st, id) || onControl || button != 0 || st.isResizing || st.isDrawing then st
    else
      var e := Find(st.shapes, HasId(id)).value;
      st.(isDragging := true, activeShape := Some(id), dragOffsetX := x - e.left, dragOffsetY := y - e.top)
  }

  /** `handleDragMouseMove`: while dragging, the active shape's corner is the pointer minus the offset. */
  function DragMove(st: State, x: int, y: int): (r: State)
    ensures r == st.(shapes := r.shapes)
    ensures |r.shapes| == |st.shapes|
    ensures forall i :: 0 <= i < |st.shapes| ==>
      r.shapes[i] == st.shapes[i].(left := r.shapes[i].left, top := r.shapes[i].top)
  {
    if !st.isDragging || st.activeShape.None? then st
    else st.(shapes := RewriteByKey(st.shapes, IdOf, st.activeShape.value,
                                   (e: Elem) => e.(left := x - st.dragOffsetX, top := y - st.dragOffsetY)))
  }

  /** A drag translates the shape by the pointer's displacement since the press. */
  lemma DragTranslates(st: State, id: nat, x0: int, y0: int, x1: int, y1: int)
    requires Wf(st) && IsActive(st, id) && !st.isResizing && !st.isDrawing
    ensures var r := DragMove(DragStart(st, id, false, 0, x0, y0), x1, y1);
      forall i :: 0 <= i < |st.shapes| ==>
        r.shapes[i] == (if st.shapes[i].id == id
                        then st.shapes[i].(left := st.shapes[i].left + (x1 - x0), top := st.shapes[i].top + (y1 - y0))
                        else st.shapes[i])
  {
    var e := Find(st.shapes, HasId(id)).value;
    forall i | 0 <= i < |st.shapes| && st.shapes[i].id == id
      ensures st.shapes[i] == e
    {
      var k :| 0 <= k < |st.shapes| && st.shapes[k] == e;
      DistinctKeys(st.shapes, IdOf, i, k);
    }
  }

  /** `handleDragMouseUp` with the primary button: the drag ends. */
  function DragUp(st: State, button: int): (r: State)
    ensures !st.isDragging || button != 0 ==> r == st
    ensures st.isDragging && button == 0 ==>
      !r.isDragging && r.shapes == st.shapes && r.activeShape == st.activeShape
  {
    if !st.isDragging || button != 0 then st else st.(isDragging := false)
  }

  /** `shapes.indexOf(el)` followed by `splice(index, 1)`: the first shape with
      that id is cut out; without one the list is unchanged. */
  function RemoveFirst(shapes: seq<Elem>, id: nat): seq<Elem>
  {
    match FindIndex(shapes, HasId(id))
    case None => shapes
    case Some(i) => shapes[..i] + shapes[i + 1..]
  }

  /** The delete button's click: with the primary button, the shape is spliced out
      of the list and, if it was the active shape, the selection is cleared. The
      document click listener stays on. */
  function DeleteClick(st: State, id: nat, button: int): (r: State)
    ensures button != 0 ==> r == st
    ensures button == 0 ==> r.docClickListening == st.docClickListening && r.isDragging == st.isDragging
  {
    if button != 0 then st
    else st.(shapes := RemoveFirst(st.shapes, id), activeShape := if st.activeShape == Some(id) then None else st.activeShape)
  }

  /** With unique ids, splicing out the first shape with the id removes every
      shape with it and keeps the others in order. */
  lemma RemoveFirstFilters(shapes: seq<Elem>, id: nat)
    requires UniqueKeys(shapes, IdOf)
    ensures RemoveFirst(shapes, id) == Filter(shapes, (e: Elem) => e.id != id)
  {
    var p := (e: Elem) => e.id != id;
    match FindIndex(shapes, HasId(id))
    case None =>
      FilterKeepsAll(shapes, p);
    case Some(i) =>
      var a, b := shapes[..i], shapes[i + 1..];
      assert shapes == a + [shapes[i]] + b;
      forall j | 0 <= j < |b|
        ensures p(b[j])
      {
        DistinctKeys(shapes, IdOf, i, i + 1 + j);
      }
      FilterCutsOne(a, shapes[i], b, p);
  }

  /** Deleting removes exactly that shape, keeps the others in order, and clears the
      selection if it pointed at it. */
  lemma DeleteRemovesOne(st: State, id: nat)
    requires UniqueKeys(st.shapes, IdOf)
    ensures var r := DeleteClick(st, id, 0);
      r.shapes == Filter(st.shapes, (e: Elem) => e.id != id) &&
      !Committed(r, id) &&
      (st.activeShape == Some(id) ==> r.activeShape.None?) &&
      (st.activeShape != Some(id) ==> r.activeShape == st.activeShape)
  {
    RemoveFirstFilters(st.shapes, id);
  }

  function HasActiveClass(e: Elem): bool { e.active }

  /** `toggleShapeVisibility`: hiding deselects the first active shape. */
  function ToggleVisibility(st: State, visible: bool): (r: State)
    ensures visible || !st.hasContainer ==> r == st
    ensures |r.shapes| == |st.shapes|
    ensures !visible && st.hasContainer ==>
      match FindIndex(st.shapes, HasActiveClass)
      case None => r == st
      case Some(k) =>
        !IsActive(r, st.shapes[k].id) &&
        forall i :: 0 <= i < |st.shapes| && st.shapes[i].id != st.shapes[k].id ==> r.shapes[i] == st.shapes[i]
  {
    if !st.hasContainer || visible then st
    else match FindIndex(st.shapes, HasActiveClass)
      case None => st
      case Some(i) => DeactivateEffect(st, st.shapes[i].id); Deactivate(st, st.shapes[i].id)
  }

  /** The events the module reacts to once initialised. */
  datatype Event =
    | Down(button: int, target: Target, x: int, y: int)
    | Move(x: int, y: int)
    | Up(button: int)
    | Click(button: int, target: Target)
    | DoubleClickOn(button: int, id: nat)
    | Hide(visible: bool)

  /** One event, dispatched to the listeners that exist for it. A press on the
      container reaches the drawing handler only while the container listens; a
      press on a kept shape goes to its drag handler (a press on its delete button
      is refused there); a press on a handle of an active shape starts a resize.
      Every pointer move and release reaches the draw, drag and resize handlers,
      each guarded by its own flag. A click is seen first by the capturing
      document listener, then by a delete button of an active shape. */
  function Step(st: State, ev: Event): State
  {
    match ev
    case Down(button, target, x, y) => Press(st, button, target, x, y)
    case Move(x, y) => PointerMove(st, x, y)
    case Up(button) => Release(st, button)
    case Click(button, target) => ClickOn(st, button, target)
    case DoubleClickOn(button, id) => if Committed(st, id) then DoubleClick(st, id, button) else st
    case Hide(visible) => ToggleVisibility(st, visible)
  }

  /** A `mousedown`, by what it lands on. */
  function Press(st: State, button: int, target: Target, x: int, y: int): State
  {
    match target
    case Container => if st.containerListening then DrawStart(st, button, x, y) else st
    case Body(id) => if Committed(st, id) then DragStart(st, id, false, button, x, y) else st
    case Handle(id, dir) => if IsActive(st, id) then ResizeStart(st, id, dir, button, x, y) else st
    case DeleteButton(id) => if IsActive(st, id) then DragStart(st, id, true, button, x, y) else st
    case Elsewhere => st
  }

  /** A `mousemove` on the document reaches the draw, drag and resize handlers. */
  function PointerMove(st: State, x: int, y: int): State
  {
    ResizeMove(DragMove(DrawMove(st, x, y), x, y), x, y)
  }

  /** A `mouseup` on the document reaches the draw, drag and resize handlers. */
  function Release(st: State, button: int): State
  {
    ResizeUp(DragUp(DrawUp(st, button), button), button)
  }

  /** A `click`: the capturing document listener, then a delete button's own listener. */
  function ClickOn(st: State, button: int, target: Target): State
  {
    var s := DocumentClick(st, target);
    if target.DeleteButton? && IsActive(st, target.id) then DeleteClick(s, target.id, button) else s
  }

  /** After `init` on a host that is not an element, no press ever starts a drawing. */
  lemma DetachedContainerNeverDraws(st: State, button: int, x: int, y: int)
    requires !st.containerListening
    ensures Step(st, Down(button, Container, x, y)) == st
  {
  }
  /** Replacing the kept shapes by ones with the same ids, in the same places,
      each at least `CommitMin` in both directions, keeps the invariant. */
  lemma SameIdsWf(st: State, shapes: seq<Elem>)
    requires Wf(st)
    requires |shapes| == |st.shapes|
    requires forall i :: 0 <= i < |shapes| ==> shapes[i].id == st.shapes[i].id
    requires forall i :: 0 <= i < |shapes| ==> shapes[i].width >= CommitMin && shapes[i].height >= CommitMin
    ensures Wf(st.(shapes := shapes))
  {
    forall i, j | 0 <= i < j < |shapes|
      ensures IdOf(shapes[i]) != IdOf(shapes[j])
    {
      assert IdOf(st.shapes[i]) != IdOf(st.shapes[j]);
    }
  }

  /** Starting a drawing on a live container keeps the invariant: the new id is the
      old counter, which no kept shape has. */
  lemma DrawStartWf(st: State, button: int, x: int, y: int)
    requires Wf(st) && st.hasContainer
    ensures Wf(DrawStart(st, button, x, y))
  {
  }

  lemma DrawMoveWf(st: State, x: int, y: int)
    requires Wf(st)
    ensures Wf(DrawMove(st, x, y))
  {
  }

  /** Finishing a drawing keeps the invariant: the drawn shape is appended only
      when it is large enough, and its id is fresh. */
  lemma DrawUpWf(st: State, button: int)
    requires Wf(st)
    ensures Wf(DrawUp(st, button))
  {
    if st.isDrawing && button == 0 {
      var e := st.current.value;
      if Kept(e) {
        var u := st.shapes + [e];
        forall i, j | 0 <= i < j < |u|
          ensures IdOf(u[i]) != IdOf(u[j])
        {
          if j < |st.shapes| {
            assert IdOf(st.shapes[i]) != IdOf(st.shapes[j]);
          }
        }
        assert ShapesWf(u, st.counter);
      }
    }
  }

  lemma ResizeMoveWf(st: State, x: int, y: int)
    requires Wf(st)
    ensures Wf(ResizeMove(st, x, y))
  {
    var r := ResizeMove(st, x, y);
    forall i | 0 <= i < |r.shapes|
      ensures r.shapes[i].width >= CommitMin && r.shapes[i].height >= CommitMin
    {
      if r.shapes[i] != st.shapes[i] {
      }
    }
    SameIdsWf(st, r.shapes);
  }

  lemma DragMoveWf(st: State, x: int, y: int)
    requires Wf(st)
    ensures Wf(DragMove(st, x, y))
  {
    SameIdsWf(st, DragMove(st, x, y).shapes);
  }

  lemma ToggleWf(st: State, id: nat)
    requires Wf(st)
    ensures Wf(Activate(st, id)) && Wf(Deactivate(st, id))
  {
    SameIdsWf(st, SetActive(st.shapes, id, true));
    SameIdsWf(st, SetActive(st.shapes, id, false));
  }

  /** Deleting a shape keeps the invariant: what is left is a sub-list. */
  lemma DeleteWf(st: State, id: nat, button: int)
    requires Wf(st)
    ensures Wf(DeleteClick(st, id, button))
  {
    if button == 0 {
      var p := (e: Elem) => e.id != id;
      RemoveFirstFilters(st.shapes, id);
      var f := Filter(st.shapes, p);
      FilterUniqueKeys(st.shapes, p, IdOf);
      forall i | 0 <= i < |f|
        ensures f[i].id < st.counter && f[i].width >= CommitMin && f[i].height >= CommitMin
        ensures st.current.Some? ==> f[i].id != st.current.value.id
      {
        var k :| 0 <= k < |st.shapes| && st.shapes[k] == f[i];
      }
    }
  }

  lemma PressWf(st: State, button: int, target: Target, x: int, y: int)
    requires Wf(st)
    ensures Wf(Press(st, button, target, x, y)) && Press(st, button, target, x, y).counter >= st.counter
  {
    if st.containerListening {
      DrawStartWf(st, button, x, y);
    }
  }

  lemma PointerMoveWf(st: State, x: int, y: int)
    requires Wf(st)
    ensures Wf(PointerMove(st, x, y)) && PointerMove(st, x, y).counter == st.counter
  {
    DrawMoveWf(st, x, y);
    var a := DrawMove(st, x, y);
    DragMoveWf(a, x, y);
    ResizeMoveWf(DragMove(a, x, y), x, y);
  }

  lemma ReleaseWf(st: State, button: int)
    requires Wf(st)
    ensures Wf(Release(st, button)) && Release(st, button).counter == st.counter
  {
    DrawUpWf(st, button);
  }

  lemma DocumentClickWf(st: State, target: Target)
    requires Wf(st)
    ensures Wf(DocumentClick(st, target)) && DocumentClick(st, target).counter == st.counter
  {
    if st.activeShape.Some? {
      ToggleWf(st, st.activeShape.value);
    }
  }

  lemma ClickWf(st: State, button: int, target: Target)
    requires Wf(st)
    ensures Wf(ClickOn(st, button, target)) && ClickOn(st, button, target).counter == st.counter
  {
    DocumentClickWf(st, target);
    var s := DocumentClick(st, target);
    if target.DeleteButton? {
      DeleteWf(s, target.id, button);
    }
  }

  lemma ToggleVisibilityWf(st: State, visible: bool)
    requires Wf(st)
    ensures Wf(ToggleVisibility(st, visible)) && ToggleVisibility(st, visible).counter == st.counter
  {
    if st.hasContainer && !visible {
      match FindIndex(st.shapes, HasActiveClass)
      case None =>
      case Some(i) => ToggleWf(st, st.shapes[i].id);
    }
  }

  /** Every event keeps the invariant, and the id counter never goes back, so no
      id is ever handed out twice while the module stays initialised. */
  lemma StepPreservesWf(st: State, ev: Event)
    requires Wf(st)
    ensures Wf(Step(st, ev))
    ensures Step(st, ev).counter >= st.counter
  {
    match ev
    case Down(button, target, x, y) => PressWf(st, button, target, x, y);
    case Move(x, y) => PointerMoveWf(st, x, y);
    case Up(button) => ReleaseWf(st, button);
    case Click(button, target) => ClickWf(st, button, target);
    case DoubleClickOn(button, id) => DoubleClickWf(st, id, button);
    case Hide(visible) => ToggleVisibilityWf(st, visible);
  }

  lemma DoubleClickWf(st: State, id: nat, button: int)
    requires Wf(st)
    ensures Wf(DoubleClick(st, id, button)) && DoubleClick(st, id, button).counter == st.counter
  {
    ToggleWf(st, id);
  }

  /** `init` and `cleanupShapes` establish the invariant. */
  lemma InitWf(st: State, hostIsElement: bool)
    requires Wf(st)
    ensures Wf(Init(st, hostIsElement)) && Wf(Cleanup(st)) && Wf(Loaded)
  {
  }
}

=== FILE: ruler.dfy ===
/** The React ruler's settings state: loading from the store with defaults,
    saving, keeping the toolbar inside the viewport, hotkeys, applying the
    toolbar's changes and resetting. */
module Ruler {
  import opened Wrappers
  import opened Geometry
  import opened JsText
  import opened Settings

  /** The toolbar's box as `getSafePosition` assumes it, and the margin it keeps. */
  const ToolbarWidth: int := 360
  const ToolbarHeight: int := 57
  const Padding: int := 10

  /** The window's inner size. */
  datatype Viewport = Viewport(width: int, height: int)

  /** The largest safe top and left coordinates. */
  function MaxTop(vp: Viewport): int { vp.height - ToolbarHeight - Padding }
  function MaxLeft(vp: Viewport): int { vp.width - ToolbarWidth - Padding }

  /** One property value per setting. */
  type Values = map<Key, Value>

  predicate Complete(s: Values)
  {
    forall k: Key :: k in s
  }

  /** The component's state: the eleven settings, the shape-clear counter handed
      to the shape container, whether the extension is hidden, and the store. */
  datatype State = State(settings: Values, store: Store, clearCounter: int, extensionHidden: bool)

  predicate Wf(st: State)
  {
    Complete(st.settings)
  }

  function Defaults(): (s: Values)
    ensures Complete(s)
    ensures forall k: Key :: s[k] == Default(k)
  {
    AllKeys();
    map k | k in Keys :: Default(k)
  }

  /** `Math.max(PADDING, Math.min(v, hi))`; NaN stays NaN. */
  function SafeCoord(v: Number, hi: int): (r: Number)
    ensures r.NaN? <==> v.NaN?
    ensures r.Int? ==> Padding <= r.n && (Padding <= hi ==> r.n <= hi)
    ensures v.Int? && Padding <= v.n <= hi ==> r == v
  {
    match v
    case NaN => NaN
    case Int(n) => Int(Clamp(n, Padding, hi))
  }

  /** `getSafePosition`: both coordinates parsed as decimal pixels, clamped, and printed back. */
  function GetSafePosition(pos: Position, vp: Viewport): (r: Position)
    ensures ParseInt(r.top, 10) == SafeCoord(ParseInt(pos.top, 10), MaxTop(vp))
    ensures ParseInt(r.left, 10) == SafeCoord(ParseInt(pos.left, 10), MaxLeft(vp))
  {
    SafeCoordReadBack(ParseInt(pos.top, 10), MaxTop(vp));
    SafeCoordReadBack(ParseInt(pos.left, 10), MaxLeft(vp));
    Position(Px(SafeCoord(ParseInt(pos.top, 10), MaxTop(vp))),
             Px(SafeCoord(ParseInt(pos.left, 10), MaxLeft(vp))))
  }

  /** What a safe position string reads back as. */
  lemma SafeCoordReadBack(v: Number, hi: int)
    ensures ParseInt(Px(SafeCoord(v, hi)), 10) == SafeCoord(v, hi)
  {
    PxRoundTrip(SafeCoord(v, hi));
  }

  /** Every safe coordinate reads back as NaN (when the input did not parse) or as a
      number at least the padding, and at most the bound whenever the bound is itself
      at least the padding. */
  lemma GetSafePositionBounds(pos: Position, vp: Viewport)
    ensures var r := GetSafePosition(pos, vp);
      var t, l := ParseInt(r.top, 10), ParseInt(r.left, 10);
      (t.NaN? <==> ParseInt(pos.top, 10).NaN?) && (l.NaN? <==> ParseInt(pos.left, 10).NaN?) &&
      (t.Int? ==> Padding <= t.n && (Padding <= MaxTop(vp) ==> t.n <= MaxTop(vp))) &&
      (l.Int? ==> Padding <= l.n && (Padding <= MaxLeft(vp) ==> l.n <= MaxLeft(vp)))
  {
    SafeCoordReadBack(ParseInt(pos.top, 10), MaxTop(vp));
    SafeCoordReadBack(ParseInt(pos.left, 10), MaxLeft(vp));
  }

  /** A position already written as in-range "Npx" strings is returned unchanged. */
  lemma GetSafePositionKeepsInRange(top: int, left: int, vp: Viewport)
    requires Padding <= top <= MaxTop(vp) && Padding <= left <= MaxLeft(vp)
    ensures GetSafePosition(Position(Px(Int(top)), Px(Int(left))), vp) == Position(Px(Int(top)), Px(Int(left)))
  {
    PxRoundTrip(Int(top));
    PxRoundTrip(Int(left));
  }

  /** Clamping a coordinate a second time changes nothing. */
  lemma SafeCoordIdempotent(v: Number, hi: int)
    ensures SafeCoord(SafeCoord(v, hi), hi) == SafeCoord(v, hi)
  {
    if v.Int? {
      ClampIdempotent(v.n, Padding, hi);
    }
  }

  /** `getSafePosition` is idempotent. */
  lemma GetSafePositionIdempotent(pos: Position, vp: Viewport)
    ensures GetSafePosition(GetSafePosition(pos, vp), vp) == GetSafePosition(pos, vp)
  {
    var t, l := SafeCoord(ParseInt(pos.top, 10), MaxTop(vp)), SafeCoord(ParseInt(pos.left, 10), MaxLeft(vp));
    assert ParseInt(Px(t), 10) == t by { PxRoundTrip(t); }
    assert ParseInt(Px(l), 10) == l by { PxRoundTrip(l); }
    SafeCoordIdempotent(ParseInt(pos.top, 10), MaxTop(vp));
    SafeCoordIdempotent(ParseInt(pos.left, 10), MaxLeft(vp));
  }

  /** `saveAndSet`: the value goes to the store under the property's storage key and into the state. */
  function SaveAndSet(st: State, k: Key, v: Value): (r: State)
    ensures r.settings == st.settings[k := v]
    ensures r.store == st.store[StorageKey(k) := v]
    ensures r.clearCounter == st.clearCounter && r.extensionHidden == st.extensionHidden
  {
    st.(settings := st.settings[k := v], store := st.store[StorageKey(k) := v])
  }

  /** `items[storageKeys[k]] ?? defaultSettings[k]`: a missing or null entry falls back. */
  function StoredOr(store: Store, k: Key): (v: Value)
    ensures StorageKey(k) in store && store[StorageKey(k)] != Null ==> v == store[StorageKey(k)]
    ensures !(StorageKey(k) in store && store[StorageKey(k)] != Null) ==> v == Default(k)
  {
    var name := StorageKey(k);
    if name in store && store[name] != Null then store[name] else Default(k)
  }

  /** The value the load effect gives one property: the toolbar position is also made safe. */
  function LoadValue(store: Store, k: Key, vp: Viewport): Value
  {
    var v := StoredOr(store, k);
    if k == ToolbarPosition then Pos(GetSafePosition(PositionOf(v), vp)) else v
  }

  /** The properties in `keys` read from the store one after the other, as the load loop does. */
  function LoadKeys(store: Store, keys: seq<Key>, vp: Viewport): (m: map<Key, Value>)
    ensures forall k :: k in m <==> k in keys
    ensures forall k :: k in m ==> m[k] == LoadValue(store, k, vp)
  {
    if |keys| == 0 then map[]
    else
      var k := keys[|keys| - 1];
      LoadKeys(store, keys[..|keys| - 1], vp)[k := LoadValue(store, k, vp)]
  }

  /** The load effect: every property read from the store, with defaults. */
  function Load(st: State, vp: Viewport): (r: State)
    ensures Wf(r)
    ensures r.store == st.store && r.clearCounter == st.clearCounter && r.extensionHidden == st.extensionHidden
    ensures forall k: Key :: r.settings[k] == LoadValue(st.store, k, vp)
  {
    AllKeys();
    st.(settings := LoadKeys(st.store, Keys, vp))
  }

  /** With nothing stored, loading gives every default, the position made safe. */
  lemma LoadEmpty(st: State, vp: Viewport)
    requires st.store == map[]
    ensures forall k: Key :: k != ToolbarPosition ==> Load(st, vp).settings[k] == Default(k)
    ensures Load(st, vp).settings[ToolbarPosition] == Pos(GetSafePosition(DefaultPosition, vp))
  {
    forall k: Key
      ensures StoredOr(st.store, k) == Default(k)
    {
    }
    LoadAllDefaults(st, vp);
  }

  /** A value saved and loaded back is the value itself, except that the toolbar
      position comes back made safe; every other property loads as before. */
  lemma SaveThenLoad(st: State, k: Key, v: Value, vp: Viewport)
    requires v != Null
    ensures var loaded := Load(SaveAndSet(st, k, v), vp).settings;
      loaded[k] == (if k == ToolbarPosition then Pos(GetSafePosition(PositionOf(v), vp)) else v) &&
      forall j: Key :: j != k ==> loaded[j] == Load(st, vp).settings[j]
  {
    var saved := SaveAndSet(st, k, v).store;
    assert StoredOr(saved, k) == v;
    forall j: Key | j != k
      ensures LoadValue(saved, j, vp) == LoadValue(st.store, j, vp)
    {
      StorageKeyInjective(j, k);
      assert StoredOr(saved, j) == StoredOr(st.store, j);
    }
  }

  /** The debounced viewport-resize handler: the position is saved only when making it safe changes it. */
  function Resize(st: State, vp: Viewport): (r: State)
    requires Wf(st)
    ensures Wf(r)
    ensures r.clearCounter == st.clearCounter && r.extensionHidden == st.extensionHidden
    ensures forall k: Key :: k != ToolbarPosition ==> r.settings[k] == st.settings[k]
    ensures forall name :: name != StorageKey(ToolbarPosition) ==>
      (name in r.store <==> name in st.store) && (name in st.store ==> r.store[name] == st.store[name])
  {
    var cur := PositionOf(st.settings[ToolbarPosition]);
    var safe := GetSafePosition(cur, vp);
    if safe.top != cur.top || safe.left != cur.left then SavePosition(st, safe) else st
  }

  /** Saving a toolbar position touches that property and its store entry only. */
  function SavePosition(st: State, p: Position): (r: State)
    requires Wf(st)
    ensures Wf(r) && r.settings[ToolbarPosition] == Pos(p)
    ensures r.clearCounter == st.clearCounter && r.extensionHidden == st.extensionHidden
    ensures forall k: Key :: k != ToolbarPosition ==> r.settings[k] == st.settings[k]
    ensures forall name :: name != StorageKey(ToolbarPosition) ==>
      (name in r.store <==> name in st.store) && (name in st.store ==> r.store[name] == st.store[name])
  {
    SaveAndSet(st, ToolbarPosition, Pos(p))
  }

  /** A resize changes the state exactly when the current position is not already
      safe for the viewport, and afterwards the position is one `getSafePosition`
      leaves alone. */
  lemma ResizeWritesOnlyChanges(st: State, vp: Viewport)
    requires Wf(st)
    ensures var cur := PositionOf(st.settings[ToolbarPosition]);
      Resize(st, vp) == st <==> GetSafePosition(cur, vp) == cur
    ensures var p := PositionOf(Resize(st, vp).settings[ToolbarPosition]);
      GetSafePosition(p, vp) == p
  {
    var cur := PositionOf(st.settings[ToolbarPosition]);
    GetSafePositionIdempotent(cur, vp);
    var safe := GetSafePosition(cur, vp);
    if safe != cur {
      assert Resize(st, vp).settings[ToolbarPosition] == Pos(safe);
    }
  }

  /** Resizing twice to the same viewport is resizing once. */
  lemma ResizeIdempotent(st: State, vp: Viewport)
    requires Wf(st)
    ensures Resize(Resize(st, vp), vp) == Resize(st, vp)
  {
    var cur := PositionOf(st.settings[ToolbarPosition]);
    GetSafePositionIdempotent(cur, vp);
  }

  /** The hotkey handler: the upper-cased key toggles toolbar visibility when it
      equals the toolbar key, otherwise hides or shows the extension when it
      equals the extension key. A key setting that is not a string never matches. */
  function OnKey(st: State, key: string): (r: State)
    requires Wf(st)
    ensures Wf(r) && r.clearCounter == st.clearCounter
    ensures forall k: Key :: k != ToolbarVisible ==> r.settings[k] == st.settings[k]
    ensures forall name :: name != StorageKey(ToolbarVisible) ==>
      (name in r.store <==> name in st.store) && (name in st.store ==> r.store[name] == st.store[name])
    ensures r.extensionHidden != st.extensionHidden ==> r.settings == st.settings && r.store == st.store
  {
    var k := Str(ToUpper(key));
    if k == st.settings[ToggleToolbarKey] then
      SaveAndSet(st, ToolbarVisible, Bool(!Truthy(st.settings[ToolbarVisible])))
    else if k == st.settings[ToggleExtensionKey] then
      st.(extensionHidden := !st.extensionHidden)
    else st
  }

  /** The toolbar key wins: a key matching it toggles toolbar visibility (saving the
      new value) and leaves the extension's visibility alone, even when the same
      key is also the extension key. */
  lemma OnKeyToolbarFirst(st: State, key: string)
    requires Wf(st)
    requires st.settings[ToggleToolbarKey] == Str(ToUpper(key))
    ensures var r := OnKey(st, key);
      r.extensionHidden == st.extensionHidden &&
      r.settings[ToolbarVisible] == Bool(!Truthy(st.settings[ToolbarVisible])) &&
      r.store[StorageKey(ToolbarVisible)] == r.settings[ToolbarVisible]
  {
  }

  /** A key matching only the extension key flips `extensionHidden` and nothing else;
      a key matching neither changes nothing. Case does not matter. */
  lemma OnKeyOtherwise(st: State, key: string)
    requires Wf(st)
    requires st.settings[ToggleToolbarKey] != Str(ToUpper(key))
    ensures st.settings[ToggleExtensionKey] == Str(ToUpper(key)) ==>
      OnKey(st, key) == st.(extensionHidden := !st.extensionHidden)
    ensures st.settings[ToggleExtensionKey] != Str(ToUpper(key)) ==> OnKey(st, key) == st
    ensures OnKey(st, ToUpper(key)) == OnKey(st, key)
  {
    ToUpperIdempotent(key);
  }

  /** `handleToolbarChange`: every property whose new value is defined is saved and set, in order. */
  function ToolbarChange(st: State, ch: Partial): (r: State)
    ensures r.clearCounter == st.clearCounter && r.extensionHidden == st.extensionHidden
    ensures st.settings.Keys <= r.settings.Keys
    ensures forall i :: 0 <= i < |ch| && ch[i].1.Some? ==> ch[i].0 in r.settings && StorageKey(ch[i].0) in r.store
  {
    if |ch| == 0 then st
    else
      var prev := ToolbarChange(st, ch[..|ch| - 1]);
      var last := ch[|ch| - 1];
      if last.1.Some? then SaveAndSet(prev, last.0, last.1.value) else prev
  }

  /** After a change, a property holds the last defined value the change gave it,
      or its old value; its store entry likewise; any other store entry is untouched. */
  lemma {:induction false} ToolbarChangeEffect(st: State, ch: Partial)
    ensures var r := ToolbarChange(st, ch);
      r.clearCounter == st.clearCounter && r.extensionHidden == st.extensionHidden &&
      (forall k: Key :: LastDefined(ch, k).Some? ==> k in r.settings && r.settings[k] == LastDefined(ch, k).value) &&
      (forall k: Key :: LastDefined(ch, k).None? ==> (k in r.settings <==> k in st.settings)) &&
      (forall k: Key :: LastDefined(ch, k).None? && k in st.settings ==> r.settings[k] == st.settings[k]) &&
      (forall k: Key :: LastDefined(ch, k).Some? ==>
        StorageKey(k) in r.store && r.store[StorageKey(k)] == LastDefined(ch, k).value) &&
      (forall k: Key :: LastDefined(ch, k).None? ==> (StorageKey(k) in r.store <==> StorageKey(k) in st.store)) &&
      (forall k: Key :: LastDefined(ch, k).None? && StorageKey(k) in st.store ==>
        r.store[StorageKey(k)] == st.store[StorageKey(k)]) &&
      (forall name :: KeyOf(name).None? ==> (name in r.store <==> name in st.store))
      && (forall name :: KeyOf(name).None? && name in st.store ==> r.store[name] == st.store[name])
  {
    if |ch| > 0 {
      ToolbarChangeEffect(st, ch[..|ch| - 1]);
      var last := ch[|ch| - 1];
      if last.1.Some? {
        forall k: Key
          ensures StorageKey(k) == StorageKey(last.0) <==> k == last.0
        {
          StorageKeyInjective(k, last.0);
        }
      }
    }
  }

  /** A change keeps every property defined. */
  lemma ToolbarChangeWf(st: State, ch: Partial)
    requires Wf(st)
    ensures Wf(ToolbarChange(st, ch))
    ensures forall k: Key :: ToolbarChange(st, ch).settings[k] == LastDefined(ch, k).GetOr(st.settings[k])
  {
    ToolbarChangeEffect(st, ch);
  }

  /** Saves and sets the default of each listed property in turn. */
  function SaveDefaults(st: State, ks: seq<Key>): (r: State)
    decreases |ks|
    ensures r.clearCounter == st.clearCounter && r.extensionHidden == st.extensionHidden
  {
    if |ks| == 0 then st else SaveDefaults(SaveAndSet(st, ks[0], Default(ks[0])), ks[1..])
  }

  lemma {:induction false} SaveDefaultsEffect(st: State, ks: seq<Key>)
    decreases |ks|
    ensures var r := SaveDefaults(st, ks);
      r.clearCounter == st.clearCounter && r.extensionHidden == st.extensionHidden &&
      (forall k: Key :: k in ks ==> k in r.settings && r.settings[k] == Default(k)) &&
      (forall k: Key :: k in ks ==> StorageKey(k) in r.store && r.store[StorageKey(k)] == Default(k)) &&
      (forall k: Key :: k !in ks && k in st.settings ==> k in r.settings && r.settings[k] == st.settings[k]) &&
      (forall k: Key :: k !in ks && StorageKey(k) in st.store ==>
        StorageKey(k) in r.store && r.store[StorageKey(k)] == st.store[StorageKey(k)])
  {
    if |ks| > 0 {
      var s1 := SaveAndSet(st, ks[0], Default(ks[0]));
      SaveDefaultsEffect(s1, ks[1..]);
      forall k: Key | k !in ks[1..]
        ensures k == ks[0] || k !in ks
        ensures k != ks[0] ==> StorageKey(k) != StorageKey(ks[0])
      {
        StorageKeyInjective(k, ks[0]);
      }
    }
  }

  /** `handleToolbarReset`: every property saved and set to its default, then the shape-clear counter bumped. */
  function Reset(st: State): (r: State)
    ensures Wf(r)
    ensures r.clearCounter == st.clearCounter + 1 && r.extensionHidden == st.extensionHidden
    ensures forall k: Key :: k in r.settings && r.settings[k] == Default(k)
    ensures forall k: Key :: StorageKey(k) in r.store && r.store[StorageKey(k)] == Default(k)
  {
    SaveDefaultsEffect(st, Keys);
    AllKeys();
    var r := SaveDefaults(st, Keys);
    r.(clearCounter := r.clearCounter + 1)
  }

  /** Loading a store that reads back every default gives the defaults, the position made safe. */
  lemma LoadAllDefaults(st: State, vp: Viewport)
    requires forall k: Key :: StoredOr(st.store, k) == Default(k)
    ensures forall k: Key :: k != ToolbarPosition ==> Load(st, vp).settings[k] == Default(k)
    ensures Load(st, vp).settings[ToolbarPosition] == Pos(GetSafePosition(DefaultPosition, vp))
  {
    forall k: Key | k != ToolbarPosition
      ensures Load(st, vp).settings[k] == Default(k)
    {
      assert Load(st, vp).settings[k] == LoadValue(st.store, k, vp);
    }
    LoadedPosition(st, vp, DefaultPosition);
  }

  /** The loaded toolbar position is the stored one made safe. */
  lemma LoadedPosition(st: State, vp: Viewport, p: Position)
    requires StoredOr(st.store, ToolbarPosition) == Pos(p)
    ensures Load(st, vp).settings[ToolbarPosition] == Pos(GetSafePosition(p, vp))
  {
    assert Load(st, vp).settings[ToolbarPosition] == LoadValue(st.store, ToolbarPosition, vp);
  }

  /** Loading right after a reset gives the defaults, the position made safe. */
  lemma ResetThenLoad(st: State, vp: Viewport)
    ensures forall k: Key :: k != ToolbarPosition ==> Load(Reset(st), vp).settings[k] == Default(k)
    ensures Load(Reset(st), vp).settings[ToolbarPosition] == Pos(GetSafePosition(DefaultPosition, vp))
  {
    forall k: Key
      ensures StoredOr(Reset(st).store, k) == Default(k)
    {
    }
    LoadAllDefaults(Reset(st), vp);
  }
}

=== FILE: seqs.dfy ===
/** The few array operations the handlers use: `findIndex`, `find` and `filter`. */
module Seqs {
  import opened Wrappers

  /** Index of the first element satisfying `p` (`Array.prototype.findIndex`). */
  function FindIndex<T>(s: seq<T>, p: T -> bool): (r: Option<nat>)
    ensures r.Some? ==> r.value < |s| && p(s[r.value])
    ensures r.Some? ==> forall j :: 0 <= j < r.value ==> !p(s[j])
    ensures r.None? ==> forall j :: 0 <= j < |s| ==> !p(s[j])
  {
    if |s| == 0 then None
    else if p(s[0]) then Some(0)
    else match FindIndex(s[1..], p)
      case None => None
      case Some(k) => Some(k + 1)
  }

  /** The first element satisfying `p` (`Array.prototype.find`). */
  function Find<T>(s: seq<T>, p: T -> bool): (r: Option<T>)
    ensures r.Some? ==> r.value in s && p(r.value)
    ensures r.None? ==> forall j :: 0 <= j < |s| ==> !p(s[j])
  {
    match FindIndex(s, p)
    case None => None
    case Some(i) => Some(s[i])
  }

  /** The elements satisfying `p`, in their original order (`Array.prototype.filter`). */
  function Filter<T>(s: seq<T>, p: T -> bool): (r: seq<T>)
    ensures |r| <= |s|
    ensures forall i :: 0 <= i < |r| ==> r[i] in s && p(r[i])
    ensures forall i :: 0 <= i < |s| && p(s[i]) ==> s[i] in r
  {
    if |s| == 0 then []
    else if p(s[0]) then [s[0]] + Filter(s[1..], p)
    else Filter(s[1..], p)
  }

  /** Filtering distributes over concatenation, so the survivors keep their relative order. */
  lemma {:induction false} FilterAppend<T>(a: seq<T>, b: seq<T>, p: T -> bool)
    ensures Filter(a + b, p) == Filter(a, p) + Filter(b, p)
  {
    if |a| == 0 {
      assert a + b == b;
    } else {
      assert (a + b)[1..] == a[1..] + b;
      FilterAppend(a[1..], b, p);
    }
  }

  /** A filter that keeps every element returns the sequence unchanged. */
  lemma {:induction false} FilterKeepsAll<T>(s: seq<T>, p: T -> bool)
    requires forall j :: 0 <= j < |s| ==> p(s[j])
    ensures Filter(s, p) == s
  {
    if |s| > 0 {
      FilterKeepsAll(s[1..], p);
    }
  }

  /** Filtering out the one element that fails `p` is cutting it out. */
  lemma FilterCutsOne<T>(a: seq<T>, x: T, b: seq<T>, p: T -> bool)
    requires forall j :: 0 <= j < |a| ==> p(a[j])
    requires forall j :: 0 <= j < |b| ==> p(b[j])
    requires !p(x)
    ensures Filter(a + [x] + b, p) == a + b
  {
    assert Filter([x], p) == [] by {
      assert [x][1..] == [];
    }
    calc {
      Filter(a + [x] + b, p);
    == { FilterAppend(a + [x], b, p); }
      Filter(a + [x], p) + Filter(b, p);
    == { FilterAppend(a, [x], p); }
      Filter(a, p) + Filter([x], p) + Filter(b, p);
    == { FilterKeepsAll(a, p); FilterKeepsAll(b, p); }
      a + [] + b;
    == { assert a + [] == a; }
      a + b;
    }
  }

  /** No two elements share a key. */
  predicate UniqueKeys<T, K(==)>(s: seq<T>, key: T -> K)
  {
    forall i, j :: 0 <= i < j < |s| ==> key(s[i]) != key(s[j])
  }

  /** Two different positions of a sequence with unique keys hold different keys. */
  lemma DistinctKeys<T, K>(s: seq<T>, key: T -> K, i: int, j: int)
    requires UniqueKeys(s, key)
    requires 0 <= i < |s| && 0 <= j < |s|
    ensures i != j ==> key(s[i]) != key(s[j])
  {
    if j < i {
      assert key(s[j]) != key(s[i]);
    }
  }

  /** `s.map(x => key(x) === k ? f(x) : x)`: every element with key `k` rewritten by `f`, the others kept. */
  function RewriteByKey<T, K(==)>(s: seq<T>, key: T -> K, k: K, f: T -> T): (r: seq<T>)
    ensures |r| == |s|
    ensures forall i :: 0 <= i < |s| ==> r[i] == (if key(s[i]) == k then f(s[i]) else s[i])
  {
    seq(|s|, i requires 0 <= i < |s| => if key(s[i]) == k then f(s[i]) else s[i])
  }

  /** Filtering keeps keys unique. */
  lemma {:induction false} FilterUniqueKeys<T, K>(s: seq<T>, p: T -> bool, key: T -> K)
    requires UniqueKeys(s, key)
    ensures UniqueKeys(Filter(s, p), key)
  {
    if |s| > 0 {
      FilterUniqueKeys(s[1..], p, key);
      var rest := Filter(s[1..], p);
      if p(s[0]) {
        forall j | 0 <= j < |rest|
          ensures key(rest[j]) != key(s[0])
        {
          var k :| 0 <= k < |s[1..]| && s[1..][k] == rest[j];
          assert s[k + 1] == rest[j];
        }
        var r := [s[0]] + rest;
        forall i, j | 0 <= i < j < |r|
          ensures key(r[i]) != key(r[j])
        {
          if i > 0 {
            assert r[i] == rest[i - 1] && r[j] == rest[j - 1];
          }
        }
      }
    }
  }
}

=== FILE: settings.dfy ===
/** The eleven user settings shared by the React ruler and the legacy content
    script: their names, the storage keys they are saved under, their default
    values, and the dynamically typed values the extension store can hold. */
module Settings {
  import opened Wrappers

  /** One property of the settings record. */
  datatype Key =
    | Opacity | LineColor | LineThickness | CursorType | ToolbarVisible | ToolbarPosition
    | ToggleToolbarKey | ToggleExtensionKey | LinesVisible | ShapeOpacity | ShapeColor

  /** The properties in declaration order, which is the order the load and reset loops visit them. */
  const Keys: seq<Key> := [Opacity, LineColor, LineThickness, CursorType, ToolbarVisible, ToolbarPosition,
                           ToggleToolbarKey, ToggleExtensionKey, LinesVisible, ShapeOpacity, ShapeColor]

  /** Every property is listed. */
  lemma AllKeys()
    ensures forall k: Key :: k in Keys
  {
    forall k: Key
      ensures k in Keys
    {
      match k
      case Opacity => assert Keys[0] == k;
      case LineColor => assert Keys[1] == k;
      case LineThickness => assert Keys[2] == k;
      case CursorType => assert Keys[3] == k;
      case ToolbarVisible => assert Keys[4] == k;
      case ToolbarPosition => assert Keys[5] == k;
      case ToggleToolbarKey => assert Keys[6] == k;
      case ToggleExtensionKey => assert Keys[7] == k;
      case LinesVisible => assert Keys[8] == k;
      case ShapeOpacity => assert Keys[9] == k;
      case ShapeColor => assert Keys[10] == k;
    }
  }

  /** A toolbar position as two CSS length strings. */
  datatype Position = Position(top: string, left: string)

  /** A value as the extension store hands it back. Fractions are kept as reals
      and never computed with. */
  datatype Value = Num(r: real) | Str(s: string) | Bool(b: bool) | Pos(p: Position) | Null

  /** The extension store: storage key to value. */
  type Store = map<string, Value>

  /** Changed settings as an object literal lists them; `None` is a property
      that is present but `undefined`. */
  type Partial = seq<(Key, Option<Value>)>

  /** The storage key a property is saved under. */
  function StorageKey(k: Key): string
  {
    match k
    case Opacity => "ruler_opacity"
    case LineColor => "ruler_lineColor"
    case LineThickness => "ruler_lineThickness"
    case CursorType => "ruler_cursorType"
    case ToolbarVisible => "ruler_toolbarVisible"
    case ToolbarPosition => "ruler_toolbarPosition"
    case ToggleToolbarKey => "ruler_toggleToolbarKey"
    case ToggleExtensionKey => "ruler_toggleExtensionKey"
    case LinesVisible => "ruler_linesVisible"
    case ShapeOpacity => "shape_opacity"
    case ShapeColor => "shape_color"
  }

  /** The property stored under a storage key, if any. */
  function KeyOf(name: string): (r: Option<Key>)
    ensures r.Some? ==> StorageKey(r.value) == name
    ensures r.None? ==> forall k: Key :: StorageKey(k) != name
  {
    if name == "ruler_opacity" then Some(Opacity)
    else if name == "ruler_lineColor" then Some(LineColor)
    else if name == "ruler_lineThickness" then Some(LineThickness)
    else if name == "ruler_cursorType" then Some(CursorType)
    else if name == "ruler_toolbarVisible" then Some(ToolbarVisible)
    else if name == "ruler_toolbarPosition" then Some(ToolbarPosition)
    else if name == "ruler_toggleToolbarKey" then Some(ToggleToolbarKey)
    else if name == "ruler_toggleExtensionKey" then Some(ToggleExtensionKey)
    else if name == "ruler_linesVisible" then Some(LinesVisible)
    else if name == "shape_opacity" then Some(ShapeOpacity)
    else if name == "shape_color" then Some(ShapeColor)
    else None
  }

  /** Looking up a property's storage key finds that property. */
  lemma KeyOfStorageKey(k: Key)
    ensures KeyOf(StorageKey(k)) == Some(k)
  {
    match k
    case Opacity =>
    case LineColor =>
    case LineThickness =>
    case CursorType =>
    case ToolbarVisible =>
    case ToolbarPosition =>
    case ToggleToolbarKey =>
    case ToggleExtensionKey =>
    case LinesVisible =>
    case ShapeOpacity =>
    case ShapeColor =>
  }

  /** The storage keys are pairwise distinct: a key's storage name determines the key. */
  lemma StorageKeyInjective(a: Key, b: Key)
    ensures StorageKey(a) == StorageKey(b) <==> a == b
  {
    KeyOfStorageKey(a);
    KeyOfStorageKey(b);
  }

  /** The default of every property. */
  function Default(k: Key): Value
  {
    match k
    case Opacity => Num(0.1)
    case LineColor => Str("#ff0000")
    case LineThickness => Num(1.0)
    case CursorType => Str("default")
    case ToolbarVisible => Bool(true)
    case ToolbarPosition => Pos(DefaultPosition)
    case ToggleToolbarKey => Str("X")
    case ToggleExtensionKey => Str("Z")
    case LinesVisible => Bool(true)
    case ShapeOpacity => Num(0.5)
    case ShapeColor => Str("#00ff00")
  }

  const DefaultPosition: Position := Position("10px", "10px")

  /** JavaScript truthiness of a stored value. */
  predicate Truthy(v: Value)
  {
    match v
    case Num(r) => r != 0.0
    case Str(s) => s != ""
    case Bool(b) => b
    case Pos(_) => true
    case Null => false
  }

  /** `value.top`, read as text: anything that is not a position object has no
      `top`, and `undefined` prints as "undefined". */
  function TopOf(v: Value): string
  {
    if v.Pos? then v.p.top else "undefined"
  }

  function LeftOf(v: Value): string
  {
    if v.Pos? then v.p.left else "undefined"
  }

  /** The position object behind a stored value, as the handlers read its fields. */
  function PositionOf(v: Value): (p: Position)
    ensures v.Pos? ==> p == v.p
    ensures !v.Pos? ==> p.top == "undefined" && p.left == "undefined"
  {
    Position(TopOf(v), LeftOf(v))
  }

  /** The last value a partial update gives `k`, skipping `undefined` ones. */
  function LastDefined(ch: Partial, k: Key): (r: Option<Value>)
    ensures r.Some? ==> exists i :: 0 <= i < |ch| && ch[i] == (k, Some(r.value))
    ensures r.None? ==> forall i :: 0 <= i < |ch| && ch[i].0 == k ==> ch[i].1.None?
  {
    if |ch| == 0 then None
    else
      var last := ch[|ch| - 1];
      if last.0 == k && last.1.Some? then
        assert ch[|ch| - 1] == (k, Some(last.1.value));
        last.1
      else LastDefined(ch[..|ch| - 1], k)
  }
}

=== FILE: shape_container.dfy ===
/** The React shape container: a registry of rectangles drawn on the page and
    the pointer and keyboard gestures that create, resize, move, select, delete
    and nudge them. Every handler is a pure map, filter or append over the
    ordered shape list. */
module ShapeContainer {
  import opened Wrappers
  import opened Seqs
  import opened Geometry

  /** `MIN_SIZE`: the smallest committed, resized or nudged width and height. */
  const MinSize: int := 5

  /** One rectangle. The source's ids are `nextId.toString()`; since printing an
      integer is injective, the integer itself stands for the id. */
  datatype Shape = Shape(id: int, x: int, y: int, width: int, height: int, active: bool)

  datatype Point = Point(x: int, y: int)

  /** An ongoing resize: which shape and handle, where the pointer went down, and the box then. */
  datatype ResizeRef = ResizeRef(id: int, dir: Dir, startX: int, startY: int, orig: Rect)

  /** An ongoing drag: which shape, and the pointer's offset from its corner at mouse-down. */
  datatype DragRef = DragRef(id: int, offsetX: int, offsetY: int)

  /** The component's state and refs. */
  datatype State = State(
    shapes: seq<Shape>,
    nextId: int,
    drawing: bool,
    start: Option<Point>,
    resize: Option<ResizeRef>,
    drag: Option<DragRef>)

  const Initial: State := State([], 1, false, None, None, None)

  function IdOf(sh: Shape): int { sh.id }

  /** Ids are unique, and every id is below `nextId`. */
  predicate Wf(st: State)
  {
    UniqueKeys(st.shapes, IdOf) &&
    forall i :: 0 <= i < |st.shapes| ==> st.shapes[i].id < st.nextId
  }

  /** Every shape with id `id` or none satisfies `p`. */
  function HasId(id: int): Shape -> bool
  {
    (sh: Shape) => sh.id == id
  }

  /** `handleMouseDownOnContainer`: a primary press on the bare container starts
      drawing and appends an empty, inactive shape at the pointer with id `nextId`,
      which then advances. Any other press is ignored. */
  function ContainerMouseDown(st: State, button: int, onContainer: bool, x: int, y: int): (r: State)
    ensures button != 0 || !onContainer ==> r == st
    ensures button == 0 && onContainer ==>
      r.shapes == st.shapes + [Shape(st.nextId, x, y, 0, 0, false)] &&
      r.nextId == st.nextId + 1 && r.drawing && r.start == Some(Point(x, y)) &&
      r.resize == st.resize && r.drag == st.drag
  {
    if button != 0 || !onContainer then st
    else st.(shapes := st.shapes + [Shape(st.nextId, x, y, 0, 0, false)], nextId := st.nextId + 1,
             drawing := true, start := Some(Point(x, y)))
  }

  /** The box being drawn, from the start point to the pointer. */
  function DrawBox(sh: Shape, start: Point, x: int, y: int): (r: Shape)
    ensures r.id == sh.id && r.active == sh.active
    ensures r.width == Abs(x - start.x) && r.height == Abs(y - start.y)
    ensures r.x == Min(x, start.x) && r.y == Min(y, start.y)
  {
    var b := BoundingBox(start.x, start.y, x, y);
    sh.(x := b.x, y := b.y, width := b.width, height := b.height)
  }

  /** The box a resize handle gives, from the box at mouse-down and the pointer's
      displacement: an 'e' handle moves the right edge, 'w' the left edge (the
      corner follows the pointer), likewise 's' and 'n'; then both sizes are
      raised to `MinSize`. Nothing pins the opposite edge. */
  function ResizeRect(dir: Dir, orig: Rect, dx: int, dy: int): (r: Rect)
    ensures r.width >= MinSize && r.height >= MinSize
    ensures Has(dir, 'w') ==> r.x == orig.x + dx && r.width == Max(MinSize, orig.width - dx)
    ensures Has(dir, 'e') ==> r.x == orig.x && r.width == Max(MinSize, orig.width + dx)
    ensures !Has(dir, 'e') && !Has(dir, 'w') ==> r.x == orig.x && r.width == Max(MinSize, orig.width)
    ensures Has(dir, 'n') ==> r.y == orig.y + dy && r.height == Max(MinSize, orig.height - dy)
    ensures Has(dir, 's') ==> r.y == orig.y && r.height == Max(MinSize, orig.height + dy)
    ensures !Has(dir, 'n') && !Has(dir, 's') ==> r.y == orig.y && r.height == Max(MinSize, orig.height)
  {
    NoOppositeEdges(dir);
    var w1 := if Has(dir, 'e') then orig.width + dx else orig.width;
    var h1 := if Has(dir, 's') then orig.height + dy else orig.height;
    var w2 := if Has(dir, 'w') then orig.width - dx else w1;
    var x := if Has(dir, 'w') then orig.x + dx else orig.x;
    var h2 := if Has(dir, 'n') then orig.height - dy else h1;
    var y := if Has(dir, 'n') then orig.y + dy else orig.y;
    Rect(x, y, Max(MinSize, w2), Max(MinSize, h2))
  }

  /** A resized shape takes the handle's box and becomes active. */
  function Resized(sh: Shape, rr: ResizeRef, x: int, y: int): (r: Shape)
    ensures r.id == sh.id && r.active
  {
    var b := ResizeRect(rr.dir, rr.orig, x - rr.startX, y - rr.startY);
    sh.(x := b.x, y := b.y, width := b.width, height := b.height, active := true)
  }

  /** A dragged shape: the pointer minus the recorded offset. */
  function Dragged(sh: Shape, d: DragRef, x: int, y: int): (r: Shape)
    ensures r.id == sh.id && r.width == sh.width && r.height == sh.height && r.active == sh.active
  {
    sh.(x := x - d.offsetX, y := y - d.offsetY)
  }

  /** The document `mousemove` handler, by priority: an ongoing draw reshapes shape
      `nextId - 1`; otherwise an ongoing resize reshapes its shape; otherwise an
      ongoing drag moves its shape. The refs are left as they are. */
  function MouseMove(st: State, x: int, y: int): (r: State)
    ensures r.nextId == st.nextId && r.drawing == st.drawing && r.start == st.start
    ensures r.resize == st.resize && r.drag == st.drag
  {
    if st.drawing && st.start.Some? then
      st.(shapes := RewriteByKey(st.shapes, IdOf, st.nextId - 1, (sh: Shape) => DrawBox(sh, st.start.value, x, y)))
    else if st.resize.Some? then
      st.(shapes := RewriteByKey(st.shapes, IdOf, st.resize.value.id, (sh: Shape) => Resized(sh, st.resize.value, x, y)))
    else if st.drag.Some? then
      st.(shapes := RewriteByKey(st.shapes, IdOf, st.drag.value.id, (sh: Shape) => Dragged(sh, st.drag.value, x, y)))
    else st
  }

  /** The id a move rewrites, if any. */
  function MovedId(st: State): Option<int>
  {
    if st.drawing && st.start.Some? then Some(st.nextId - 1)
    else if st.resize.Some? then Some(st.resize.value.id)
    else if st.drag.Some? then Some(st.drag.value.id)
    else None
  }

  /** A move rewrites the shapes of at most one id, keeps every id in place and
      never changes the number of shapes. */
  lemma MouseMoveRewritesOneId(st: State, x: int, y: int)
    ensures var r := MouseMove(st, x, y);
      |r.shapes| == |st.shapes| &&
      (forall i :: 0 <= i < |st.shapes| ==> r.shapes[i].id == st.shapes[i].id) &&
      (forall i :: 0 <= i < |st.shapes| && r.shapes[i] != st.shapes[i] ==>
        MovedId(st).Some? && st.shapes[i].id == MovedId(st).value)
  {
  }

  /** While drawing, a move gives the shape being drawn the bounding box of the
      start point and the pointer; no other shape changes. */
  lemma DrawMoveBoundingBox(st: State, x: int, y: int, i: int)
    requires st.drawing && st.start.Some?
    requires 0 <= i < |st.shapes|
    ensures var sh, r := st.shapes[i], MouseMove(st, x, y).shapes[i];
      var s := st.start.value;
      (sh.id == st.nextId - 1 ==>
        r == sh.(x := Min(x, s.x), y := Min(y, s.y), width := Abs(x - s.x), height := Abs(y - s.y))) &&
      (sh.id != st.nextId - 1 ==> r == sh)
  {
  }

  /** The document `mouseup` handler: a primary release while drawing keeps only the
      shapes at least `MinSize` in both directions; every release, of any button,
      ends every gesture. */
  function MouseUp(st: State, button: int): (r: State)
    ensures r.nextId == st.nextId
    ensures !r.drawing && r.start.None? && r.resize.None? && r.drag.None?
    ensures !(st.drawing && button == 0) ==> r.shapes == st.shapes
    ensures st.drawing && button == 0 ==>
      (forall i :: 0 <= i < |r.shapes| ==> r.shapes[i] in st.shapes && Big(r.shapes[i])) &&
      (forall i :: 0 <= i < |st.shapes| && Big(st.shapes[i]) ==> st.shapes[i] in r.shapes)
  {
    var shapes := if st.drawing && button == 0 then Filter(st.shapes, Big) else st.shapes;
    State(shapes, st.nextId, false, None, None, None)
  }

  /** The release as evidently intended: the commit filter applies to whichever
      button ends the draw, so no release leaves a shape below `MinSize` behind. */
  function MouseUpCommitting(st: State, button: int): (r: State)
    ensures r.nextId == st.nextId
    ensures !r.drawing && r.start.None? && r.resize.None? && r.drag.None?
    ensures !st.drawing ==> r.shapes == st.shapes
    ensures st.drawing ==>
      (forall i :: 0 <= i < |r.shapes| ==> r.shapes[i] in st.shapes && Big(r.shapes[i])) &&
      (forall i :: 0 <= i < |st.shapes| && Big(st.shapes[i]) ==> st.shapes[i] in r.shapes)
  {
    var shapes := if st.drawing then Filter(st.shapes, Big) else st.shapes;
    State(shapes, st.nextId, false, None, None, None)
  }

  /** With the intended release, a press on the container followed by a release of
      any button leaves no empty shape, and it agrees with the source's release on
      the primary button. */
  lemma CommittingReleaseDropsEmptyShape(st: State, x: int, y: int, button: int)
    ensures var s1 := ContainerMouseDown(st, 0, true, x, y);
      Shape(st.nextId, x, y, 0, 0, false) !in MouseUpCommitting(s1, button).shapes
    ensures MouseUpCommitting(st, 0) == MouseUp(st, 0)
  {
  }

  /** The commit filter: both sizes at least `MinSize`. */
  predicate Big(sh: Shape)
  {
    sh.width >= MinSize && sh.height >= MinSize
  }

  /** The commit filter keeps the surviving shapes in their order: filtering a
      list split anywhere is filtering the two parts. */
  lemma MouseUpKeepsOrder(st: State, k: nat)
    requires st.drawing && k <= |st.shapes|
    ensures MouseUp(st, 0).shapes == Filter(st.shapes[..k], Big) + Filter(st.shapes[k..], Big)
  {
    assert st.shapes == st.shapes[..k] + st.shapes[k..];
    FilterAppend(st.shapes[..k], st.shapes[k..], Big);
  }

  /** A release of another button ends a draw without the commit filter, so an
      empty shape survives. */
  lemma SecondaryReleaseKeepsEmptyShape(st: State, x: int, y: int)
    requires st.drag.None? && st.resize.None?
    ensures var s1 := ContainerMouseDown(st, 0, true, x, y);
      var s2 := MouseUp(s1, 2);
      Shape(st.nextId, x, y, 0, 0, false) in s2.shapes && !s2.drawing
    ensures var s1 := ContainerMouseDown(st, 0, true, x, y);
      Shape(st.nextId, x, y, 0, 0, false) !in MouseUp(s1, 0).shapes
  {
    var s1 := ContainerMouseDown(st, 0, true, x, y);
    assert s1.shapes[|st.shapes|] == Shape(st.nextId, x, y, 0, 0, false);
  }

  /** `toggleActive`: the shapes with that id flip, every other shape is deselected. */
  function ToggleActive(st: State, id: int): (r: State)
    ensures |r.shapes| == |st.shapes|
    ensures forall i :: 0 <= i < |st.shapes| ==>
      (r.shapes[i].active <==> st.shapes[i].id == id && !st.shapes[i].active) &&
      r.shapes[i].(active := st.shapes[i].active) == st.shapes[i]
    ensures r.nextId == st.nextId && r.drawing == st.drawing && r.start == st.start
    ensures r.resize == st.resize && r.drag == st.drag
  {
    st.(shapes := seq(|st.shapes|, i requires 0 <= i < |st.shapes| =>
      st.shapes[i].(active := if st.shapes[i].id == id then !st.shapes[i].active else false)))
  }

  /** No two shapes are active at once. */
  predicate AtMostOneActive(shapes: seq<Shape>)
  {
    forall i, j :: 0 <= i < |shapes| && 0 <= j < |shapes| && shapes[i].active && shapes[j].active ==> i == j
  }

  /** With unique ids, at most one shape is active after a toggle. */
  lemma ToggleActiveSelectsOne(st: State, id: int)
    requires Wf(st)
    ensures AtMostOneActive(ToggleActive(st, id).shapes)
  {
    var r := ToggleActive(st, id).shapes;
    forall i, j | 0 <= i < |r| && 0 <= j < |r| && r[i].active && r[j].active
      ensures i == j
    {
      DistinctKeys(st.shapes, IdOf, i, j);
    }
  }

  /** The shapes a removal keeps. */
  function NotId(id: int): Shape -> bool
  {
    (sh: Shape) => sh.id != id
  }

  /** `removeShape`: drops exactly the shapes with that id. */
  function RemoveShape(st: State, id: int): (r: State)
    ensures forall i :: 0 <= i < |r.shapes| ==> r.shapes[i] in st.shapes && r.shapes[i].id != id
    ensures forall i :: 0 <= i < |st.shapes| && st.shapes[i].id != id ==> st.shapes[i] in r.shapes
    ensures r.nextId == st.nextId && r.drawing == st.drawing && r.start == st.start
    ensures r.resize == st.resize && r.drag == st.drag
  {
    st.(shapes := Filter(st.shapes, NotId(id)))
  }

  /** A removal keeps the other shapes in their order: removing from a list split
      anywhere is removing from the two parts. */
  lemma RemoveShapeKeepsOrder(st: State, id: int, k: nat)
    requires k <= |st.shapes|
    ensures RemoveShape(st, id).shapes == RemoveShape(st.(shapes := st.shapes[..k]), id).shapes + RemoveShape(st.(shapes := st.shapes[k..]), id).shapes
  {
    assert st.shapes == st.shapes[..k] + st.shapes[k..];
    FilterAppend(st.shapes[..k], st.shapes[k..], NotId(id));
  }

  /** With unique ids, removing the id of the shape at position `k` cuts exactly
      that position out of the list; removing an id no shape has changes nothing. */
  lemma RemoveShapeCutsOne(st: State, id: int)
    requires Wf(st)
    ensures forall k :: 0 <= k < |st.shapes| && st.shapes[k].id == id ==>
      RemoveShape(st, id).shapes == st.shapes[..k] + st.shapes[k + 1..]
    ensures (forall k :: 0 <= k < |st.shapes| ==> st.shapes[k].id != id) ==> RemoveShape(st, id).shapes == st.shapes
  {
    forall k | 0 <= k < |st.shapes| && st.shapes[k].id == id
      ensures RemoveShape(st, id).shapes == st.shapes[..k] + st.shapes[k + 1..]
    {
      var a, b := st.shapes[..k], st.shapes[k + 1..];
      assert st.shapes == a + [st.shapes[k]] + b;
      forall j | 0 <= j < |a|
        ensures NotId(id)(a[j])
      {
        DistinctKeys(st.shapes, IdOf, j, k);
      }
      forall j | 0 <= j < |b|
        ensures NotId(id)(b[j])
      {
        DistinctKeys(st.shapes, IdOf, k, k + 1 + j);
      }
      FilterCutsOne(a, st.shapes[k], b, NotId(id));
    }
    if forall k :: 0 <= k < |st.shapes| ==> st.shapes[k].id != id {
      FilterKeepsAll(st.shapes, NotId(id));
    }
  }

  /** The clear-trigger effect: a new trigger value empties the registry; ids keep counting. */
  function Clear(st: State): (r: State)
    ensures r.shapes == [] && r.nextId == st.nextId
    ensures r.drawing == st.drawing && r.start == st.start && r.resize == st.resize && r.drag == st.drag
  {
    st.(shapes := [])
  }

  /** `handleResizeMouseDown`: records the shape's box and the pointer, if the shape exists. */
  function ResizeMouseDown(st: State, id: int, dir: Dir, x: int, y: int): (r: State)
    ensures r.shapes == st.shapes && r.nextId == st.nextId && r.drag == st.drag && r.drawing == st.drawing
    ensures Find(st.shapes, HasId(id)).None? ==> r == st
    ensures Find(st.shapes, HasId(id)).Some? ==>
      var sh := Find(st.shapes, HasId(id)).value;
      r.resize == Some(ResizeRef(id, dir, x, y, Rect(sh.x, sh.y, sh.width, sh.height)))
  {
    match Find(st.shapes, HasId(id))
    case None => st
    case Some(sh) => st.(resize := Some(ResizeRef(id, dir, x, y, Rect(sh.x, sh.y, sh.width, sh.height))))
  }

  /** `handleShapeMouseDown`: records the pointer's offset from the shape's corner,
      for any button and whether or not the shape is active. */
  function ShapeMouseDown(st: State, id: int, x: int, y: int): (r: State)
    ensures r.shapes == st.shapes && r.nextId == st.nextId && r.resize == st.resize && r.drawing == st.drawing
    ensures Find(st.shapes, HasId(id)).None? ==> r == st
    ensures Find(st.shapes, HasId(id)).Some? ==>
      var sh := Find(st.shapes, HasId(id)).value;
      r.drag == Some(DragRef(id, x - sh.x, y - sh.y))
  {
    match Find(st.shapes, HasId(id))
    case None => st
    case Some(sh) => st.(drag := Some(DragRef(id, x - sh.x, y - sh.y)))
  }

  /** A press on a shape followed by a move translates that shape by the pointer's
      displacement, keeping its size and selection; the other shapes stay. */
  lemma DragTranslates(st: State, id: int, x0: int, y0: int, x1: int, y1: int)
    requires Wf(st) && !st.drawing && st.resize.None?
    requires Find(st.shapes, HasId(id)).Some?
    ensures var sh := Find(st.shapes, HasId(id)).value;
      var r := MouseMove(ShapeMouseDown(st, id, x0, y0), x1, y1).shapes;
      |r| == |st.shapes| &&
      forall i :: 0 <= i < |st.shapes| ==>
        r[i] == (if st.shapes[i].id == id then sh.(x := sh.x + (x1 - x0), y := sh.y + (y1 - y0)) else st.shapes[i])
  {
    var sh := Find(st.shapes, HasId(id)).value;
    forall i | 0 <= i < |st.shapes| && st.shapes[i].id == id
      ensures st.shapes[i] == sh
    {
      var k :| 0 <= k < |st.shapes| && st.shapes[k] == sh;
      DistinctKeys(st.shapes, IdOf, i, k);
    }
  }

  /** A resize drag: the handle's edges follow the pointer, the size never drops
      below `MinSize`, and the shape becomes active. */
  lemma ResizeFollowsPointer(st: State, id: int, dir: Dir, x0: int, y0: int, x1: int, y1: int, i: int)
    requires !st.drawing && Find(st.shapes, HasId(id)).Some?
    requires 0 <= i < |st.shapes| && st.shapes[i].id == id
    ensures var o := Find(st.shapes, HasId(id)).value;
      var r := MouseMove(ResizeMouseDown(st, id, dir, x0, y0), x1, y1).shapes[i];
      r.active && r.width >= MinSize && r.height >= MinSize &&
      r == st.shapes[i].(x := r.x, y := r.y, width := r.width, height := r.height, active := true) &&
      (Has(dir, 'e') ==> r.x == o.x && r.width == Max(MinSize, o.width + (x1 - x0))) &&
      (Has(dir, 'w') ==> r.x == o.x + (x1 - x0) && r.width == Max(MinSize, o.width - (x1 - x0))) &&
      (Has(dir, 's') ==> r.y == o.y && r.height == Max(MinSize, o.height + (y1 - y0))) &&
      (Has(dir, 'n') ==> r.y == o.y + (y1 - y0) && r.height == Max(MinSize, o.height - (y1 - y0)))
  {
  }

  /** Unlike the legacy module, the React resize does not pin the opposite edge: a
      west handle dragged past the east edge moves the east edge too. */
  lemma ResizeDoesNotPin()
    ensures var r := ResizeRect(W, Rect(0, 0, 10, 10), 20, 0);
      r == Rect(20, 0, 5, 10) && r.x + r.width != 0 + 10
  {
  }

  /** The arrow-key nudge of one box: Up and Left grow towards the top or left,
      Down and Right grow towards the bottom or right; other keys do nothing. */
  function Nudge(b: Rect, key: string): (r: Option<Rect>)
    ensures key == "ArrowUp" ==> r == Some(Rect(b.x, b.y - 1, b.width, b.height + 1))
    ensures key == "ArrowDown" ==> r == Some(Rect(b.x, b.y, b.width, b.height + 1))
    ensures key == "ArrowLeft" ==> r == Some(Rect(b.x - 1, b.y, b.width + 1, b.height))
    ensures key == "ArrowRight" ==> r == Some(Rect(b.x, b.y, b.width + 1, b.height))
    ensures key !in {"ArrowUp", "ArrowDown", "ArrowLeft", "ArrowRight"} ==> r.None?
  {
    if key == "ArrowUp" then Some(b.(y := b.y - 1, height := b.height + 1))
    else if key == "ArrowDown" then Some(b.(height := b.height + 1))
    else if key == "ArrowLeft" then Some(b.(x := b.x - 1, width := b.width + 1))
    else if key == "ArrowRight" then Some(b.(width := b.width + 1))
    else None
  }

  function IsActive(sh: Shape): bool { sh.active }

  /** The document `keydown` handler: an arrow key nudges the first active shape,
      raising both sizes to `MinSize`; every shape with its id takes the new box. */
  function KeyDown(st: State, key: string): (r: State)
    ensures r.nextId == st.nextId && r.drawing == st.drawing && r.start == st.start
    ensures r.resize == st.resize && r.drag == st.drag
  {
    match Find(st.shapes, IsActive)
    case None => st
    case Some(a) =>
      match Nudge(Rect(a.x, a.y, a.width, a.height), key)
      case None => st
      case Some(b) =>
        var w, h := Max(MinSize, b.width), Max(MinSize, b.height);
        st.(shapes := RewriteByKey(st.shapes, IdOf, a.id, (sh: Shape) => sh.(x := b.x, y := b.y, width := w, height := h)))
  }

  /** With no active shape, or a key that is not an arrow, the registry is unchanged;
      otherwise only the first active shape's id is rewritten, to the nudged box
      with both sizes at least `MinSize`, and the nudge never shrinks a shape
      already at least `MinSize`. */
  lemma KeyDownEffect(st: State, key: string)
    ensures Find(st.shapes, IsActive).None? ==> KeyDown(st, key) == st
    ensures key !in {"ArrowUp", "ArrowDown", "ArrowLeft", "ArrowRight"} ==> KeyDown(st, key) == st
    ensures var r := KeyDown(st, key).shapes;
      |r| == |st.shapes| &&
      forall i :: 0 <= i < |st.shapes| && r[i] != st.shapes[i] ==>
        var a := Find(st.shapes, IsActive);
        a.Some? && st.shapes[i].id == a.value.id &&
        r[i].width >= MinSize && r[i].height >= MinSize &&
        r[i].id == st.shapes[i].id && r[i].active == st.shapes[i].active &&
        (a.value.width >= MinSize ==> r[i].width >= a.value.width) &&
        (a.value.height >= MinSize ==> r[i].height >= a.value.height)
    ensures var a := Find(st.shapes, IsActive);
      a.Some? && Nudge(Rect(a.value.x, a.value.y, a.value.width, a.value.height), key).Some? ==>
      var b := Nudge(Rect(a.value.x, a.value.y, a.value.width, a.value.height), key).value;
      var r := KeyDown(st, key).shapes;
      forall i :: 0 <= i < |st.shapes| ==>
        r[i] == (if st.shapes[i].id == a.value.id
                 then st.shapes[i].(x := b.x, y := b.y, width := Max(MinSize, b.width), height := Max(MinSize, b.height))
                 else st.shapes[i])
  {
  }

  /** What the pointer can press: the bare container, a shape's body (its size
      label included), or, on the active shape only, a resize handle or the delete
      button (which sits on the body, so pressing it starts a drag). */
  datatype Target = Container | Body(id: int) | Handle(id: int, dir: Dir) | DeleteButton(id: int)

  /** The inputs the component reacts to. */
  datatype Event =
    | Down(button: int, target: Target, x: int, y: int)
    | Move(x: int, y: int)
    | Up(button: int)
    | DoubleClick(id: int)
    | DeleteClick(id: int)
    | Key(key: string)
    | ClearTrigger

  /** Whether a shape with that id is on screen, and whether it is the active one. */
  predicate Shown(st: State, id: int) { exists i :: 0 <= i < |st.shapes| && st.shapes[i].id == id }
  predicate ShownActive(st: State, id: int)
  {
    exists i :: 0 <= i < |st.shapes| && st.shapes[i].id == id && st.shapes[i].active
  }

  /** One input, dispatched to its handler. Presses, double clicks and delete clicks
      on elements that are not rendered do not happen and are ignored. */
  function Step(st: State, ev: Event): State
  {
    match ev
    case Down(button, target, x, y) =>
      (match target
       case Container => ContainerMouseDown(st, button, true, x, y)
       case Body(id) => if Shown(st, id) then ShapeMouseDown(st, id, x, y) else st
       case Handle(id, dir) => if ShownActive(st, id) then ResizeMouseDown(st, id, dir, x, y) else st
       case DeleteButton(id) => if ShownActive(st, id) then ShapeMouseDown(st, id, x, y) else st)
    case Move(x, y) => MouseMove(st, x, y)
    case Up(button) => MouseUp(st, button)
    case DoubleClick(id) => if Shown(st, id) then ToggleActive(st, id) else st
    case DeleteClick(id) => if ShownActive(st, id) then RemoveShape(st, id) else st
    case Key(key) => KeyDown(st, key)
    case ClearTrigger => Clear(st)
  }

  /** Every input keeps ids unique and below `nextId`, and `nextId` never decreases. */
  lemma StepPreservesWf(st: State, ev: Event)
    requires Wf(st)
    ensures Wf(Step(st, ev))
    ensures Step(st, ev).nextId >= st.nextId
  {
    var r := Step(st, ev);
    match ev
    case Down(button, target, x, y) =>
      if target.Container? && button == 0 {
        forall i, j | 0 <= i < j < |r.shapes|
          ensures IdOf(r.shapes[i]) != IdOf(r.shapes[j])
        {
          if j < |st.shapes| {
            assert IdOf(st.shapes[i]) != IdOf(st.shapes[j]);
          }
        }
      }
    case Move(x, y) =>
      MouseMoveRewritesOneId(st, x, y);
      assert forall i :: 0 <= i < |st.shapes| ==> IdOf(r.shapes[i]) == IdOf(st.shapes[i]);
    case Up(button) =>
      if st.drawing && button == 0 {
        FilterUniqueKeys(st.shapes, Big, IdOf);
      }
    case DoubleClick(id) =>
      assert forall i :: 0 <= i < |st.shapes| ==> IdOf(r.shapes[i]) == IdOf(st.shapes[i]);
    case DeleteClick(id) =>
      FilterUniqueKeys(st.shapes, NotId(id), IdOf);
    case Key(key) =>
      assert forall i :: 0 <= i < |st.shapes| ==> IdOf(r.shapes[i]) == IdOf(st.shapes[i]);
    case ClearTrigger =>
  }
}

=== FILE: toolbar.dfy ===
/** The React toolbar: the header drag controller that keeps the toolbar inside
    the window, and the controls whose change handlers transform the value
    before reporting it (hide lines, hotkey text, the collapse toggle). */
module Toolbar {
  import opened Wrappers
  import opened Geometry
  import opened JsText
  import opened Settings
  import Ruler

  /** The drag controller's closure state: whether a drag is on, the pointer's
      offset from the toolbar's corner at mouse-down, the toolbar's box read at
      mouse-down, and the inline `top`/`left` style strings. */
  datatype Drag = Drag(dragging: bool, offsetX: int, offsetY: int, rect: Rect, style: Position)

  /** The controller before any drag, showing `style`. */
  function Idle(style: Position): Drag
  {
    Drag(false, 0, 0, Rect(0, 0, 0, 0), style)
  }

  /** Header `mousedown`: starts a drag and records the pointer's offset from the toolbar's box. */
  function MouseDown(d: Drag, clientX: int, clientY: int, rect: Rect): (r: Drag)
    ensures r.dragging && r.rect == rect && r.style == d.style
    ensures r.rect.x + r.offsetX == clientX && r.rect.y + r.offsetY == clientY
  {
    Drag(true, clientX - rect.x, clientY - rect.y, rect, d.style)
  }

  /** Document `mousemove`: while dragging, the pointer minus the offset, clamped to
      `[0, inner size - toolbar size]` on each axis, written as pixel strings. */
  function MouseMove(d: Drag, clientX: int, clientY: int, vp: Ruler.Viewport): (r: Drag)
    ensures !d.dragging ==> r == d
    ensures r.dragging == d.dragging && r.offsetX == d.offsetX && r.offsetY == d.offsetY && r.rect == d.rect
  {
    if !d.dragging then d
    else
      var x := Clamp(clientX - d.offsetX, 0, vp.width - d.rect.width);
      var y := Clamp(clientY - d.offsetY, 0, vp.height - d.rect.height);
      d.(style := Position(Px(Int(y)), Px(Int(x))))
  }

  /** The coordinate a pixel string reads back as, when it is a number. */
  predicate ReadsWithin(s: string, hi: int)
  {
    var v := ParseInt(s, 10);
    v.Int? && 0 <= v.n && (0 <= hi ==> v.n <= hi)
  }

  /** A dragged toolbar's `left` reads back within `[0, innerWidth - width]` and its
      `top` within `[0, innerHeight - height]` (the upper bound whenever it is not negative). */
  lemma MouseMoveInBounds(d: Drag, clientX: int, clientY: int, vp: Ruler.Viewport)
    requires d.dragging
    ensures var r := MouseMove(d, clientX, clientY, vp);
      ReadsWithin(r.style.left, vp.width - d.rect.width) && ReadsWithin(r.style.top, vp.height - d.rect.height)
  {
    var x := Clamp(clientX - d.offsetX, 0, vp.width - d.rect.width);
    var y := Clamp(clientY - d.offsetY, 0, vp.height - d.rect.height);
    var r := MouseMove(d, clientX, clientY, vp);
    assert r.style == Position(Px(Int(y)), Px(Int(x)));
    assert ParseInt(r.style.left, 10) == Int(x) by { PxRoundTrip(Int(x)); }
    assert ParseInt(r.style.top, 10) == Int(y) by { PxRoundTrip(Int(y)); }
  }

  /** Away from the window's edges a drag is a pure translation: the toolbar's corner
      moves by exactly the pointer's displacement since mouse-down. */
  lemma DragTranslates(d: Drag, downX: int, downY: int, rect: Rect, clientX: int, clientY: int, vp: Ruler.Viewport)
    requires 0 <= rect.x + (clientX - downX) <= vp.width - rect.width
    requires 0 <= rect.y + (clientY - downY) <= vp.height - rect.height
    ensures MouseMove(MouseDown(d, downX, downY, rect), clientX, clientY, vp).style ==
      Position(Px(Int(rect.y + (clientY - downY))), Px(Int(rect.x + (clientX - downX))))
  {
  }

  /** Document `mouseup`: while dragging, ends the drag and reports the style's
      position as a settings change; otherwise reports nothing. */
  function MouseUp(d: Drag): (r: (Drag, Partial))
    ensures !r.0.dragging
    ensures !d.dragging ==> r == (d, [])
    ensures d.dragging ==> r.1 == [(ToolbarPosition, Some(Pos(d.style)))]
    ensures r.0.style == d.style
  {
    if !d.dragging then (d, []) else (d.(dragging := false), [(ToolbarPosition, Some(Pos(d.style)))])
  }

  /** The position is reported once per drag: a second mouse-up reports nothing and changes nothing. */
  lemma MouseUpOnce(d: Drag)
    ensures MouseUp(MouseUp(d).0) == (MouseUp(d).0, [])
  {
  }

  /** The "Hide lines" checkbox shows the negation of `linesVisible`. */
  function HideLinesShown(linesVisible: Value): bool
  {
    !Truthy(linesVisible)
  }

  /** Its change handler reports the negation of the checkbox. */
  function HideLinesChange(checked: bool): Partial
  {
    [(LinesVisible, Some(Bool(!checked)))]
  }

  /** The double negation round trip: reporting the box as displayed keeps the
      visibility's truth value, and toggling the box flips it. */
  lemma HideLinesRoundTrip(st: Ruler.State, checked: bool)
    requires Ruler.Wf(st)
    ensures var r := Ruler.ToolbarChange(st, HideLinesChange(checked));
      Ruler.Wf(r) && Truthy(r.settings[LinesVisible]) == !checked
    ensures Truthy(Ruler.ToolbarChange(st, HideLinesChange(HideLinesShown(st.settings[LinesVisible]))).settings[LinesVisible])
      == Truthy(st.settings[LinesVisible])
    ensures Truthy(Ruler.ToolbarChange(st, HideLinesChange(!HideLinesShown(st.settings[LinesVisible]))).settings[LinesVisible])
      == !Truthy(st.settings[LinesVisible])
  {
    Ruler.ToolbarChangeWf(st, HideLinesChange(checked));
    Ruler.ToolbarChangeWf(st, HideLinesChange(HideLinesShown(st.settings[LinesVisible])));
    Ruler.ToolbarChangeWf(st, HideLinesChange(!HideLinesShown(st.settings[LinesVisible])));
  }

  /** A hotkey text box reports its text upper-cased. */
  function KeyTextChange(k: Key, text: string): (ch: Partial)
    requires k == ToggleToolbarKey || k == ToggleExtensionKey
    ensures |ch| == 1 && ch[0].0 == k && ch[0].1.Some? && ch[0].1.value.Str?
    ensures var s := ch[0].1.value.s;
      |s| == |text| && forall i :: 0 <= i < |s| ==> !('a' <= s[i] <= 'z')
    ensures ch[0].1.value.s == ToUpper(text)
  {
    [(k, Some(Str(ToUpper(text))))]
  }

  /** After typing into a hotkey box, pressing the typed key in either case
      triggers that hotkey; the toolbar key's box wins when both hold it. */
  lemma KeyTextThenPress(st: Ruler.State, text: string, key: string)
    requires Ruler.Wf(st)
    requires ToUpper(key) == ToUpper(text)
    ensures var r := Ruler.ToolbarChange(st, KeyTextChange(ToggleToolbarKey, text));
      Ruler.Wf(r) &&
      Ruler.OnKey(r, key).settings[ToolbarVisible] == Bool(!Truthy(r.settings[ToolbarVisible])) &&
      Ruler.OnKey(r, key).extensionHidden == r.extensionHidden
  {
    var r := Ruler.ToolbarChange(st, KeyTextChange(ToggleToolbarKey, text));
    Ruler.ToolbarChangeWf(st, KeyTextChange(ToggleToolbarKey, text));
    assert r.settings[ToggleToolbarKey] == Str(ToUpper(text));
    Ruler.OnKeyToolbarFirst(r, key);
  }

  /** The header button reports the collapse state flipped. */
  function ToggleClick(toolbarVisible: Value): Partial
  {
    [(ToolbarVisible, Some(Bool(!Truthy(toolbarVisible))))]
  }

  /** Clicking the header button twice restores the toolbar's visibility. */
  lemma ToggleClickTwice(st: Ruler.State)
    requires Ruler.Wf(st)
    ensures var s1 := Ruler.ToolbarChange(st, ToggleClick(st.settings[ToolbarVisible]));
      Ruler.Wf(s1) &&
      Truthy(s1.settings[ToolbarVisible]) == !Truthy(st.settings[ToolbarVisible]) &&
      Truthy(Ruler.ToolbarChange(s1, ToggleClick(s1.settings[ToolbarVisible])).settings[ToolbarVisible])
        == Truthy(st.settings[ToolbarVisible])
  {
    var s1 := Ruler.ToolbarChange(st, ToggleClick(st.settings[ToolbarVisible]));
    Ruler.ToolbarChangeWf(st, ToggleClick(st.settings[ToolbarVisible]));
    Ruler.ToolbarChangeWf(s1, ToggleClick(s1.settings[ToolbarVisible]));
  }

  /** A finished drag saved through the ruler stores the dragged position. */
  lemma DragSaved(st: Ruler.State, d: Drag)
    requires Ruler.Wf(st) && d.dragging
    ensures var r := Ruler.ToolbarChange(st, MouseUp(d).1);
      r.settings[ToolbarPosition] == Pos(d.style) && r.store[StorageKey(ToolbarPosition)] == Pos(d.style)
  {
    Ruler.ToolbarChangeWf(st, MouseUp(d).1);
    Ruler.ToolbarChangeEffect(st, MouseUp(d).1);
  }
}

=== FILE: wrappers.dfy ===
/** Optional values, used wherever the source has `undefined`, `null` or a missing element. */
module Wrappers {

  datatype Option<+T> = None | Some(value: T) {

    /** The carried value, or `default` when there is none (the `??` operator). */
    function GetOr(default: T): T
    {
      match this
      case Some(v) => v
      case None => default
    }
  }
}
